=== FILE: README.md ===
# Photo backend handlers, modelled in Dafny

The system is a set of AWS Lambda handlers behind a photo-storage web app. All
of them share one key-value table. Its layout:

- a user's media rows have `PK = userId`;
- a user's album rows have `SK = "ALBUM#" + id`;
- a detected face of an image has the row `PK = "IMAGE#" + imageId`,
  `SK = "FACE#" + faceId`.

The HTTP handlers authenticate the caller through the identity provider and
then do the following:

- create or rename albums, with names unique per user regardless of case;
- list a user's albums;
- assign media to an album and remove them from it;
- page through an album's media with an opaque continuation token;
- delete files together with their rows and the face rows of their images;
- name a face and every face the recognition service finds similar to it.

The stream and event handlers work on the same table:

- index the faces of a new photo and store them in batches of 25;
- give newly indexed faces the name of their closest known match;
- record an upload, optionally with a thumbnail.

The model is functional:

- The table is an immutable `map<Key, Row>` (module `Table`).
- Every handler is a function or method from its inputs and the table to a
  response and the new table.
- Everything outside the program is a parameter: the identity provider, the
  recognition service, the object store, the clock and `randomUUID`.
- Store failures are parameters too:
  - `BatchWriteItem`'s unprocessed keys;
  - the keys whose `BatchWriteItem` call throws (a batch carrying one of them is refused);
  - one flag or key set per other store call the core makes:
    - createUpdateAlbum's name Query, GetItem and PutItem;
    - getAllAlbumForUser's Query;
    - the album checks of getAlbumPhotos and assignPhotosToAlbum;
    - getAlbumPhotos' page Query;
    - the membership loop's UpdateItem;
    - the face handlers' UpdateItem calls;
    - the face-row Query of each image in deleteObjectsInS3.

Modules, in dependency order:

- `Base`: `Option` and `Result` wrappers, plus JavaScript truthiness.
- `Strings`: prefixes, `trim`, ASCII `toLowerCase`, `split('/')` and `join`,
  and the sort-key order with sorted key lists.
- `Json`: response bodies.
- `Table`: the table, queries, and batch writes and chunking.
- `Http` (`lambdas/src/utility.ts`): response builders, the token header, the
  retrying user lookup, and the authentication prelude.
- `Albums`: create or update an album, and list albums.
- `AlbumPhotos`: album pages and continuation tokens.
- `Membership`: assign and unassign.
- `Faces`: indexing, match propagation and face naming.
- `Deletion`: deleting files.
- `Uploads`: thumbnail and upload records.

Where the code and its description differ, the model follows the code:

- `updateFaceData` answers 500 (not 400) to a request with a missing field. It
  also answers 500 to a caller without a `sub` attribute, where the other
  handlers answer 401.
- `updateFaceData` and `deleteObjectsInS3` parse the body outside their
  `try`, so an unparsable body escapes the handler instead of giving 400.
- `deleteObjectsInS3` also lets a body without a `files` list escape. Both are
  modelled as `Threw`.

## Model

| member | source | states |
|---|---|---|
| Http.Respond | lambdas/src/utility.ts:11-15 | status 200 with the given body |
| Http.CustomErrorResponse | lambdas/src/utility.ts:17-21 | the given status and a body whose only field is the given `message` |
| Http.UnauthorizedResponse | lambdas/src/utility.ts:23-27 | always 401 with message "Unauthorized" |
| Http.InternalServerErrorResponse | lambdas/src/utility.ts:29-33 | always 500, message "Internal server error", and the error under `error` |
| Http.ValidateAccessToken | lambdas/src/utility.ts:50-53 | a token exactly when the `authorization` header is present and non-empty, and then it is that header |
| Http.GetUserInfoFrom | lambdas/src/utility.ts:35-48 | between 1 and retryCount+1 calls. Every call but the last was throttled. A user is found iff the last call answered, and then it is that call's user. A throttled last call means the retries are used up |
| Http.AlwaysThrottledGivesUp | lambdas/src/utility.ts:40-46 | if every call is throttled, the lookup gives up with no user after exactly retryCount+1 calls |
| Http.FindSub | lambdas/src/album/createUpdateAlbum.ts:85 | no `sub` attribute gives nothing; otherwise the value of the first `sub` attribute |
| Http.Authenticate | lambdas/src/album/createUpdateAlbum.ts:79-86 | no token gives 401; a failed lookup gives 500; it succeeds iff there is a token, the lookup finds a user and its `sub` is truthy, and then the caller is that `sub`; every failure is 401 or 500 |
| Strings.EnsurePrefixIdempotent | lambdas/src/album/createUpdateAlbum.ts:61 | normalising an album id twice is the same as normalising it once |
| Strings.TrimEmptyIffBlank | lambdas/src/album/createUpdateAlbum.ts:91-93 | a name trims to "" exactly when it consists only of white space |
| Strings.TrimIdempotent | lambdas/src/album/createUpdateAlbum.ts:95 | trimming the trimmed name changes nothing |
| Strings.RemoveFirstOfPrefixed | lambdas/src/rekognition/updateFaceData.ts:34 | removing `FACE#` from `"FACE#" + id` gives back `id` |
| Strings.NatToString | lambdas/src/album/assignPhotosToAlbum.ts:148 | a count prints as a non-empty string of decimal digits |
| Strings.NatToStringValue | lambdas/src/album/assignPhotosToAlbum.ts:148 | the printed digits denote the count itself, without a leading zero |
| Strings.JoinSplit | lambdas/src/generateThumbnail.ts:78 | `split('/')` loses nothing: joining the parts with `/` gives the key back |
| Strings.SplitJoin | lambdas/src/s3UploadProcessor.ts:21 | parts without `/`, joined with `/` and split again, come back unchanged |
| Table.KeepDescending | lambdas/src/album/getAllAlbumForUser.ts:25-31 | filtering the rows of a descending query keeps them descending |
| Table.BatchWrite | lambdas/src/deleteObjectsInS3.ts:45-56 | a batch is rejected whole (the call throws) iff it names a key twice or carries a key the store refuses. Otherwise the table afterwards is the processed requests applied in order, and nothing is left over iff no key of the batch is unprocessed |
| Table.NoneRefusedKeys | lambdas/src/deleteObjectsInS3.ts:51 | a batch escapes the throwing call iff its keys are disjoint from the refused keys |
| Table.NoneRefusedFlatten | lambdas/src/deleteObjectsInS3.ts:44-57 | no batch of a run is refused iff the keys of all the requests together are disjoint from the refused keys |
| Table.WriteBatches | lambdas/src/deleteObjectsInS3.ts:44-57 | the run completes iff every batch is accepted, and then the table is every processed request applied in order |
| Table.WriteBatchesFrame | lambdas/src/deleteObjectsInS3.ts:44-57 | however the run ends, no row outside the requests' keys changes |
| Table.Chunks | lambdas/src/deleteObjectsInS3.ts:42 | chunks concatenate back to the list; every chunk is non-empty with at most n elements; all but the last have exactly n |
| Table.ChunksDistinct | lambdas/src/deleteObjectsInS3.ts:42-47 | chunking requests with distinct keys never yields a batch the store rejects |
| Table.SliceIntoBatches | lambdas/src/rekognition/indexFaces.ts:107-118 | the `slice(i, i + 25)` loop yields exactly the 25-element chunks of the requests, which concatenate back to them |
| Table.ApplyAllDeletes | lambdas/src/deleteObjectsInS3.ts:35-40 | applying only deletes removes exactly their keys from the table |
| Albums.CheckAlbumNameExists | lambdas/src/album/createUpdateAlbum.ts:17-37 | true iff another album row of the user, not the excluded one, has the name up to case |
| Albums.SaveOrUpdateAlbum | lambdas/src/album/createUpdateAlbum.ts:49-75 | an update of a missing raw id writes nothing. Otherwise the row goes under the `ALBUM#`-normalised id with the name and `updatedAt = now`. `createdAt` is `now` for a new album; for an update it is the old `createdAt`, else the old `updatedAt`, else `now` |
| Albums.SaveAlbumAs | lambdas/src/album/createUpdateAlbum.ts:88-127 | an unparsable body or a blank name gives 400. A failing name query gives 500; otherwise a taken name gives 409; otherwise a failing GetItem of an update, or a failing PutItem, gives 500, and an update of a missing album gives 404. Each status is an iff, every 500 is "An unexpected error occurred.", and only a 200 changes the table. A 200 writes the one album row with the trimmed name and answers its key, with `createdAt` only for a new album |
| Albums.SaveNamed | lambdas/src/album/createUpdateAlbum.ts:95-126 | for a non-blank name: 500 iff the name query fails or the name is free and the write fails. 409 iff the query answers and the trimmed name is taken. 404 iff the name is free, the lookup answers and the update's row is missing. Otherwise the album is saved |
| Albums.WriteAlbum | lambdas/src/album/createUpdateAlbum.ts:43-75 | 500 iff an update's GetItem fails, or the PutItem fails once the album to update is known to exist. 404 iff an update's lookup answers that the raw key is missing. Nothing is written on either; otherwise the album is saved |
| Albums.CreateUpdateAlbum | lambdas/src/album/createUpdateAlbum.ts:77-128 | an authentication failure is answered as is with the table unchanged. An authenticated request gets SaveAlbumAs's answer. The status is one of 200, 400, 401, 404, 409 and 500, and only an authenticated 200 changes the table |
| Albums.SaveAlbumKeepsNamesUnique | lambdas/src/album/createUpdateAlbum.ts:99-108 | if no user has two albums whose names differ only in case, one request keeps it so |
| Albums.BareIdUpdateNeverSaves | lambdas/src/album/createUpdateAlbum.ts:53-61 | an update naming its album by a bare id, with no row at that raw key, never writes; it answers 400, 404, 409 or 500 |
| Albums.GetUserAlbums | lambdas/src/album/getAllAlbumForUser.ts:22-60 | one album per album sort key of the user, in query order, projected from its row |
| Albums.GetUserAlbumsSound | lambdas/src/album/getAllAlbumForUser.ts:44-52 | every listed album is an `ALBUM#` row of the user, with its name and `updatedAt` copied and `createdAt` present iff the row's is truthy |
| Albums.GetUserAlbumsComplete | lambdas/src/album/getAllAlbumForUser.ts:23-32 | every `ALBUM#` row of the user is listed, so a user with no album rows gets an empty list |
| Albums.GetUserAlbumsNewestFirst | lambdas/src/album/getAllAlbumForUser.ts:31 | listed album ids are strictly descending |
| Albums.GetAllAlbums | lambdas/src/album/getAllAlbumForUser.ts:62-82 | an authentication failure is answered as is. 200 iff authenticated and the query succeeds, with `albums` the listed albums. A failed query gives 500 |
| AlbumPhotos.Remaining | lambdas/src/album/getAlbumPhotos.ts:40-56 | the sort keys still to scan are exactly the user's keys below "ALBUM#" after the start key, descending |
| AlbumPhotos.QueryPage | lambdas/src/album/getAlbumPhotos.ts:40-69 | at most 100 rows returned; a last evaluated key iff at least 100 rows remained to evaluate |
| AlbumPhotos.QueryPageSound | lambdas/src/album/getAlbumPhotos.ts:42-48 | a returned row is the user's, below "ALBUM#", after the start key, and in the album |
| AlbumPhotos.QueryPageDescending | lambdas/src/album/getAlbumPhotos.ts:50 | returned rows come in descending sort-key order |
| AlbumPhotos.QueryPageAdvances | lambdas/src/album/getAlbumPhotos.ts:62-64 | the last evaluated key is a row in range and strictly after the start key |
| AlbumPhotos.QueryPageSplitsRemainder | lambdas/src/album/getAlbumPhotos.ts:50-64 | the album's rows after the start key are exactly this page's rows plus the album's rows after the last evaluated key, and no row of this page lies after that key, so nothing is skipped or repeated |
| AlbumPhotos.PageNotAfterLast | lambdas/src/album/getAlbumPhotos.ts:50-64 | a returned row is never strictly after the last evaluated key |
| AlbumPhotos.KeyJsonRoundTrip | lambdas/src/album/getAlbumPhotos.ts:55-63 | a key read back from its wire form is the same key |
| AlbumPhotos.KeyOfJsonExact | lambdas/src/album/getAlbumPhotos.ts:55 | a key is read from JSON iff the JSON holds exactly its two string attributes, `PK` and `SK`, in either order |
| AlbumPhotos.DecodeStart | lambdas/src/album/getAlbumPhotos.ts:54-56 | no token starts from the top; an undecodable token is a syntax error; a decoded start is in range and is the key the token encodes, in either attribute order; the start is refused iff the token decodes to something that is no key of the user below "ALBUM#" |
| AlbumPhotos.TokenResumes | lambdas/src/album/getAlbumPhotos.ts:54-64 | with a faithful codec, decoding the issued token resumes exactly at the last evaluated key |
| AlbumPhotos.PageBody | lambdas/src/album/getAlbumPhotos.ts:122-126 | `items` the page items, `nextToken` the token or null, `count` the number of items |
| AlbumPhotos.PageAs | lambdas/src/album/getAlbumPhotos.ts:54-73 | 400 iff the token does not decode. Otherwise 500, with the fixed error, iff the Query throws or refuses the start key. A 200 carries the page from the decoded start: its items, their count, and as `nextToken` the token issued for the last evaluated key, null iff the scan is done |
| AlbumPhotos.NextPageResumes | lambdas/src/album/getAlbumPhotos.ts:54-126 | with a faithful codec, a 200 that answers a token answers the issued token, and sending it back answers the page that starts at the last evaluated key |
| AlbumPhotos.AlbumPhotosAs | lambdas/src/album/getAlbumPhotos.ts:76-133 | each status is stated as an iff. 400 for an unparsable body, a blank id or an undecodable token. 404 when the album check finds no row or throws, since `verifyAlbumExists` answers false on an error. 500, with the fixed error, when the page Query throws or refuses the start key. A 200 carries the page's items, its count, and as `nextToken` the token issued for the last evaluated key, null iff the scan is done |
| AlbumPhotos.GetAlbumPhotos | lambdas/src/album/getAlbumPhotos.ts:96-134 | an authentication failure is answered as is; the status is always 200, 400, 401, 404 or 500 |
| Membership.GetPhotosVideos | lambdas/src/album/assignPhotosToAlbum.ts:39-63 | only the user's present non-album rows among the keys are found. A request the store refuses finds nothing. For a non-empty request, every key is found iff all are the user's media |
| Membership.MediaAmongAll | lambdas/src/album/assignPhotosToAlbum.ts:56-58 | the filter keeps every key iff every key is the user's media |
| Membership.Updated | lambdas/src/album/unassignPhotosFromAlbum.ts:63 | an update sets `updatedAt`. Assign sets `albumId` to the album; unassign removes it. No other attribute changes |
| Membership.AllSucceed | lambdas/src/album/assignPhotosToAlbum.ts:76-97 | the success count reaches the item count iff every item succeeds |
| Membership.RunUpdates | lambdas/src/album/assignPhotosToAlbum.ts:65-100 | success + failed = items and one error text per failure. No row is created or deleted, and only membership attributes change. With distinct keys, each item's row is updated iff its own call succeeds, and the counts and error texts are those of the items in order |
| Membership.ItemsProblem | lambdas/src/album/unassignPhotosFromAlbum.ts:119-134 | no problem iff the items are a non-empty list of the caller's own keys that are all the caller's media; every problem is a 400 |
| Membership.AssignProblem | lambdas/src/album/assignPhotosToAlbum.ts:117-142 | 404 iff the id and items are valid but the album row is missing or its GetItem throws, since `verifyAlbumExists` answers false on an error (l.30-36). No problem iff everything passes; otherwise 400 |
| Membership.ErrorsListFailures | lambdas/src/album/unassignPhotosFromAlbum.ts:85-97 | the error texts list the failed items in order: the text of a failed item sits after exactly one text per earlier failure, and it is that item's own text |
| Membership.UnassignConditionMessages | lambdas/src/album/unassignPhotosFromAlbum.ts:89-94 | an item whose update call answers but whose condition fails is reported as "not assigned to the specified album" when an album is named, else as "does not exist or is not owned by user" |
| Membership.Tallied | lambdas/src/album/assignPhotosToAlbum.ts:145-152 | 200. Each item's row is updated iff that item succeeds, and no other row changes. `success` is the success count and `failed` the rest of the items. `errors` holds the failures' texts in order, and is present iff some item failed. The message embeds the success count |
| Membership.AssignAs | lambdas/src/album/assignPhotosToAlbum.ts:113-159 | 404 iff, after valid input, the album is missing or its lookup throws. 200 iff everything validates and the lookup answers, and anything else leaves the table unchanged. On 200 each listed item joins the album unless its own call fails, and no other row changes. `success` and `failed` count the items, `errors` lists the failures in order and is present iff some item failed, and the message embeds the success count |
| Membership.UnassignAs | lambdas/src/album/unassignPhotosFromAlbum.ts:115-156 | 200 iff the items validate; anything else is a 400 with the table unchanged. On 200 an item leaves its album iff its call succeeds and, when an album is named, it was in that album. `success`, `failed` and `errors` are as for assignment. The message's opening depends only on whether an album id was given |
| Membership.AssignPhotosToAlbum | lambdas/src/album/assignPhotosToAlbum.ts:102-160 | an authentication failure is answered as is; only an authenticated 200 changes the table |
| Membership.UnassignPhotosFromAlbum | lambdas/src/album/unassignPhotosFromAlbum.ts:104-157 | an authentication failure is answered as is; only an authenticated 200 changes the table |
| Membership.UnassignUndoesAssign | lambdas/src/album/unassignPhotosFromAlbum.ts:63-73 | assigning and then unassigning from the same album leaves the row outside every album, otherwise as before apart from `updatedAt` |
| Faces.FaceKeyInjective | lambdas/src/rekognition/indexFaces.ts:96-97 | two faces share a row iff they have the same image id and face id |
| Faces.EnsureCollection | lambdas/src/rekognition/indexFaces.ts:27-48 | it fails iff the service check fails; otherwise the collection exists afterwards and no other collection is added |
| Faces.FacePuts | lambdas/src/rekognition/indexFaces.ts:84-105 | at most one put per record, each writing only the key and `updatedAt` |
| Faces.FacePutsMembers | lambdas/src/rekognition/indexFaces.ts:91-101 | the puts are exactly those of the records with both a face id and an image id |
| Faces.FacePutsAppend | lambdas/src/rekognition/indexFaces.ts:84-105 | records keep their order: the puts of a concatenation are the puts of each part in turn |
| Faces.FacePutsKeepAll | lambdas/src/rekognition/indexFaces.ts:91-105 | no record is dropped iff every record has both ids |
| Faces.FacePutsDistinct | lambdas/src/rekognition/indexFaces.ts:96-97 | faces with distinct ids give puts with distinct keys |
| Faces.StoreFacesSucceedsWhen | lambdas/src/rekognition/indexFaces.ts:107-144 | storing ends normally iff no batch repeats a key, no face's key is refused by a throwing BatchWriteItem, and any image-id update that is due succeeds |
| Faces.StoreFacesWrites | lambdas/src/rekognition/indexFaces.ts:83-144 | after a normal end the table holds the processed puts. The photo row records the last record's image id when it is not blank, even if that record was dropped |
| Faces.StoreFacesDistinct | lambdas/src/rekognition/indexFaces.ts:107-144 | with distinct face ids, storing ends normally iff no face's key is refused by a throwing BatchWriteItem and any image-id update that is due succeeds |
| Faces.StoreFacesFrame | lambdas/src/rekognition/indexFaces.ts:107-144 | whatever happens, only stored faces' rows and the photo row can change |
| Faces.StoreFacesNames | lambdas/src/rekognition/indexFaces.ts:93-101 | indexing never introduces a face name |
| Faces.IndexRecord | lambdas/src/rekognition/indexFaces.ts:72-145 | a record without a new image is skipped. A failed collection check throws with nothing changed. Otherwise the collection named by PK exists, a failed IndexFaces call throws with the table unchanged, and the faces are stored |
| Faces.IndexFacesAppend | lambdas/src/rekognition/indexFaces.ts:71-149 | records run in order, and a failure ends the loop (caught) so later records are not processed |
| Faces.IndexFacesSkipsImageless | lambdas/src/rekognition/indexFaces.ts:72 | records without a new image change nothing |
| Faces.IndexFacesNames | lambdas/src/rekognition/indexFaces.ts:69-150 | the whole handler never introduces a face name |
| Faces.FaceIdsFindEveryFace | lambdas/src/rekognition/checkForExistingFaces.ts:63-78 | every face row of the image yields its face id |
| Faces.FaceIdsLeadBack | lambdas/src/rekognition/checkForExistingFaces.ts:73-75 | an id read from a `FACE#` row leads back to that row |
| Faces.NameOf | lambdas/src/rekognition/checkForExistingFaces.ts:30-51 | a name iff the row exists with a truthy `faceName`, and then it is that name |
| Faces.MatchOne | lambdas/src/rekognition/checkForExistingFaces.ts:93-108 | a failed search throws. No match, or a top match lacking an id, changes nothing and continues. Otherwise it throws iff the matched face has no name or the update fails, and whenever it ends normally after a top match naming both ids, the face carries that matched row's name, whether or not the table changed. Only that face's row changes, and no new name appears |
| Faces.MatchAll | lambdas/src/rekognition/checkForExistingFaces.ts:93-109 | only the image's face rows change, only in names and times, and no new name appears |
| Faces.CheckRecord | lambdas/src/rekognition/checkForExistingFaces.ts:80-112 | non-MODIFY and image-less records are passed over, and a missing `imageId` attribute throws. The handler returns iff the collection or image id is blank. Otherwise only the image's face rows change |
| Faces.CheckForExistingFaces | lambdas/src/rekognition/checkForExistingFaces.ts:79-114 | the handler changes only names and times, and never introduces a name |
| Faces.CheckAppend | lambdas/src/rekognition/checkForExistingFaces.ts:80-113 | once a record throws or returns, later records are not examined |
| Faces.CheckStopsAtBlank | lambdas/src/rekognition/checkForExistingFaces.ts:86-89 | a blank record ends the handler at once, unchanged, whatever follows |
| Faces.CheckIgnoresUnexamined | lambdas/src/rekognition/checkForExistingFaces.ts:81 | insertions, removals and image-less records change nothing |
| Faces.SetFaceName | lambdas/src/rekognition/updateFaceData.ts:16-29 | the row at the key gets the name, only that row changes, and only its name |
| Faces.MatchKeys | lambdas/src/rekognition/updateFaceData.ts:39-45 | every match with both ids yields its `IMAGE#`/`FACE#` row, and only such matches yield rows |
| Faces.NameAll | lambdas/src/rekognition/updateFaceData.ts:39-46 | completes iff no update fails, and then every key bears the name; rows outside the keys never change |
| Faces.NameAllNamesOnly | lambdas/src/rekognition/updateFaceData.ts:44 | naming changes only face names and brings in no name but the requested one |
| Faces.NameFaces | lambdas/src/rekognition/updateFaceData.ts:66-73 | 200 or 500 with the fixed messages; only names change, and the only new name is the requested one |
| Faces.NameFacesOutcome | lambdas/src/rekognition/updateFaceData.ts:31-73 | 200 iff the direct update, the search and every bulk update succeed. Then the requested row and every matched face bear the name. No row but those changes |
| Faces.UpdateFaceData | lambdas/src/rekognition/updateFaceData.ts:49-74 | no token gives 401 and a failed lookup 500, with nothing written. It throws iff the body does not parse. A 200 means all fields were given and the named row bears the name. Only names change |
| Faces.UpdateFaceDataRequiresFields | lambdas/src/rekognition/updateFaceData.ts:62-64 | a missing user id, image id, face id or name answers 500 with the fixed error and writes nothing |
| Deletion.ObjectKeys | lambdas/src/deleteObjectsInS3.ts:142 | one key `userId/fileName` per file, in order |
| Deletion.DeleteFromBucket | lambdas/src/deleteObjectsInS3.ts:27-33 | fails iff the service fails or 0 or more than 1000 keys are given; otherwise exactly the listed keys are gone |
| Deletion.RowDeletes | lambdas/src/deleteObjectsInS3.ts:35-40 | one delete per file, keyed by that file's PK and SK |
| Deletion.ImageIdsOf | lambdas/src/deleteObjectsInS3.ts:61 | the ids are exactly the files' defined image ids, at most one per file; one file gives its id or nothing |
| Deletion.ImageIdsAllDefined | lambdas/src/deleteObjectsInS3.ts:61 | files that all have ids give them one for one, in file order |
| Deletion.ImageIdsAppend | lambdas/src/deleteObjectsInS3.ts:61 | the ids of a concatenation are the ids of each part in turn, so order and repeats are kept |
| Deletion.FaceRowDeletes | lambdas/src/deleteObjectsInS3.ts:72-95 | deletes exactly the image's present `FACE#` rows |
| Deletion.FaceDeletes | lambdas/src/deleteObjectsInS3.ts:68-101 | every collected request is a delete, and the deletes name exactly the present face rows of the images |
| Deletion.CompletedDeletes | lambdas/src/deleteObjectsInS3.ts:103-118 | a run of delete batches that completes removes exactly its keys |
| Deletion.DeleteFiles | lambdas/src/deleteObjectsInS3.ts:144-164 | 200 with the success message, or 500 with the fixed error |
| Deletion.DeleteFilesSucceedsWhen | lambdas/src/deleteObjectsInS3.ts:144-164 | 200 iff both buckets accept 1 to 1000 keys, every face-row Query of the images answers, and every batch of file rows and of face rows is accepted (neither repeated nor refused keys) with nothing left over |
| Deletion.DeleteFilesTables | lambdas/src/deleteObjectsInS3.ts:144-164 | the table afterwards is the one before, the one after the file rows' batches, or the one after the face rows' batches too; a 200 means both runs completed and left the last of these |
| Deletion.DeleteFilesBuckets | lambdas/src/deleteObjectsInS3.ts:146-149 | whatever the outcome, each bucket is what its own DeleteObjects call left, and a 200 means both calls succeeded |
| Deletion.DeleteFilesRemoves | lambdas/src/deleteObjectsInS3.ts:146-153 | after success both buckets lose exactly the files' keys. The table loses exactly the files' rows and then every face row of their images |
| Deletion.DeleteFilesLeavesNoDanglingFaces | lambdas/src/deleteObjectsInS3.ts:60-125 | after success neither a file's row nor any face row of its image remains |
| Deletion.DeleteFilesFrame | lambdas/src/deleteObjectsInS3.ts:144-164 | whatever the outcome, rows other than the files' own and their images' face rows are untouched |
| Deletion.BucketFailureKeepsRows | lambdas/src/deleteObjectsInS3.ts:146-153 | a failing bucket call, or an empty file list, fails the request before any row is touched |
| Deletion.DeleteObjects | lambdas/src/deleteObjectsInS3.ts:127-165 | an authentication failure is answered as is. It throws iff an authenticated body is unparsable or lacks `files`. A 200 is the outcome of deleting the listed files |
| Uploads.KeyPartsRecover | lambdas/src/s3UploadProcessor.ts:21 | for `u/f` with no `/` in either part, the split gives back `u` and `f` |
| Uploads.NoSlashNoFileName | lambdas/src/s3UploadProcessor.ts:21 | a key without `/` is all owner and has no file name |
| Uploads.ThumbnailKeySameIffOneSlash | lambdas/src/generateThumbnail.ts:22-23 | the thumbnail key equals the object key iff the key has exactly one `/` |
| Uploads.SaveItem | lambdas/src/generateThumbnail.ts:47-70 | an undefined file name throws. A failed put is swallowed and adds nothing. Otherwise exactly one item with the owner, time, name, size and thumbnail key is added |
| Uploads.GenerateThumbnail | lambdas/src/generateThumbnail.ts:72-88 | a thumbnail failure changes nothing. Otherwise the thumbnail is stored, and one item is added iff the put succeeds and the key has a file name; it records owner, name, size, time and thumbnail key. Nothing is rethrown |
| Uploads.ProcessUpload | lambdas/src/s3UploadProcessor.ts:15-44 | throws iff the key has no file name. A failed put is swallowed. Otherwise one item with owner, time, name and size is added |
| Uploads.WellFormedUpload | lambdas/src/generateThumbnail.ts:47-55 | for a well-formed key `u/f` both handlers record `u` and `f`, and the thumbnail sits under `u/f` itself |

## Left out

- The constant CORS headers of every response: their module is not part of this model.
- The retry delays of `getUserInfo`: only the number of attempts is modelled.
- The float attributes `boundingBox` and `confidence` of face rows.
- `JSON.stringify`: bodies are JSON values, not text.
- Request fields of an unexpected JSON type, such as a number where a string is expected.
- A request body that parses to JSON `null`. Destructuring it throws a TypeError:
  - createUpdateAlbum, assignPhotosToAlbum, unassignPhotosFromAlbum and getAlbumPhotos answer it with their generic 500;
  - it escapes updateFaceData and deleteObjectsInS3.

  `Body` has only an unparsable case and a parsed-object case, so no handler contract covers this input.
- Concurrency: the two bucket deletions of `deleteObjectsInS3` run in parallel in the source and one after the other here. Each call fails or succeeds as a whole.
- Per-key errors inside a DeleteObjects reply.
- Time: each handler invocation sees one timestamp (`now`), or one per item (`clock`) in the membership loop. `randomUUID` is a parameter.
- Strings.Lower: `toLowerCase` folds ASCII letters only; Unicode case mapping is not modelled, so album names differing only in non-ASCII case count as different.
- The 1 MB page limit of queries: a query is assumed to return every matching row, apart from the explicit `Limit` of the album-photo page.
- AlbumPhotos.QueryPage: the store is assumed to return a last evaluated key exactly when the `Limit` of 100 was reached.
- AlbumPhotos.DecodeStart: base64 and `JSON.parse` form an abstract codec, and the round trip is a hypothesis (`Faithful`). A decoded start key that is not a key of the query's partition and range, with its two attributes in either order, counts as refused (500). What the store does with such a key is not modelled further.
- BatchGetItem's unprocessed keys and its failure in `getPhotosVideos`.
- Membership.GetPhotosVideos: the store's refusal of a request with no keys, more than 100 keys or a key twice is modelled as finding nothing, so the count check answers 400.
- Failures of the GetItem and Query calls in `checkForExistingFaces`: only the search and the UpdateItem calls can fail.
- Table.BatchWrite: a throwing BatchWriteItem call is identified by a key it carries (the refused keys), not by the call's position in the run, so two runs carrying the same key fail alike.
- Deletion.DeleteFiles: a throwing face-row Query is keyed by its image id, so two queries for a repeated image id fail alike.
- Faces.EnsureCollection: whether the describe call's error is "not found" is not modelled. The outcome of describe-then-create is one input per collection.
- The indexFaces handler's `imageId` update re-triggering the face-matching stream handler: the two stream handlers are modelled separately.
- The marshaller refusing `undefined` values is taken as a throw: an object key without `/` makes `s3UploadProcessor` throw, and `generateThumbnail` catches it.
- Uploads.UploadItem: the item is modelled by its fields only. The table key it is stored under is not modelled.
- The body of `chunkArray` is not part of this model. It is modelled as consecutive chunks of at most 25, none empty, which concatenate back to the list (Table.Chunks).
- The image download and resize of `generateThumbnail`: a thumbnail is a key in the thumbnail bucket.

=== FILE: album_photos.dfy ===
/**
 * lambdas/src/album/getAlbumPhotos.ts: one page of an album's media. The query
 * scans the user's partition below "ALBUM#" in descending sort-key order,
 * evaluates at most 100 rows after the exclusive start key, keeps those whose
 * `albumId` is the album, and hands back the last evaluated key as an opaque
 * token.
 */
module AlbumPhotos {
  import opened Base
  import opened Strings
  import opened Json
  import opened Http
  import opened Table
  import opened Albums

  /** `Limit`: rows evaluated per page, before the album filter. */
  const PAGE_SIZE: nat := 100

  /** The scan continues past an exclusive start key in descending order: strictly below it. */
  predicate After(start: Option<string>, sk: string)
  {
    start.None? || Less(sk, start.value)
  }

  /** The key condition `PK = :userId AND SK < :albumPrefix`. */
  predicate InRange(t: Table, userId: string, sk: string)
  {
    Key(userId, sk) in t && Less(sk, ALBUM_PREFIX)
  }

  /** The filter `albumId = :albumId`. */
  predicate InAlbum(t: Table, userId: string, albumSk: string, sk: string)
  {
    Key(userId, sk) in t && t[Key(userId, sk)].albumId == Some(albumSk)
  }

  /** The sort keys the query may still evaluate from `start` on, in scan order. */
  function Remaining(t: Table, userId: string, start: Option<string>): (sks: seq<string>)
    ensures forall sk :: sk in sks <==> InRange(t, userId, sk) && After(start, sk)
    ensures Descending(sks)
  {
    var q := QueryDescending(t, userId);
    KeepDescending(q, sk => Less(sk, ALBUM_PREFIX) && After(start, sk));
    Keep(q, sk => Less(sk, ALBUM_PREFIX) && After(start, sk))
  }

  /** One page: the sort keys of the rows returned and the last evaluated sort key, if any. */
  datatype Page = Page(sks: seq<string>, lastEvaluated: Option<string>)

  /**
   * The QueryCommand of `getAlbumPhotos`: up to `PAGE_SIZE` rows evaluated,
   * the album filter applied to them afterwards, and a last evaluated key
   * whenever the limit was reached.
   */
  function QueryPage(t: Table, userId: string, albumSk: string, start: Option<string>): (p: Page)
    ensures |p.sks| <= PAGE_SIZE
    ensures p.lastEvaluated.Some? <==> |Remaining(t, userId, start)| >= PAGE_SIZE
  {
    var rem := Remaining(t, userId, start);
    var evaluated := if |rem| <= PAGE_SIZE then rem else rem[..PAGE_SIZE];
    var returned := Keep(evaluated, sk => InAlbum(t, userId, albumSk, sk));
    Page(returned, if |evaluated| == PAGE_SIZE then Some(evaluated[PAGE_SIZE - 1]) else None)
  }

  /** Returned rows are the user's media in range, after the start key, in the album. */
  lemma QueryPageSound(t: Table, userId: string, albumSk: string, start: Option<string>, sk: string)
    requires sk in QueryPage(t, userId, albumSk, start).sks
    ensures InRange(t, userId, sk) && After(start, sk) && InAlbum(t, userId, albumSk, sk)
  {
    var rem := Remaining(t, userId, start);
    if |rem| > PAGE_SIZE {
      assert sk in rem[..PAGE_SIZE];
      var i :| 0 <= i < PAGE_SIZE && rem[..PAGE_SIZE][i] == sk;
      assert rem[i] in rem;
    }
  }

  /** Returned rows come in descending sort-key order. */
  lemma QueryPageDescending(t: Table, userId: string, albumSk: string, start: Option<string>)
    ensures Descending(QueryPage(t, userId, albumSk, start).sks)
  {
    var rem := Remaining(t, userId, start);
    var evaluated := if |rem| <= PAGE_SIZE then rem else rem[..PAGE_SIZE];
    assert Descending(evaluated);
    KeepDescending(evaluated, sk => InAlbum(t, userId, albumSk, sk));
  }

  /** A page makes progress: the last evaluated key is in range and strictly after the start. */
  lemma QueryPageAdvances(t: Table, userId: string, albumSk: string, start: Option<string>)
    ensures var p := QueryPage(t, userId, albumSk, start);
            p.lastEvaluated.Some? ==> InRange(t, userId, p.lastEvaluated.value) && After(start, p.lastEvaluated.value)
  {
    var rem := Remaining(t, userId, start);
    if |rem| >= PAGE_SIZE {
      assert rem[PAGE_SIZE - 1] in rem;
    }
  }

  /**
   * Nothing is skipped or repeated: the album's rows after the start key are
   * exactly the rows of this page plus those after its last evaluated key.
   */
  lemma {:induction false} QueryPageSplitsRemainder(t: Table, userId: string, albumSk: string, start: Option<string>, sk: string)
    ensures var p := QueryPage(t, userId, albumSk, start);
            (InRange(t, userId, sk) && After(start, sk) && InAlbum(t, userId, albumSk, sk))
            <==>
            (sk in p.sks || (p.lastEvaluated.Some? && InRange(t, userId, sk) && InAlbum(t, userId, albumSk, sk) && Less(sk, p.lastEvaluated.value)))
    ensures var p := QueryPage(t, userId, albumSk, start);
            sk in p.sks && p.lastEvaluated.Some? ==> !Less(sk, p.lastEvaluated.value)
  {
    var p := QueryPage(t, userId, albumSk, start);
    if sk in p.sks && p.lastEvaluated.Some? {
      PageNotAfterLast(t, userId, albumSk, start, sk);
    }
    if sk in p.sks {
      QueryPageSound(t, userId, albumSk, start, sk);
    }
    if InRange(t, userId, sk) && After(start, sk) && InAlbum(t, userId, albumSk, sk) && sk !in p.sks {
      QueryPageMisses(t, userId, albumSk, start, sk);
    }
    if p.lastEvaluated.Some? && InRange(t, userId, sk) && InAlbum(t, userId, albumSk, sk) && Less(sk, p.lastEvaluated.value) {
      QueryPageAdvances(t, userId, albumSk, start);
      if start.Some? {
        LessTransitive(sk, p.lastEvaluated.value, start.value);
      }
    }
  }

  /** A returned row is never after the last evaluated key, so the next page cannot return it again. */
  lemma PageNotAfterLast(t: Table, userId: string, albumSk: string, start: Option<string>, sk: string)
    requires sk in QueryPage(t, userId, albumSk, start).sks
    requires QueryPage(t, userId, albumSk, start).lastEvaluated.Some?
    ensures !Less(sk, QueryPage(t, userId, albumSk, start).lastEvaluated.value)
  {
    var rem := Remaining(t, userId, start);
    PrefixNotAfterLast(rem, PAGE_SIZE, sk => InAlbum(t, userId, albumSk, sk), sk);
  }

  /** In a descending scan cut after `n` keys, no kept key of the cut lies below its last key. */
  lemma PrefixNotAfterLast(rem: seq<string>, n: nat, keep: string -> bool, sk: string)
    requires Descending(rem) && 0 < n <= |rem|
    requires sk in Keep(if |rem| <= n then rem else rem[..n], keep)
    ensures !Less(sk, rem[n - 1])
  {
    var evaluated := if |rem| <= n then rem else rem[..n];
    var i :| 0 <= i < |evaluated| && evaluated[i] == sk;
    assert evaluated[i] == rem[i];
    if i == n - 1 {
      LessIrreflexive(sk);
    } else {
      LessAsymmetric(rem[n - 1], sk);
    }
  }

  /** A row of the album after the start key that the page leaves out lies beyond its last evaluated key. */
  lemma QueryPageMisses(t: Table, userId: string, albumSk: string, start: Option<string>, sk: string)
    requires InRange(t, userId, sk) && After(start, sk) && InAlbum(t, userId, albumSk, sk)
    requires sk !in QueryPage(t, userId, albumSk, start).sks
    ensures var p := QueryPage(t, userId, albumSk, start);
            p.lastEvaluated.Some? && Less(sk, p.lastEvaluated.value)
  {
    var rem := Remaining(t, userId, start);
    PrefixMisses(rem, PAGE_SIZE, sk => InAlbum(t, userId, albumSk, sk), sk);
  }

  /**
   * In a descending scan cut after `n` keys, a kept key the cut page misses
   * lies strictly below the page's last key.
   */
  lemma PrefixMisses(rem: seq<string>, n: nat, keep: string -> bool, sk: string)
    requires Descending(rem) && n > 0
    requires sk in rem && keep(sk)
    requires sk !in Keep(if |rem| <= n then rem else rem[..n], keep)
    ensures |rem| > n && Less(sk, rem[n - 1])
  {
    var i :| 0 <= i < |rem| && rem[i] == sk;
    var evaluated := if |rem| <= n then rem else rem[..n];
    assert sk !in evaluated;
    assert |rem| > n;
    assert i >= n by {
      assert forall j :: 0 <= j < n ==> evaluated[j] == rem[j];
    }
  }

  // ---------------------------------------------------------------------------
  // The pagination token
  // ---------------------------------------------------------------------------

  /**
   * The token's text encoding: `base64(JSON.stringify(key))` and the matching
   * `JSON.parse(base64 decode)`, which fails on text that is not JSON.
   */
  datatype TokenCodec = TokenCodec(encode: Json -> string, decode: string -> Option<Json>)

  /** What the encoding guarantees: decoding undoes encoding, and an encoded value is never empty. */
  ghost predicate Faithful(c: TokenCodec)
  {
    forall j :: c.decode(c.encode(j)) == Some(j) && c.encode(j) != ""
  }

  /** A string attribute value in the store's wire form: `{S: s}`. */
  function StringAttr(s: string): Json
  {
    JObj([("S", JStr(s))])
  }

  function StringOfAttr(j: Json): (r: Option<string>)
    ensures r.Some? ==> j == StringAttr(r.value)
  {
    if j.JObj? && |j.fields| == 1 && j.fields[0].0 == "S" && j.fields[0].1.JStr? then Some(j.fields[0].1.s) else None
  }

  /** `LastEvaluatedKey` as the store returns it: `{PK: {S: pk}, SK: {S: sk}}`. */
  function KeyToJson(k: Key): Json
  {
    JObj([("PK", StringAttr(k.pk)), ("SK", StringAttr(k.sk))])
  }

  /**
   * `j` names the key `k` as an `ExclusiveStartKey`: the two key attributes as
   * strings, in either order, since attribute order does not matter to the store.
   */
  predicate EncodesKey(j: Json, k: Key)
  {
    j == KeyToJson(k) || j == JObj([("SK", StringAttr(k.sk)), ("PK", StringAttr(k.pk))])
  }

  /** A decoded `ExclusiveStartKey`, when it has exactly the two key attributes as strings. */
  function KeyOfJson(j: Json): Option<Key>
  {
    if j.JObj? && |j.fields| == 2 && {j.fields[0].0, j.fields[1].0} == {"PK", "SK"} then
      var pkAt := if j.fields[0].0 == "PK" then 0 else 1;
      var pk := StringOfAttr(j.fields[pkAt].1);
      var sk := StringOfAttr(j.fields[1 - pkAt].1);
      if pk.Some? && sk.Some? then Some(Key(pk.value, sk.value)) else None
    else None
  }

  /** Reading a key back from its wire form gives the key. */
  lemma KeyJsonRoundTrip(k: Key)
    ensures KeyOfJson(KeyToJson(k)) == Some(k)
  {
  }

  /** A key is read from JSON exactly when the JSON names that key, in either attribute order. */
  lemma KeyOfJsonExact(j: Json, k: Key)
    ensures KeyOfJson(j) == Some(k) <==> EncodesKey(j, k)
  {
    if KeyOfJson(j) == Some(k) {
      assert j.fields == [j.fields[0], j.fields[1]];
      assert j.fields[0].0 == "PK" || j.fields[0].0 == "SK";
    }
  }

  /** The token a page hands back: null when there is no last evaluated key. */
  function IssueToken(c: TokenCodec, userId: string, p: Page): Option<string>
  {
    if p.lastEvaluated.Some? then Some(c.encode(KeyToJson(Key(userId, p.lastEvaluated.value)))) else None
  }

  /** Where the next query starts, or why it cannot. */
  datatype Start = FromTop | From(sk: string) | Undecodable | Invalid

  /**
   * `if (nextToken) params.ExclusiveStartKey = JSON.parse(...)`: a token that
   * is not JSON is a syntax error; a start key that is not a key of this
   * query's partition and range, in either attribute order, is refused by the
   * store.
   */
  function DecodeStart(c: TokenCodec, nextToken: Option<string>, userId: string): (s: Start)
    ensures !Truthy(nextToken) <==> s.FromTop?
    ensures s.Undecodable? <==> Truthy(nextToken) && c.decode(nextToken.value).None?
    ensures s.From? ==>
              && Less(s.sk, ALBUM_PREFIX) && c.decode(nextToken.value).Some?
              && EncodesKey(c.decode(nextToken.value).value, Key(userId, s.sk))
    ensures s.Invalid? <==>
              && Truthy(nextToken) && c.decode(nextToken.value).Some?
              && !exists sk :: Less(sk, ALBUM_PREFIX) && EncodesKey(c.decode(nextToken.value).value, Key(userId, sk))
  {
    if !Truthy(nextToken) then FromTop
    else match c.decode(nextToken.value)
      case None => Undecodable
      case Some(j) =>
        match KeyOfJson(j)
        case None =>
          assert forall sk :: !EncodesKey(j, Key(userId, sk)) by {
            forall sk ensures !EncodesKey(j, Key(userId, sk)) {
              KeyOfJsonExact(j, Key(userId, sk));
            }
          }
          Invalid
        case Some(k) =>
          KeyOfJsonExact(j, k);
          if k.pk == userId && Less(k.sk, ALBUM_PREFIX) then From(k.sk)
          else
            assert forall sk :: Less(sk, ALBUM_PREFIX) ==> !EncodesKey(j, Key(userId, sk)) by {
              forall sk | Less(sk, ALBUM_PREFIX) ensures !EncodesKey(j, Key(userId, sk)) {
                KeyOfJsonExact(j, Key(userId, sk));
              }
            }
            Invalid
  }

  function StartKeyOf(s: Start): Option<string>
  {
    if s.From? then Some(s.sk) else None
  }

  /**
   * Handing back the issued token resumes the scan exactly at the last
   * evaluated key: together with QueryPageSplitsRemainder, following the
   * tokens visits every row of the album once.
   */
  lemma TokenResumes(c: TokenCodec, t: Table, userId: string, albumSk: string, start: Option<string>)
    requires Faithful(c)
    ensures var p := QueryPage(t, userId, albumSk, start);
            p.lastEvaluated.Some? ==> DecodeStart(c, IssueToken(c, userId, p), userId) == From(p.lastEvaluated.value)
  {
    var p := QueryPage(t, userId, albumSk, start);
    if p.lastEvaluated.Some? {
      QueryPageAdvances(t, userId, albumSk, start);
      DecodeIssued(c, userId, p.lastEvaluated.value);
    }
  }

  /** A token issued for a sort key in range decodes to that key. */
  lemma DecodeIssued(c: TokenCodec, userId: string, sk: string)
    requires Faithful(c) && Less(sk, ALBUM_PREFIX)
    ensures DecodeStart(c, Some(c.encode(KeyToJson(Key(userId, sk)))), userId) == From(sk)
  {
    var j := KeyToJson(Key(userId, sk));
    assert c.decode(c.encode(j)) == Some(j) && c.encode(j) != "";
    KeyJsonRoundTrip(Key(userId, sk));
  }

  // ---------------------------------------------------------------------------
  // The handler
  // ---------------------------------------------------------------------------

  /** The fields of the request body the handler reads. */
  datatype PhotosRequest = PhotosRequest(nextToken: Option<string>)

  /** A returned row under `ProjectionExpression`: the key, the media attributes and `imageMetadata`. */
  function PhotoJson(userId: string, sk: string, row: Row): Json
  {
    JObj([("PK", JStr(userId)), ("SK", JStr(sk))]
         + OptionalField("fileName", row.fileName)
         + (if row.fileSize.Some? then [("fileSize", JNum(row.fileSize.value))] else [])
         + OptionalField("imageId", row.imageId)
         + OptionalField("albumId", row.albumId)
         + OptionalField("createdAt", row.createdAt)
         + OptionalField("updatedAt", row.updatedAt)
         + (if "imageMetadata" in row.extra then [("imageMetadata", row.extra["imageMetadata"])] else []))
  }

  function PageItems(t: Table, userId: string, p: Page): (items: seq<Json>)
    ensures |items| == |p.sks|
  {
    seq(|p.sks|, i requires 0 <= i < |p.sks| =>
      var k := Key(userId, p.sks[i]);
      if k in t then PhotoJson(userId, p.sks[i], t[k]) else JNull)
  }

  /** `{items, nextToken, count}` */
  function PageBody(items: seq<Json>, token: Option<string>): (j: Json)
    ensures Field(j, "items") == Some(JArr(items))
    ensures Field(j, "nextToken") == Some(if token.Some? then JStr(token.value) else JNull)
    ensures Field(j, "count") == Some(JNum(|items|))
  {
    var first := ("items", JArr(items));
    var second := ("nextToken", if token.Some? then JStr(token.value) else JNull);
    var third := ("count", JNum(|items|));
    LookupCons(first, [second, third], "nextToken");
    LookupCons(first, [second, third], "count");
    LookupCons(second, [third], "count");
    assert [second] + [third] == [second, third];
    JObj([first] + [second, third])
  }

  /**
   * Which of getAlbumPhotos' store calls throw: the Query that checks the album
   * exists (its helper then answers false), and the page Query.
   */
  datatype PhotoFaults = PhotoFaults(verifyFails: bool, queryFails: bool)

  /**
   * getAlbumPhotos after authentication, for the caller `userId` and the path
   * parameter `albumId`. A token that is not JSON fails with a syntax error
   * before the page Query is sent; a start key the store refuses fails that
   * Query, like any other store error.
   */
  function AlbumPhotosAs(userId: string, albumId: Option<string>, body: Body<PhotosRequest>, t: Table, c: TokenCodec,
                         f: PhotoFaults): (r: Response)
    ensures body.Malformed? ==> r == CustomErrorResponse(400, "Invalid JSON in request body")
    ensures r.statusCode in {200, 400, 404, 500}
    ensures r.statusCode == 404 <==>
              body.Parsed? && !Blank(albumId) && (f.verifyFails || Key(userId, AlbumSortKey(albumId.value)) !in t)
    ensures r.statusCode == 400 <==>
              || body.Malformed? || Blank(albumId)
              || (!f.verifyFails && Key(userId, AlbumSortKey(albumId.value)) in t &&
                  DecodeStart(c, body.fields.nextToken, userId).Undecodable?)
    ensures r.statusCode == 500 <==>
              && body.Parsed? && !Blank(albumId) && !f.verifyFails && Key(userId, AlbumSortKey(albumId.value)) in t
              && !DecodeStart(c, body.fields.nextToken, userId).Undecodable?
              && (f.queryFails || DecodeStart(c, body.fields.nextToken, userId).Invalid?)
    ensures r.statusCode == 500 ==> Field(r.body, "error") == Some(JStr(PHOTOS_FAILED))
    ensures r.statusCode == 200 ==>
              && body.Parsed? && !Blank(albumId)
              && PageAnswered(r, t, userId, AlbumSortKey(albumId.value), StartKeyOf(DecodeStart(c, body.fields.nextToken, userId)), c)
  {
    match body
    case Malformed => CustomErrorResponse(400, "Invalid JSON in request body")
    case Parsed(req) =>
      if Blank(albumId) then CustomErrorResponse(400, "albumId is required")
      else
        var albumSk := AlbumSortKey(albumId.value);
        if f.verifyFails || Key(userId, albumSk) !in t then CustomErrorResponse(404, "Album not found")
        else PageAs(userId, albumSk, req.nextToken, t, c, f.queryFails)
  }

  const PHOTOS_FAILED: string := "An unexpected error occurred while fetching album photos"

  /**
   * A 200 answer carrying the page that starts at `start`: its items, their
   * count, and the token issued for its last evaluated key (null when the scan
   * is done).
   */
  ghost predicate PageAnswered(r: Response, t: Table, userId: string, albumSk: string, start: Option<string>, c: TokenCodec)
  {
    var p := QueryPage(t, userId, albumSk, start);
    var token := IssueToken(c, userId, p);
    && Field(r.body, "items") == Some(JArr(PageItems(t, userId, p)))
    && Field(r.body, "count") == Some(JNum(|p.sks|))
    && Field(r.body, "nextToken") == Some(if token.Some? then JStr(token.value) else JNull)
    && (Field(r.body, "nextToken") == Some(JNull) <==> p.lastEvaluated.None?)
  }

  /**
   * `getAlbumPhotos(userId, albumId, nextToken)` once the album is known to
   * exist: a token that is not JSON is a syntax error (400); a page Query that
   * throws, including on a start key the store refuses, gives 500.
   */
  function PageAs(userId: string, albumSk: string, nextToken: Option<string>, t: Table, c: TokenCodec, queryFails: bool): (r: Response)
    ensures r.statusCode in {200, 400, 500}
    ensures r.statusCode == 400 <==> DecodeStart(c, nextToken, userId).Undecodable?
    ensures r.statusCode == 500 <==>
              !DecodeStart(c, nextToken, userId).Undecodable? && (queryFails || DecodeStart(c, nextToken, userId).Invalid?)
    ensures r.statusCode == 500 ==> Field(r.body, "error") == Some(JStr(PHOTOS_FAILED))
    ensures r.statusCode == 200 ==> PageAnswered(r, t, userId, albumSk, StartKeyOf(DecodeStart(c, nextToken, userId)), c)
  {
    match DecodeStart(c, nextToken, userId)
    case Undecodable => CustomErrorResponse(400, "Invalid JSON in request body")
    case Invalid => InternalServerErrorResponse(JStr(PHOTOS_FAILED))
    case _ =>
      if queryFails then InternalServerErrorResponse(JStr(PHOTOS_FAILED))
      else
        var p := QueryPage(t, userId, albumSk, StartKeyOf(DecodeStart(c, nextToken, userId)));
        Respond(PageBody(PageItems(t, userId, p), IssueToken(c, userId, p)))
  }

  /**
   * Paging through the handler: when a page answers a token, sending that
   * token back (and no store call failing) answers the page that starts at
   * the previous page's last evaluated key.
   */
  lemma NextPageResumes(userId: string, albumId: Option<string>, req: PhotosRequest, t: Table, c: TokenCodec, f: PhotoFaults)
    requires Faithful(c)
    requires AlbumPhotosAs(userId, albumId, Parsed(req), t, c, f).statusCode == 200
    ensures var r := AlbumPhotosAs(userId, albumId, Parsed(req), t, c, f);
            var albumSk := AlbumSortKey(albumId.value);
            var p := QueryPage(t, userId, albumSk, StartKeyOf(DecodeStart(c, req.nextToken, userId)));
            p.lastEvaluated.Some? ==>
              && Field(r.body, "nextToken") == Some(JStr(IssueToken(c, userId, p).value))
              && var next := AlbumPhotosAs(userId, albumId, Parsed(PhotosRequest(IssueToken(c, userId, p))), t, c, PhotoFaults(false, false));
                 next.statusCode == 200 && PageAnswered(next, t, userId, albumSk, p.lastEvaluated, c)
  {
    var albumSk := AlbumSortKey(albumId.value);
    var p := QueryPage(t, userId, albumSk, StartKeyOf(DecodeStart(c, req.nextToken, userId)));
    if p.lastEvaluated.Some? {
      TokenResumes(c, t, userId, albumSk, StartKeyOf(DecodeStart(c, req.nextToken, userId)));
    }
  }

  /** The getAlbumPhotos handler: the authentication prelude, then the page. */
  function GetAlbumPhotos(headers: map<string, string>, cognito: nat -> LookupOutcome, albumId: Option<string>,
                          body: Body<PhotosRequest>, t: Table, c: TokenCodec, f: PhotoFaults): (r: Response)
    ensures Authenticate(headers, cognito).Err? ==> r == Authenticate(headers, cognito).error
    ensures r.statusCode in {200, 400, 401, 404, 500}
  {
    match Authenticate(headers, cognito)
    case Err(response) => response
    case Ok(userId) => AlbumPhotosAs(userId, albumId, body, t, c, f)
  }
}

=== FILE: albums.dfy ===
/**
 * Albums: lambdas/src/album/createUpdateAlbum.ts (create or rename an album,
 * names unique per user without regard to case) and
 * lambdas/src/album/getAllAlbumForUser.ts (list a user's albums, newest key
 * first). An album is the row `(userId, "ALBUM#" + id)`.
 */
module Albums {
  import opened Base
  import opened Strings
  import opened Json
  import opened Http
  import opened Table

  /** `albumId.startsWith('ALBUM#') ? albumId : 'ALBUM#' + albumId` */
  function AlbumSortKey(albumId: string): string
  {
    EnsurePrefix(albumId, ALBUM_PREFIX)
  }

  /** `k` is one of `userId`'s album rows: what `PK = userId AND begins_with(SK, 'ALBUM#')` selects. */
  predicate IsAlbumKey(k: Key, userId: string)
  {
    k.pk == userId && StartsWith(k.sk, ALBUM_PREFIX)
  }

  /** `album.albumName?.toLowerCase() === albumName.toLowerCase()` */
  predicate NamedAlike(row: Row, albumName: string)
  {
    row.albumName.Some? && SameIgnoringCase(row.albumName.value, albumName)
  }

  /** `excludeAlbumId && album.SK === excludeAlbumId`: the row the name check skips. */
  predicate Excluded(sk: string, excludeAlbumId: Option<string>)
  {
    Truthy(excludeAlbumId) && sk == excludeAlbumId.value
  }

  /** Some album row of `userId` other than the excluded one already carries the name. */
  ghost predicate NameTaken(t: Table, userId: string, albumName: string, excludeAlbumId: Option<string>)
  {
    exists k :: k in t && IsAlbumKey(k, userId) && !Excluded(k.sk, excludeAlbumId) && NamedAlike(t[k], albumName)
  }

  // ---------------------------------------------------------------------------
  // createUpdateAlbum.ts
  // ---------------------------------------------------------------------------

  /** The `find` over the queried album rows: the first sort key whose row clashes. */
  function FindClash(t: Table, userId: string, sks: seq<string>, albumName: string, excludeAlbumId: Option<string>): (r: Option<string>)
    requires forall i :: 0 <= i < |sks| ==> Key(userId, sks[i]) in t
    ensures r.Some? ==> r.value in sks && !Excluded(r.value, excludeAlbumId) && NamedAlike(t[Key(userId, r.value)], albumName)
    ensures r.None? ==> forall i :: 0 <= i < |sks| ==> Excluded(sks[i], excludeAlbumId) || !NamedAlike(t[Key(userId, sks[i])], albumName)
  {
    if sks == [] then None
    else if !Excluded(sks[0], excludeAlbumId) && NamedAlike(t[Key(userId, sks[0])], albumName) then Some(sks[0])
    else
      var r := FindClash(t, userId, sks[1..], albumName, excludeAlbumId);
      assert forall i :: 1 <= i < |sks| ==> sks[i] == sks[1..][i - 1];
      r
  }

  /**
   * `checkAlbumNameExists(userId, albumName, excludeAlbumId)`: a scan of the
   * user's album rows. It answers true exactly when the name is taken.
   */
  function CheckAlbumNameExists(t: Table, userId: string, albumName: string, excludeAlbumId: Option<string>): (b: bool)
    ensures b <==> NameTaken(t, userId, albumName, excludeAlbumId)
  {
    var sks := WithPrefix(QueryAscending(t, userId), ALBUM_PREFIX);
    var r := FindClash(t, userId, sks, albumName, excludeAlbumId);
    assert r.None? ==> !NameTaken(t, userId, albumName, excludeAlbumId) by {
      if r.None? { NoClashFound(t, userId, sks, albumName, excludeAlbumId); }
    }
    r.Some?
  }

  /** A scan of every album row of the user that finds no clash means the name is free. */
  lemma NoClashFound(t: Table, userId: string, sks: seq<string>, albumName: string, excludeAlbumId: Option<string>)
    requires sks == WithPrefix(QueryAscending(t, userId), ALBUM_PREFIX)
    requires forall i :: 0 <= i < |sks| ==> Excluded(sks[i], excludeAlbumId) || !NamedAlike(t[Key(userId, sks[i])], albumName)
    ensures !NameTaken(t, userId, albumName, excludeAlbumId)
  {
    forall k | k in t && IsAlbumKey(k, userId) && !Excluded(k.sk, excludeAlbumId)
      ensures !NamedAlike(t[k], albumName)
    {
      assert k.sk in sks;
      var i :| 0 <= i < |sks| && sks[i] == k.sk;
    }
  }

  /** `existing.createdAt || existing.updatedAt || now`, with an empty result dropped. */
  function KeptCreatedAt(existing: Row, now: string): (c: Option<string>)
  {
    var c := OrElse(existing.createdAt, OrElse(existing.updatedAt, now));
    if c != "" then Some(c) else None
  }

  datatype Saved = NotFound | Saved(key: Key, row: Row)

  /**
   * `saveOrUpdateAlbum`: an update first reads the row at the id AS GIVEN and
   * stops when there is none; the row written is keyed by the normalised id and
   * replaces the old one entirely.
   */
  function SaveOrUpdateAlbum(t: Table, userId: string, albumId: string, albumName: string, isNewAlbum: bool, now: string): (r: Saved)
    ensures r.NotFound? <==> !isNewAlbum && Key(userId, albumId) !in t
    ensures r.Saved? ==> r.key == Key(userId, AlbumSortKey(albumId))
    ensures r.Saved? ==> r.row == EmptyRow.(albumName := Some(albumName), updatedAt := Some(now), createdAt := r.row.createdAt)
    ensures r.Saved? && isNewAlbum ==> r.row.createdAt == Some(now)
    ensures r.Saved? && !isNewAlbum ==>
              var prev := t[Key(userId, albumId)];
              && (Truthy(prev.createdAt) ==> r.row.createdAt == prev.createdAt)
              && (!Truthy(prev.createdAt) && Truthy(prev.updatedAt) ==> r.row.createdAt == prev.updatedAt)
              && (!Truthy(prev.createdAt) && !Truthy(prev.updatedAt) ==> r.row.createdAt == (if now == "" then None else Some(now)))
  {
    if !isNewAlbum && Key(userId, albumId) !in t then NotFound
    else
      var createdAt := if isNewAlbum then Some(now) else KeptCreatedAt(t[Key(userId, albumId)], now);
      Saved(Key(userId, AlbumSortKey(albumId)),
            EmptyRow.(albumName := Some(albumName), updatedAt := Some(now), createdAt := createdAt))
  }

  /** The fields of the request body the handler reads. */
  datatype AlbumRequest = AlbumRequest(albumId: Option<string>, albumName: Option<string>)

  /** `!s?.trim()`: absent, or nothing but white space. */
  predicate Blank(s: Option<string>)
  {
    s.None? || Trim(s.value) == ""
  }

  /** The album a create skips in the name check: none; an update skips its own id. */
  function Exclusion(req: AlbumRequest): Option<string>
  {
    if Truthy(req.albumId) then req.albumId else None
  }

  /** What a successful create or update leaves behind and answers. */
  ghost predicate AlbumSaved(t: Table, o: Effect<Table>, userId: string, req: AlbumRequest, now: string, uuid: string)
    requires req.albumName.Some?
  {
    var sk := AlbumSortKey(OrElse(req.albumId, uuid));
    var k := Key(userId, sk);
    && k in o.state
    && o.state == t[k := o.state[k]]
    && o.state[k].albumName == Some(Trim(req.albumName.value))
    && o.state[k].updatedAt == Some(now)
    && (!Truthy(req.albumId) ==> o.state[k].createdAt == Some(now))
    && (Truthy(req.albumId) ==> Key(userId, req.albumId.value) in t)
    && Field(o.response.body, "albumId") == Some(JStr(sk))
    && (Field(o.response.body, "createdAt").Some? <==> !Truthy(req.albumId))
    && MessageOf(o.response) == Some(if Truthy(req.albumId) then "Album updated successfully" else "Album created successfully")
  }

  /** The body of createUpdateAlbum's answer on success. */
  function SavedBody(sk: string, albumName: string, isNewAlbum: bool, createdAt: Option<string>, updatedAt: string): (j: Json)
    ensures Field(j, "albumId") == Some(JStr(sk))
    ensures Field(j, "message") == Some(JStr(if isNewAlbum then "Album created successfully" else "Album updated successfully"))
    ensures Field(j, "createdAt").Some? <==> isNewAlbum
  {
    var message := if isNewAlbum then "Album created successfully" else "Album updated successfully";
    var updated := ("updatedAt", JStr(updatedAt));
    var created := ("createdAt", if createdAt.Some? then JStr(createdAt.value) else JNull);
    var tail := if isNewAlbum then [created, updated] else [updated];
    assert Lookup(tail, "createdAt").Some? <==> isNewAlbum by {
      LookupCons(tail[0], tail[1..], "createdAt");
      assert [tail[0]] + tail[1..] == tail;
    }
    var l3 := [("message", JStr(message))] + tail;
    LookupCons(("message", JStr(message)), tail, "message");
    LookupCons(("message", JStr(message)), tail, "createdAt");
    var l2 := [("albumName", JStr(albumName))] + l3;
    LookupCons(("albumName", JStr(albumName)), l3, "message");
    LookupCons(("albumName", JStr(albumName)), l3, "createdAt");
    var l1 := [("albumId", JStr(sk))] + l2;
    LookupCons(("albumId", JStr(sk)), l2, "albumId");
    LookupCons(("albumId", JStr(sk)), l2, "message");
    LookupCons(("albumId", JStr(sk)), l2, "createdAt");
    JObj(l1)
  }

  /**
   * Which of createUpdateAlbum's store calls throw: the name check's Query,
   * the GetItem that reads the album an update names, and the PutItem.
   */
  datatype AlbumFaults = AlbumFaults(nameQueryFails: bool, lookupFails: bool, putFails: bool)

  /** What the handler's `catch` answers for any error that is not a JSON syntax error. */
  function UnexpectedError(): (r: Response)
    ensures r.statusCode == 500
    ensures Field(r.body, "error") == Some(JStr("An unexpected error occurred."))
  {
    InternalServerErrorResponse(JStr("An unexpected error occurred."))
  }

  /**
   * The write fails in the store: the GetItem of an update, or else the
   * PutItem once the album to update is known to exist.
   */
  predicate WriteFails(t: Table, userId: string, req: AlbumRequest, f: AlbumFaults)
  {
    || (Truthy(req.albumId) && f.lookupFails)
    || (f.putFails && !(Truthy(req.albumId) && Key(userId, req.albumId.value) !in t))
  }

  /**
   * createUpdateAlbum after authentication, for the caller `userId`. `now` is
   * the request's timestamp and `uuid` the id `randomUUID()` would give.
   */
  function SaveAlbumAs(userId: string, body: Body<AlbumRequest>, t: Table, now: string, uuid: string, f: AlbumFaults): (o: Effect<Table>)
    ensures body.Malformed? ==> o == Effect(CustomErrorResponse(400, "Invalid JSON in request body"), t)
    ensures o.response.statusCode in {200, 400, 404, 409, 500}
    ensures o.response.statusCode != 200 ==> o.state == t
    ensures o.response.statusCode == 400 <==> body.Malformed? || Blank(body.fields.albumName)
    ensures o.response.statusCode == 500 ==> o.response == UnexpectedError()
    ensures o.response.statusCode == 500 <==>
              && body.Parsed? && !Blank(body.fields.albumName)
              && (f.nameQueryFails ||
                  (!NameTaken(t, userId, Trim(body.fields.albumName.value), Exclusion(body.fields)) &&
                   WriteFails(t, userId, body.fields, f)))
    ensures o.response.statusCode == 409 <==>
              && body.Parsed? && !Blank(body.fields.albumName) && !f.nameQueryFails
              && NameTaken(t, userId, Trim(body.fields.albumName.value), Exclusion(body.fields))
    ensures o.response.statusCode == 404 <==>
              && body.Parsed? && !Blank(body.fields.albumName) && !f.nameQueryFails
              && !NameTaken(t, userId, Trim(body.fields.albumName.value), Exclusion(body.fields))
              && Truthy(body.fields.albumId) && !f.lookupFails && Key(userId, body.fields.albumId.value) !in t
    ensures o.response.statusCode == 200 ==> AlbumSaved(t, o, userId, body.fields, now, uuid)
  {
    match body
    case Malformed => Effect(CustomErrorResponse(400, "Invalid JSON in request body"), t)
    case Parsed(req) =>
      if Blank(req.albumName) then
        Effect(CustomErrorResponse(400, "albumName is required and cannot be empty"), t)
      else SaveNamed(userId, req, t, now, uuid, f)
  }

  /** createUpdateAlbum once the album name is known not to be blank: the name check, then the write. */
  function SaveNamed(userId: string, req: AlbumRequest, t: Table, now: string, uuid: string, f: AlbumFaults): (o: Effect<Table>)
    requires !Blank(req.albumName)
    ensures o.response.statusCode in {200, 404, 409, 500}
    ensures o.response.statusCode != 200 ==> o.state == t
    ensures o.response.statusCode == 500 ==> o.response == UnexpectedError()
    ensures o.response.statusCode == 500 <==>
              f.nameQueryFails || (!NameTaken(t, userId, Trim(req.albumName.value), Exclusion(req)) && WriteFails(t, userId, req, f))
    ensures o.response.statusCode == 409 <==> !f.nameQueryFails && NameTaken(t, userId, Trim(req.albumName.value), Exclusion(req))
    ensures o.response.statusCode == 404 <==>
              && !f.nameQueryFails && !NameTaken(t, userId, Trim(req.albumName.value), Exclusion(req))
              && Truthy(req.albumId) && !f.lookupFails && Key(userId, req.albumId.value) !in t
    ensures o.response.statusCode == 200 ==> AlbumSaved(t, o, userId, req, now, uuid)
  {
    var name := Trim(req.albumName.value);
    var isNewAlbum := !Truthy(req.albumId);
    var finalId := OrElse(req.albumId, uuid);
    if f.nameQueryFails then Effect(UnexpectedError(), t)
    else if CheckAlbumNameExists(t, userId, name, if isNewAlbum then None else Some(finalId)) then
      Effect(CustomErrorResponse(409, "An album with this name already exists"), t)
    else WriteAlbum(userId, req, t, now, uuid, f)
  }

  /**
   * The write once the name is free: an update reads the album first (404 when
   * it is missing), then the row is put. A GetItem or PutItem that throws
   * answers 500 and writes nothing.
   */
  function WriteAlbum(userId: string, req: AlbumRequest, t: Table, now: string, uuid: string, f: AlbumFaults): (o: Effect<Table>)
    requires !Blank(req.albumName)
    ensures o.response.statusCode in {200, 404, 500}
    ensures o.response.statusCode == 500 <==> WriteFails(t, userId, req, f)
    ensures o.response.statusCode == 500 ==> o == Effect(UnexpectedError(), t)
    ensures o.response.statusCode == 404 <==> Truthy(req.albumId) && !f.lookupFails && Key(userId, req.albumId.value) !in t
    ensures o.response.statusCode == 404 ==> o.state == t
    ensures o.response.statusCode == 200 ==> AlbumSaved(t, o, userId, req, now, uuid)
  {
    var name := Trim(req.albumName.value);
    var isNewAlbum := !Truthy(req.albumId);
    if !isNewAlbum && f.lookupFails then Effect(UnexpectedError(), t)
    else
      match SaveOrUpdateAlbum(t, userId, OrElse(req.albumId, uuid), name, isNewAlbum, now)
      case NotFound => Effect(CustomErrorResponse(404, "Album not found"), t)
      case Saved(k, row) =>
        if f.putFails then Effect(UnexpectedError(), t)
        else Effect(Respond(SavedBody(k.sk, name, isNewAlbum, row.createdAt, now)), t[k := row])
  }

  /** The createUpdateAlbum handler: the authentication prelude, then the save. */
  function CreateUpdateAlbum(headers: map<string, string>, cognito: nat -> LookupOutcome, body: Body<AlbumRequest>,
                             t: Table, now: string, uuid: string, f: AlbumFaults): (o: Effect<Table>)
    ensures Authenticate(headers, cognito).Err? ==> o == Effect(Authenticate(headers, cognito).error, t)
    ensures Authenticate(headers, cognito).Ok? ==> o == SaveAlbumAs(Authenticate(headers, cognito).value, body, t, now, uuid, f)
    ensures o.response.statusCode in {200, 400, 401, 404, 409, 500}
    ensures o.state != t ==> Authenticate(headers, cognito).Ok? && o.response.statusCode == 200
  {
    match Authenticate(headers, cognito)
    case Err(response) => Effect(response, t)
    case Ok(userId) => SaveAlbumAs(userId, body, t, now, uuid, f)
  }

  /** No user has two albums whose names differ only in case. */
  ghost predicate UniqueAlbumNames(t: Table)
  {
    forall k1, k2 ::
      (k1 in t && k2 in t && k1 != k2 && k1.pk == k2.pk &&
       StartsWith(k1.sk, ALBUM_PREFIX) && StartsWith(k2.sk, ALBUM_PREFIX) && t[k1].albumName.Some?)
      ==> !NamedAlike(t[k2], t[k1].albumName.value)
  }

  /** Creating or renaming albums one request at a time keeps album names unique per user. */
  lemma SaveAlbumKeepsNamesUnique(userId: string, body: Body<AlbumRequest>, t: Table, now: string, uuid: string, f: AlbumFaults)
    requires UniqueAlbumNames(t)
    ensures UniqueAlbumNames(SaveAlbumAs(userId, body, t, now, uuid, f).state)
  {
    var o := SaveAlbumAs(userId, body, t, now, uuid, f);
    if o.response.statusCode == 200 {
      var req := body.fields;
      var k := Key(userId, AlbumSortKey(OrElse(req.albumId, uuid)));
      forall k' | k' in t && IsAlbumKey(k', userId) && Excluded(k'.sk, Exclusion(req)) ensures k' == k {
        assert AlbumSortKey(k'.sk) == k'.sk;
      }
      PutKeepsUnique(t, k, o.state[k], Exclusion(req));
    }
  }

  /**
   * Writing a row whose name no other album row of the user carries (the row
   * it replaces, if any, is the one excluded from the check) keeps names unique.
   */
  lemma PutKeepsUnique(t: Table, k: Key, row: Row, excl: Option<string>)
    requires UniqueAlbumNames(t)
    requires row.albumName.Some? && !NameTaken(t, k.pk, row.albumName.value, excl)
    requires forall k' :: k' in t && IsAlbumKey(k', k.pk) && Excluded(k'.sk, excl) ==> k' == k
    ensures UniqueAlbumNames(t[k := row])
  {
    var t' := t[k := row];
    forall k1, k2 | k1 in t' && k2 in t' && k1 != k2 && k1.pk == k2.pk &&
                    StartsWith(k1.sk, ALBUM_PREFIX) && StartsWith(k2.sk, ALBUM_PREFIX) &&
                    t'[k1].albumName.Some?
      ensures !NamedAlike(t'[k2], t'[k1].albumName.value)
    {
      if k1 == k || k2 == k {
        var other := if k1 == k then k2 else k1;
        assert other in t && IsAlbumKey(other, k.pk);
        assert !NamedAlike(t[other], row.albumName.value);
      }
    }
  }

  /**
   * An update naming the album by its bare id (without "ALBUM#") never saves:
   * the lookup uses the id as given, so unless a row sits at that raw key the
   * answer is 404 (or 409 on a clash, 500 on a store error), and the table is
   * unchanged.
   */
  lemma BareIdUpdateNeverSaves(userId: string, req: AlbumRequest, t: Table, now: string, uuid: string, f: AlbumFaults)
    requires Truthy(req.albumId) && !StartsWith(req.albumId.value, ALBUM_PREFIX)
    requires Key(userId, req.albumId.value) !in t
    ensures SaveAlbumAs(userId, Parsed(req), t, now, uuid, f).response.statusCode in {400, 404, 409, 500}
    ensures SaveAlbumAs(userId, Parsed(req), t, now, uuid, f).state == t
  {
  }

  // ---------------------------------------------------------------------------
  // getAllAlbumForUser.ts
  // ---------------------------------------------------------------------------

  /** An album as listed: `createdAt` only when the row has a non-empty one. */
  datatype Album = Album(albumId: string, albumName: Option<string>, createdAt: Option<string>, updatedAt: Option<string>)

  function ToAlbum(sk: string, row: Row): Album
  {
    Album(sk, row.albumName, if Truthy(row.createdAt) then row.createdAt else None, row.updatedAt)
  }

  /** The sort keys of the user's album rows, newest first. */
  function AlbumSortKeys(t: Table, userId: string): (sks: seq<string>)
    ensures forall sk :: sk in sks <==> Key(userId, sk) in t && StartsWith(sk, ALBUM_PREFIX)
    ensures Descending(sks)
  {
    var q := QueryDescending(t, userId);
    KeepDescending(q, sk => StartsWith(sk, ALBUM_PREFIX));
    WithPrefix(q, ALBUM_PREFIX)
  }

  /** `getUserAlbums(userId)`: one listed album per album sort key, in query order. */
  function GetUserAlbums(t: Table, userId: string): (albums: seq<Album>)
    ensures |albums| == |AlbumSortKeys(t, userId)|
    ensures forall i :: 0 <= i < |albums| ==>
              albums[i] == ToAlbum(AlbumSortKeys(t, userId)[i], t[Key(userId, AlbumSortKeys(t, userId)[i])])
  {
    var sks := AlbumSortKeys(t, userId);
    assert forall i :: 0 <= i < |sks| ==> Key(userId, sks[i]) in t by {
      forall i | 0 <= i < |sks| ensures Key(userId, sks[i]) in t {
        assert sks[i] in sks;
      }
    }
    seq(|sks|, i requires 0 <= i < |sks| => ToAlbum(sks[i], t[Key(userId, sks[i])]))
  }

  /**
   * Every listed album is an album row of the user, listed under its sort key
   * with the row's name and timestamps, `createdAt` only when the row has a
   * non-empty one.
   */
  lemma GetUserAlbumsSound(t: Table, userId: string)
    ensures var albums := GetUserAlbums(t, userId);
            forall i :: 0 <= i < |albums| ==>
              && Key(userId, albums[i].albumId) in t
              && StartsWith(albums[i].albumId, ALBUM_PREFIX)
              && albums[i].albumName == t[Key(userId, albums[i].albumId)].albumName
              && albums[i].updatedAt == t[Key(userId, albums[i].albumId)].updatedAt
              && (albums[i].createdAt.Some? <==> Truthy(t[Key(userId, albums[i].albumId)].createdAt))
              && (albums[i].createdAt.Some? ==> albums[i].createdAt == t[Key(userId, albums[i].albumId)].createdAt)
  {
    var albums := GetUserAlbums(t, userId);
    var sks := AlbumSortKeys(t, userId);
    forall i | 0 <= i < |albums|
      ensures albums[i].albumId == sks[i] && Key(userId, sks[i]) in t && StartsWith(sks[i], ALBUM_PREFIX)
    {
      assert sks[i] in sks;
    }
  }

  /** Every album row of the user is listed. */
  lemma GetUserAlbumsComplete(t: Table, userId: string, sk: string)
    requires Key(userId, sk) in t && StartsWith(sk, ALBUM_PREFIX)
    ensures exists i :: 0 <= i < |GetUserAlbums(t, userId)| && GetUserAlbums(t, userId)[i].albumId == sk
  {
    var sks := AlbumSortKeys(t, userId);
    var i :| 0 <= i < |sks| && sks[i] == sk;
    assert GetUserAlbums(t, userId)[i].albumId == sk;
  }

  /** Albums are listed newest key first: sort keys strictly descending. */
  lemma GetUserAlbumsNewestFirst(t: Table, userId: string)
    ensures var albums := GetUserAlbums(t, userId);
            forall i, j :: 0 <= i < j < |albums| ==> Less(albums[j].albumId, albums[i].albumId)
  {
    var albums := GetUserAlbums(t, userId);
    var sks := AlbumSortKeys(t, userId);
    assert forall i :: 0 <= i < |albums| ==> albums[i].albumId == sks[i];
  }

  function AlbumJson(a: Album): Json
  {
    JObj([("albumId", JStr(a.albumId))] + OptionalField("albumName", a.albumName)
         + OptionalField("createdAt", a.createdAt) + OptionalField("updatedAt", a.updatedAt))
  }

  /** The `albums` array: each album in its JSON form, in listing order. */
  function AlbumsJson(albums: seq<Album>): (js: seq<Json>)
    ensures |js| == |albums|
    ensures forall i :: 0 <= i < |albums| ==> js[i] == AlbumJson(albums[i])
  {
    seq(|albums|, i requires 0 <= i < |albums| => AlbumJson(albums[i]))
  }

  /**
   * getAllAlbumForUser: the authentication prelude, then `{albums}`; a failed
   * query (`queryFails`) is answered with 500.
   */
  function GetAllAlbums(headers: map<string, string>, cognito: nat -> LookupOutcome, t: Table, queryFails: bool): (r: Response)
    ensures Authenticate(headers, cognito).Err? ==> r == Authenticate(headers, cognito).error
    ensures r.statusCode == 200 <==> Authenticate(headers, cognito).Ok? && !queryFails
    ensures Authenticate(headers, cognito).Ok? && queryFails ==>
              r.statusCode == 500 && MessageOf(r) == Some("Internal server error")
    ensures r.statusCode == 200 ==>
              var albums := GetUserAlbums(t, Authenticate(headers, cognito).value);
              Field(r.body, "albums") == Some(JArr(AlbumsJson(albums)))
  {
    match Authenticate(headers, cognito)
    case Err(response) => response
    case Ok(userId) =>
      if queryFails then InternalServerErrorResponse(JStr("An unexpected error occurred while fetching albums"))
      else
        var albums := GetUserAlbums(t, userId);
        Respond(JObj([("albums", JArr(AlbumsJson(albums)))]))
  }
}

=== FILE: base.dfy ===
/** Failure-carrying wrappers shared by every module of the model. */
module Base {

  /** A value that may be absent: JavaScript's `undefined` / `null`. */
  datatype Option<+T> = None | Some(value: T)

  /** The outcome of a step that either yields a value or stops with an error value. */
  datatype Result<+T, +E> = Ok(value: T) | Err(error: E)

  /** JavaScript truthiness of a `string | undefined`: present and not empty. */
  predicate Truthy(s: Option<string>)
  {
    s.Some? && s.value != ""
  }

  /** `a || b` on two possibly absent strings. */
  function OrElse(a: Option<string>, b: string): (r: string)
    ensures Truthy(a) ==> r == a.value
    ensures !Truthy(a) ==> r == b
  {
    if Truthy(a) then a.value else b
  }
}

=== FILE: deletion.dfy ===
/**
 * lambdas/src/deleteObjectsInS3.ts: deleting a user's files. The objects go
 * from the upload and thumbnail buckets, the files' rows from the table, and
 * then the face rows of every image the files had been indexed as, so that no
 * face is left pointing at a deleted photo.
 */
module Deletion {
  import opened Base
  import opened Strings
  import opened Json
  import opened Http
  import opened Table

  /** A file named in the request body. */
  datatype FileItem = FileItem(pk: string, sk: string, fileName: Option<string>, imageId: Option<string>)

  /** The table and the object keys in each bucket. */
  datatype Store = Store(table: Table, uploads: set<string>, thumbnails: set<string>)

  /**
   * What fails outside the model: each bucket's DeleteObjects call as a whole,
   * what BatchWriteItem hands back unprocessed or throws on, and the image ids
   * whose face-row Query throws.
   */
  datatype DeleteFaults = DeleteFaults(uploadFails: bool, thumbnailFails: bool, batchWrites: BatchStore, queryFails: set<string>)

  /** The object store's cap on keys per DeleteObjects call. */
  const DELETE_OBJECTS_LIMIT: nat := 1000

  const DELETE_FAILED: string := "Failed to delete objects or records"
  const DELETED: string := "Files and records deleted successfully"

  /** `${cognitoUserId}/${file.fileName}` for every file, in order. */
  function ObjectKeys(userId: string, files: seq<FileItem>): (keys: seq<string>)
    ensures |keys| == |files|
    ensures forall i :: 0 <= i < |files| ==> keys[i] == userId + "/" + Interpolate(files[i].fileName)
  {
    seq(|files|, i requires 0 <= i < |files| => userId + "/" + Interpolate(files[i].fileName))
  }

  /**
   * One DeleteObjects call: it fails when the service fails, when no key is
   * given or when more than `DELETE_OBJECTS_LIMIT` are; otherwise every listed
   * key is gone afterwards (absent keys count as deleted).
   */
  function DeleteFromBucket(bucket: set<string>, keys: seq<string>, fails: bool): (r: Option<set<string>>)
    ensures r.None? <==> fails || keys == [] || |keys| > DELETE_OBJECTS_LIMIT
    ensures r.Some? ==> forall o :: o in r.value <==> o in bucket && o !in keys
  {
    if fails || keys == [] || |keys| > DELETE_OBJECTS_LIMIT then None
    else Some(set o | o in bucket && o !in keys)
  }

  /** The `Deleted` list of a DeleteObjects reply: one `{Key}` per requested key. */
  function DeletedList(keys: seq<string>): (j: Json)
    ensures j.JArr? && |j.items| == |keys|
  {
    JArr(seq(|keys|, i requires 0 <= i < |keys| => JObj([("Key", JStr(keys[i]))])))
  }

  /** One DeleteRequest per file, for the file's own row. */
  function RowDeletes(files: seq<FileItem>): (ws: seq<WriteRequest>)
    ensures |ws| == |files|
    ensures forall i :: 0 <= i < |files| ==> ws[i] == DeleteRequest(Key(files[i].pk, files[i].sk))
  {
    seq(|files|, i requires 0 <= i < |files| => DeleteRequest(Key(files[i].pk, files[i].sk)))
  }

  /**
   * `files.map(f => f.imageId).filter(id => id !== undefined)`: the image ids
   * the files carry, in file order, one per file that has one; an empty id is
   * kept (only `undefined` is dropped).
   */
  function ImageIdsOf(files: seq<FileItem>): (ids: seq<string>)
    ensures forall id :: id in ids <==> exists i :: 0 <= i < |files| && files[i].imageId == Some(id)
    ensures |ids| <= |files|
    ensures |files| == 1 ==> ids == if files[0].imageId.Some? then [files[0].imageId.value] else []
    decreases |files|
  {
    if files == [] then []
    else
      var rest := ImageIdsOf(files[1..]);
      assert forall i :: 1 <= i < |files| ==> files[i] == files[1..][i - 1];
      match files[0].imageId
      case Some(id) => [id] + rest
      case None => rest
  }

  /** Files that all carry an image id give their ids one for one, in file order. */
  lemma {:induction false} ImageIdsAllDefined(files: seq<FileItem>)
    requires forall i :: 0 <= i < |files| ==> files[i].imageId.Some?
    ensures |ImageIdsOf(files)| == |files|
    ensures forall i :: 0 <= i < |files| ==> ImageIdsOf(files)[i] == files[i].imageId.value
    decreases |files|
  {
    if files != [] {
      assert forall i :: 1 <= i < |files| ==> files[i] == files[1..][i - 1];
      ImageIdsAllDefined(files[1..]);
      assert ImageIdsOf(files) == [files[0].imageId.value] + ImageIdsOf(files[1..]);
    }
  }

  /** The ids of two lists of files one after the other: the ids of each, in order. */
  lemma {:induction false} ImageIdsAppend(a: seq<FileItem>, b: seq<FileItem>)
    ensures ImageIdsOf(a + b) == ImageIdsOf(a) + ImageIdsOf(b)
    decreases |a|
  {
    if a != [] {
      assert (a + b)[1..] == a[1..] + b;
      ImageIdsAppend(a[1..], b);
    } else {
      assert a + b == b;
    }
  }

  /** The partition of image `imageId`'s face rows. */
  function ImagePartition(imageId: string): string
  {
    IMAGE_PREFIX + imageId
  }

  /** A face row of the image: in its partition, with a `FACE#` sort key. */
  predicate FaceRowOf(k: Key, imageId: string)
  {
    k.pk == ImagePartition(imageId) && StartsWith(k.sk, FACE_PREFIX)
  }

  /** The query `PK = IMAGE#id AND begins_with(SK, 'FACE#')`, each hit turned into a DeleteRequest. */
  function FaceRowDeletes(t: Table, imageId: string): (ws: seq<WriteRequest>)
    ensures forall i :: 0 <= i < |ws| ==> ws[i].DeleteRequest?
    ensures forall k :: k in KeysOf(ws) <==> k in t && FaceRowOf(k, imageId)
  {
    var sks := WithPrefix(QueryAscending(t, ImagePartition(imageId)), FACE_PREFIX);
    var ws := seq(|sks|, i requires 0 <= i < |sks| => DeleteRequest(Key(ImagePartition(imageId), sks[i])));
    assert forall k :: k in t && FaceRowOf(k, imageId) ==> k in KeysOf(ws) by {
      forall k | k in t && FaceRowOf(k, imageId) ensures k in KeysOf(ws) {
        assert Key(ImagePartition(imageId), k.sk) == k;
        assert k.sk in sks;
        var i :| 0 <= i < |sks| && sks[i] == k.sk;
        assert ws[i].key == k;
      }
    }
    ws
  }

  /**
   * All face rows of all the images, image by image (`allItemsToDelete`): the
   * deletes name exactly the face rows of the images that the table holds.
   */
  function FaceDeletes(t: Table, imageIds: seq<string>): (ws: seq<WriteRequest>)
    ensures forall i :: 0 <= i < |ws| ==> ws[i].DeleteRequest?
    ensures forall k :: k in KeysOf(ws) <==> k in t && FaceRowOfSome(k, imageIds)
    decreases |imageIds|
  {
    if imageIds == [] then []
    else
      var here := FaceRowDeletes(t, imageIds[0]);
      var rest := FaceDeletes(t, imageIds[1..]);
      FaceDeletesCons(t, imageIds, rest);
      here + rest
  }

  /** `k` is a face row of one of the images. */
  ghost predicate FaceRowOfSome(k: Key, imageIds: seq<string>)
  {
    exists j :: 0 <= j < |imageIds| && FaceRowOf(k, imageIds[j])
  }

  /** The face rows of the first image, then those of the rest: the face rows of all of them. */
  lemma FaceDeletesCons(t: Table, imageIds: seq<string>, rest: seq<WriteRequest>)
    requires imageIds != []
    requires forall k :: k in KeysOf(rest) <==> k in t && FaceRowOfSome(k, imageIds[1..])
    ensures forall k :: k in KeysOf(FaceRowDeletes(t, imageIds[0]) + rest) <==> k in t && FaceRowOfSome(k, imageIds)
  {
    KeysOfAppend(FaceRowDeletes(t, imageIds[0]), rest);
    FaceRowOfSomeCons(imageIds);
  }

  /** A face row of some image is one of the first image or of some later one. */
  lemma FaceRowOfSomeCons(imageIds: seq<string>)
    requires imageIds != []
    ensures forall k :: FaceRowOfSome(k, imageIds) <==> FaceRowOf(k, imageIds[0]) || FaceRowOfSome(k, imageIds[1..])
  {
    forall k ensures FaceRowOfSome(k, imageIds) <==> FaceRowOf(k, imageIds[0]) || FaceRowOfSome(k, imageIds[1..]) {
      if FaceRowOfSome(k, imageIds) {
        var j :| 0 <= j < |imageIds| && FaceRowOf(k, imageIds[j]);
        if j > 0 {
          assert imageIds[1..][j - 1] == imageIds[j];
        }
      }
      if FaceRowOfSome(k, imageIds[1..]) {
        var j :| 0 <= j < |imageIds[1..]| && FaceRowOf(k, imageIds[1..][j]);
        assert imageIds[1..][j] == imageIds[j + 1];
      }
    }
  }

  /** A run of delete batches that ran to the end removed exactly the keys it named. */
  lemma CompletedDeletes(t: Table, ws: seq<WriteRequest>, store: BatchStore)
    requires forall i :: 0 <= i < |ws| ==> ws[i].DeleteRequest?
    requires WriteBatches(t, Chunks(ws, BATCH_WRITE_LIMIT), store, true).Completed?
    ensures WriteBatches(t, Chunks(ws, BATCH_WRITE_LIMIT), store, true).table == t - KeysOf(ws)
  {
    var batches := Chunks(ws, BATCH_WRITE_LIMIT);
    assert Flatten(batches) == ws;
    NothingLeftOver(batches, store);
    ProcessedAll(ws, store.unprocessed);
    ApplyAllDeletes(t, ws);
    assert (set i | 0 <= i < |ws| :: ws[i].key) == KeysOf(ws);
  }

  /** Every batch accepted with leftovers counting as failure: no key of the run was left over. */
  lemma {:induction false} NothingLeftOver(batches: seq<seq<WriteRequest>>, store: BatchStore)
    requires AllAccepted(batches, store, true)
    ensures forall i :: 0 <= i < |Flatten(batches)| ==> Flatten(batches)[i].key !in store.unprocessed
    decreases |batches|
  {
    if batches != [] {
      assert forall i :: 1 <= i < |batches| ==> batches[1..][i - 1] == batches[i];
      NothingLeftOver(batches[1..], store);
      var b := batches[0];
      assert Flatten(batches) == b + Flatten(batches[1..]);
      assert forall i :: |b| <= i < |Flatten(batches)| ==> Flatten(batches)[i] == Flatten(batches[1..])[i - |b|];
    }
  }

  lemma {:induction false} ProcessedAll(ws: seq<WriteRequest>, unprocessed: set<Key>)
    requires forall i :: 0 <= i < |ws| ==> ws[i].key !in unprocessed
    ensures Processed(ws, unprocessed) == ws
    decreases |ws|
  {
    if ws != [] {
      assert forall i :: 1 <= i < |ws| ==> ws[1..][i - 1] == ws[i];
      ProcessedAll(ws[1..], unprocessed);
      assert [ws[0]] + ws[1..] == ws;
    }
  }

  /** The body of a successful reply. */
  function DeletedBody(keys: seq<string>): Json
  {
    JObj([("message", JStr(DELETED)), ("uploadFilesDeleted", DeletedList(keys)), ("thumbnailFilesDeleted", DeletedList(keys))])
  }

  /** No face-row Query of the images throws. */
  predicate QueriesSucceed(imageIds: seq<string>, f: DeleteFaults)
  {
    forall i :: 0 <= i < |imageIds| ==> imageIds[i] !in f.queryFails
  }

  /**
   * The `try` block: both buckets at once, then the files' rows, then one
   * Query per image for its face rows, then those rows; each batch of
   * `BATCH_WRITE_LIMIT` fails the whole request if it throws or leaves anything
   * unprocessed, and so does a Query that throws. Whatever was done before a
   * failure stays done.
   */
  function DeleteFiles(st: Store, userId: string, files: seq<FileItem>, f: DeleteFaults): (e: Effect<Store>)
    ensures e.response.statusCode in {200, 500}
    ensures e.response.statusCode == 500 ==> Field(e.response.body, "error") == Some(JStr(DELETE_FAILED))
    ensures e.response.statusCode == 200 ==> MessageOf(e.response) == Some(DELETED)
  {
    var keys := ObjectKeys(userId, files);
    var uploads := DeleteFromBucket(st.uploads, keys, f.uploadFails);
    var thumbnails := DeleteFromBucket(st.thumbnails, keys, f.thumbnailFails);
    var buckets := Store(st.table, OrKeep(uploads, st.uploads), OrKeep(thumbnails, st.thumbnails));
    if uploads.None? || thumbnails.None? then Effect(InternalServerErrorResponse(JStr(DELETE_FAILED)), buckets)
    else match WriteBatches(st.table, Chunks(RowDeletes(files), BATCH_WRITE_LIMIT), f.batchWrites, true)
      case Stopped(t1) => Effect(InternalServerErrorResponse(JStr(DELETE_FAILED)), buckets.(table := t1))
      case Completed(t1) =>
        if !QueriesSucceed(ImageIdsOf(files), f) then Effect(InternalServerErrorResponse(JStr(DELETE_FAILED)), buckets.(table := t1))
        else match WriteBatches(t1, Chunks(FaceDeletes(t1, ImageIdsOf(files)), BATCH_WRITE_LIMIT), f.batchWrites, true)
        case Stopped(t2) => Effect(InternalServerErrorResponse(JStr(DELETE_FAILED)), buckets.(table := t2))
        case Completed(t2) =>
          assert Lookup(DeletedBody(keys).fields, "message") == Some(JStr(DELETED));
          Effect(Respond(DeletedBody(keys)), buckets.(table := t2))
  }

  /** A bucket after a call: what the call left, or the bucket as it was when the call failed. */
  function OrKeep(r: Option<set<string>>, bucket: set<string>): set<string>
  {
    if r.Some? then r.value else bucket
  }

  /** The keys of the files' own rows. */
  function FileRowKeys(files: seq<FileItem>): set<Key>
  {
    set i | 0 <= i < |files| :: Key(files[i].pk, files[i].sk)
  }

  /** The files' rows are gone once their batches all went through. */
  lemma RowsDeleted(t: Table, files: seq<FileItem>, store: BatchStore)
    requires WriteBatches(t, Chunks(RowDeletes(files), BATCH_WRITE_LIMIT), store, true).Completed?
    ensures WriteBatches(t, Chunks(RowDeletes(files), BATCH_WRITE_LIMIT), store, true).table == t - FileRowKeys(files)
  {
    RowKeys(files);
    CompletedDeletes(t, RowDeletes(files), store);
  }

  lemma RowKeys(files: seq<FileItem>)
    ensures KeysOf(RowDeletes(files)) == FileRowKeys(files)
  {
    var rs := RowDeletes(files);
    forall k | k in FileRowKeys(files) ensures k in KeysOf(rs) {
      var i :| 0 <= i < |files| && k == Key(files[i].pk, files[i].sk);
      assert rs[i].key == k;
    }
  }

  /**
   * Success is all or nothing: the request succeeds exactly when both bucket
   * calls, every batch and every face-row Query succeed.
   */
  lemma DeleteFilesSucceedsWhen(st: Store, userId: string, files: seq<FileItem>, f: DeleteFaults)
    ensures var e := DeleteFiles(st, userId, files, f);
            var rows := Chunks(RowDeletes(files), BATCH_WRITE_LIMIT);
            var faces := Chunks(FaceDeletes(st.table - FileRowKeys(files), ImageIdsOf(files)), BATCH_WRITE_LIMIT);
            e.response.statusCode == 200 <==>
              && !f.uploadFails && !f.thumbnailFails && 0 < |files| <= DELETE_OBJECTS_LIMIT
              && AllAccepted(rows, f.batchWrites, true) && QueriesSucceed(ImageIdsOf(files), f)
              && AllAccepted(faces, f.batchWrites, true)
  {
    var e := DeleteFiles(st, userId, files, f);
    var rows := Chunks(RowDeletes(files), BATCH_WRITE_LIMIT);
    var w1 := WriteBatches(st.table, rows, f.batchWrites, true);
    if e.response.statusCode == 200 || w1.Completed? {
      RowsDeleted(st.table, files, f.batchWrites);
    }
  }

  /** After success the objects, the files' rows and every face row of their images are gone, and nothing else. */
  lemma DeleteFilesRemoves(st: Store, userId: string, files: seq<FileItem>, f: DeleteFaults)
    requires DeleteFiles(st, userId, files, f).response.statusCode == 200
    ensures var e := DeleteFiles(st, userId, files, f);
            var keys := ObjectKeys(userId, files);
            var t1 := st.table - FileRowKeys(files);
            && e.state.uploads == st.uploads - (set i | 0 <= i < |keys| :: keys[i])
            && e.state.thumbnails == st.thumbnails - (set i | 0 <= i < |keys| :: keys[i])
            && e.state.table == t1 - KeysOf(FaceDeletes(t1, ImageIdsOf(files)))
  {
    DeleteFilesEmptiesBuckets(st, userId, files, f);
    DeleteFilesRemovesRows(st, userId, files, f);
  }

  /** After success both buckets have lost exactly the files' keys. */
  lemma DeleteFilesEmptiesBuckets(st: Store, userId: string, files: seq<FileItem>, f: DeleteFaults)
    requires DeleteFiles(st, userId, files, f).response.statusCode == 200
    ensures var e := DeleteFiles(st, userId, files, f);
            var keys := ObjectKeys(userId, files);
            && e.state.uploads == st.uploads - (set i | 0 <= i < |keys| :: keys[i])
            && e.state.thumbnails == st.thumbnails - (set i | 0 <= i < |keys| :: keys[i])
  {
    var keys := ObjectKeys(userId, files);
    DeleteFilesBuckets(st, userId, files, f);
    var gone := set i | 0 <= i < |keys| :: keys[i];
    assert forall o :: o in keys <==> o in gone;
    BucketLoses(st.uploads, keys, f.uploadFails, gone);
    BucketLoses(st.thumbnails, keys, f.thumbnailFails, gone);
  }

  /** A DeleteObjects call that succeeds takes exactly the listed keys out of the bucket. */
  lemma BucketLoses(bucket: set<string>, keys: seq<string>, fails: bool, gone: set<string>)
    requires DeleteFromBucket(bucket, keys, fails).Some?
    requires forall o :: o in keys <==> o in gone
    ensures DeleteFromBucket(bucket, keys, fails).value == bucket - gone
  {
  }

  /** Whatever the outcome, each bucket is what its own DeleteObjects call left; a 200 means both calls succeeded. */
  lemma DeleteFilesBuckets(st: Store, userId: string, files: seq<FileItem>, f: DeleteFaults)
    ensures var e := DeleteFiles(st, userId, files, f);
            var keys := ObjectKeys(userId, files);
            var uploads := DeleteFromBucket(st.uploads, keys, f.uploadFails);
            var thumbnails := DeleteFromBucket(st.thumbnails, keys, f.thumbnailFails);
            && e.state.uploads == OrKeep(uploads, st.uploads)
            && e.state.thumbnails == OrKeep(thumbnails, st.thumbnails)
            && (e.response.statusCode == 200 ==> uploads.Some? && thumbnails.Some?)
  {
    var keys := ObjectKeys(userId, files);
    var uploads := DeleteFromBucket(st.uploads, keys, f.uploadFails);
    var thumbnails := DeleteFromBucket(st.thumbnails, keys, f.thumbnailFails);
    if uploads.Some? && thumbnails.Some? {
      match WriteBatches(st.table, Chunks(RowDeletes(files), BATCH_WRITE_LIMIT), f.batchWrites, true)
      case Stopped(t1) =>
      case Completed(t1) =>
        if QueriesSucceed(ImageIdsOf(files), f) {
          match WriteBatches(t1, Chunks(FaceDeletes(t1, ImageIdsOf(files)), BATCH_WRITE_LIMIT), f.batchWrites, true)
          case Stopped(t2) =>
          case Completed(t2) =>
        }
    }
  }

  /** After success the table has lost exactly the files' rows and then the face rows of their images. */
  lemma DeleteFilesRemovesRows(st: Store, userId: string, files: seq<FileItem>, f: DeleteFaults)
    requires DeleteFiles(st, userId, files, f).response.statusCode == 200
    ensures var t1 := st.table - FileRowKeys(files);
            DeleteFiles(st, userId, files, f).state.table == t1 - KeysOf(FaceDeletes(t1, ImageIdsOf(files)))
  {
    DeleteFilesTables(st, userId, files, f);
    RowsDeleted(st.table, files, f.batchWrites);
    var t1 := st.table - FileRowKeys(files);
    CompletedDeletes(t1, FaceDeletes(t1, ImageIdsOf(files)), f.batchWrites);
  }

  /** After a successful deletion no face row of any deleted image is left. */
  lemma DeleteFilesLeavesNoDanglingFaces(st: Store, userId: string, files: seq<FileItem>, f: DeleteFaults, i: nat, k: Key)
    requires DeleteFiles(st, userId, files, f).response.statusCode == 200
    requires i < |files| && files[i].imageId.Some? && FaceRowOf(k, files[i].imageId.value)
    ensures k !in DeleteFiles(st, userId, files, f).state.table
    ensures Key(files[i].pk, files[i].sk) !in DeleteFiles(st, userId, files, f).state.table
  {
    DeleteFilesRemoves(st, userId, files, f);
    var ids := ImageIdsOf(files);
    var id := files[i].imageId.value;
    assert id in ids;
    var j :| 0 <= j < |ids| && ids[j] == id;
    assert Key(files[i].pk, files[i].sk) in FileRowKeys(files);
    var t1 := st.table - FileRowKeys(files);
    if k in t1 {
      assert FaceRowOfSome(k, ids);
    }
  }

  /** Whatever the outcome, rows other than the files' own and their images' face rows are untouched. */
  lemma DeleteFilesFrame(st: Store, userId: string, files: seq<FileItem>, f: DeleteFaults, k: Key)
    requires k !in FileRowKeys(files)
    requires forall i :: 0 <= i < |files| && files[i].imageId.Some? ==> !FaceRowOf(k, files[i].imageId.value)
    ensures SameAt(st.table, DeleteFiles(st, userId, files, f).state.table, k)
  {
    var rs := RowDeletes(files);
    var rows := Chunks(rs, BATCH_WRITE_LIMIT);
    assert Flatten(rows) == rs;
    RowKeys(files);
    WriteBatchesFrame(st.table, rows, f.batchWrites, true);
    var t1 := WriteBatches(st.table, rows, f.batchWrites, true).table;
    var ids := ImageIdsOf(files);
    assert !FaceRowOfSome(k, ids) by {
      forall j | 0 <= j < |ids| ensures !FaceRowOf(k, ids[j]) {
        assert ids[j] in ids;
      }
    }
    var fd := FaceDeletes(t1, ids);
    var faces := Chunks(fd, BATCH_WRITE_LIMIT);
    assert Flatten(faces) == fd;
    WriteBatchesFrame(t1, faces, f.batchWrites, true);
    var t2 := WriteBatches(t1, faces, f.batchWrites, true).table;
    assert SameAt(st.table, t1, k) && SameAt(t1, t2, k);
    DeleteFilesTables(st, userId, files, f);
  }

  /** The table a deletion leaves: as it was, after the file rows' batches, or after the face rows' batches too. */
  lemma DeleteFilesTables(st: Store, userId: string, files: seq<FileItem>, f: DeleteFaults)
    ensures var t1 := WriteBatches(st.table, Chunks(RowDeletes(files), BATCH_WRITE_LIMIT), f.batchWrites, true).table;
            var t2 := WriteBatches(t1, Chunks(FaceDeletes(t1, ImageIdsOf(files)), BATCH_WRITE_LIMIT), f.batchWrites, true).table;
            var e := DeleteFiles(st, userId, files, f);
            e.state.table == st.table || e.state.table == t1 || e.state.table == t2
    ensures var w1 := WriteBatches(st.table, Chunks(RowDeletes(files), BATCH_WRITE_LIMIT), f.batchWrites, true);
            var w2 := WriteBatches(w1.table, Chunks(FaceDeletes(w1.table, ImageIdsOf(files)), BATCH_WRITE_LIMIT), f.batchWrites, true);
            var e := DeleteFiles(st, userId, files, f);
            e.response.statusCode == 200 ==> w1.Completed? && w2.Completed? && e.state.table == w2.table
  {
    var keys := ObjectKeys(userId, files);
    var w1 := WriteBatches(st.table, Chunks(RowDeletes(files), BATCH_WRITE_LIMIT), f.batchWrites, true);
    var e := DeleteFiles(st, userId, files, f);
    if DeleteFromBucket(st.uploads, keys, f.uploadFails).None? || DeleteFromBucket(st.thumbnails, keys, f.thumbnailFails).None? {
      assert e.state.table == st.table;
    } else if w1.Stopped? || !QueriesSucceed(ImageIdsOf(files), f) {
      assert e.state.table == w1.table;
    }
  }

  /** A failing bucket call fails the request before any row is touched. */
  lemma BucketFailureKeepsRows(st: Store, userId: string, files: seq<FileItem>, f: DeleteFaults)
    requires f.uploadFails || f.thumbnailFails || files == []
    ensures DeleteFiles(st, userId, files, f).response.statusCode == 500
    ensures DeleteFiles(st, userId, files, f).state.table == st.table
  {
  }

  /**
   * `deleteObjectsInS3`: the authentication prelude; a body that does not
   * parse or has no `files` list throws; then the files are deleted.
   */
  function DeleteObjects(headers: map<string, string>, cognito: nat -> LookupOutcome, body: Body<Option<seq<FileItem>>>,
                         st: Store, f: DeleteFaults): (o: Handled<Store>)
    ensures Authenticate(headers, cognito).Err? ==> o == Answered(Authenticate(headers, cognito).error, st)
    ensures o.Threw? <==> Authenticate(headers, cognito).Ok? && (body.Malformed? || body.fields.None?)
    ensures o.Answered? ==> o.response.statusCode in {200, 401, 500}
    ensures o.Answered? && o.response.statusCode == 200 ==>
              Authenticate(headers, cognito).Ok? && body.Parsed? && body.fields.Some? &&
              o == Answered(DeleteFiles(st, Authenticate(headers, cognito).value, body.fields.value, f).response,
                            DeleteFiles(st, Authenticate(headers, cognito).value, body.fields.value, f).state)
  {
    match Authenticate(headers, cognito)
    case Err(response) => Answered(response, st)
    case Ok(userId) =>
      match body
      case Malformed => Threw
      case Parsed(files) =>
        if files.None? then Threw
        else
          var e := DeleteFiles(st, userId, files.value, f);
          Answered(e.response, e.state)
  }
}

=== FILE: faces.dfy ===
/**
 * The face pipeline.
 *
 * lambdas/src/rekognition/indexFaces.ts indexes the faces of each photo row
 * the table's change stream reports and stores one row per face;
 * lambdas/src/rekognition/checkForExistingFaces.ts copies onto each face of a
 * photo the name of the face the recognition service finds most similar;
 * lambdas/src/rekognition/updateFaceData.ts is the HTTP handler that names a
 * face and every face similar to it.
 *
 * The recognition service and the failures of the store are a `Services`
 * value the handlers consult; the clock is a parameter.
 */
module Faces {
  import opened Base
  import opened Strings
  import opened Json
  import opened Http
  import opened Table

  // ---------------------------------------------------------------------------
  // Shared vocabulary
  // ---------------------------------------------------------------------------

  /** A face as the recognition service reports it (`FaceRecord.Face`, `FaceMatch.Face`). */
  datatype Face = Face(faceId: Option<string>, imageId: Option<string>)

  /**
   * What the handlers learn from outside the table. `collectionFails(c)`: making
   * sure collection `c` exists fails (the describe call fails with anything but
   * "not found", or the create call fails). `index(c, path, max)`: the face
   * records IndexFaces reports for the object at `path`, or a failure.
   * `search(c, faceId, max)`: the matches SearchFaces reports, best first, or a
   * failure. `batchWrites`: what BatchWriteItem hands back or throws on.
   * `writeFails`: keys on which UpdateItem fails.
   */
  datatype Services = Services(
    collectionFails: string -> bool,
    index: (string, string, nat) -> Option<seq<Face>>,
    search: (string, string, nat) -> Option<seq<Face>>,
    batchWrites: BatchStore,
    writeFails: set<Key>)

  /** How a stream handler's loop ends: it runs out of records, it returns early, or it throws. */
  datatype Run<S> = Finished(state: S) | Halted(state: S) | Crashed(state: S)

  /** The row of face `faceId` found in image `imageId`. */
  function FaceKey(imageId: string, faceId: string): Key
  {
    Key(IMAGE_PREFIX + imageId, FACE_PREFIX + faceId)
  }

  /** Different faces have different rows. */
  lemma FaceKeyInjective(i1: string, f1: string, i2: string, f2: string)
    ensures FaceKey(i1, f1) == FaceKey(i2, f2) <==> i1 == i2 && f1 == f2
  {
    if FaceKey(i1, f1) == FaceKey(i2, f2) {
      assert i1 == (IMAGE_PREFIX + i1)[|IMAGE_PREFIX|..];
      assert i2 == (IMAGE_PREFIX + i2)[|IMAGE_PREFIX|..];
      assert f1 == (FACE_PREFIX + f1)[|FACE_PREFIX|..];
      assert f2 == (FACE_PREFIX + f2)[|FACE_PREFIX|..];
    }
  }

  /** Every face name some row carries. */
  ghost function Names(t: Table): set<string>
  {
    set k | k in t && t[k].faceName.Some? :: t[k].faceName.value
  }

  /** Writing one row adds at most that row's name to the names in the table. */
  lemma NamesAfterPut(t: Table, k: Key, row: Row)
    ensures Names(t[k := row]) <= Names(t) + (if row.faceName.Some? then {row.faceName.value} else {})
  {
    var t' := t[k := row];
    forall n | n in Names(t') ensures n in Names(t) + (if row.faceName.Some? then {row.faceName.value} else {}) {
      var k' :| k' in t' && t'[k'].faceName.Some? && t'[k'].faceName.value == n;
      if k' != k {
        assert t[k'].faceName.value == n;
      }
    }
  }

  /** Deleting rows and writing rows without a name never adds a name. */
  lemma {:induction false} NamesAfterUnnamedWrites(t: Table, ws: seq<WriteRequest>)
    requires forall i :: 0 <= i < |ws| ==> ws[i].PutRequest? ==> ws[i].row.faceName.None?
    ensures Names(ApplyAll(t, ws)) <= Names(t)
    decreases |ws|
  {
    if ws != [] {
      var t1 := Apply(t, ws[0]);
      match ws[0] {
        case PutRequest(k, row) =>
          NamesAfterPut(t, k, row);
        case DeleteRequest(k) =>
          forall n | n in Names(t1) ensures n in Names(t) {
            var k' :| k' in t1 && t1[k'].faceName.Some? && t1[k'].faceName.value == n;
            assert t[k'].faceName.value == n;
          }
      }
      assert forall i :: 1 <= i < |ws| ==> ws[1..][i - 1] == ws[i];
      NamesAfterUnnamedWrites(t1, ws[1..]);
    }
  }

  // ---------------------------------------------------------------------------
  // indexFaces: one row per detected face
  // ---------------------------------------------------------------------------

  /** `MaxFaces` of the IndexFaces call. */
  const INDEX_MAX_FACES: nat := 10

  /** What the handler reads from a change-stream record's new image. */
  datatype Attr = S(s: string) | NotString
  datatype StreamImage = StreamImage(pk: string, sk: string, fileName: Option<string>, imageId: Option<Attr>)
  datatype StreamRecord = StreamRecord(eventName: string, newImage: Option<StreamImage>)

  /** The table and the recognition collections that exist. */
  datatype IndexState = IndexState(table: Table, collections: set<string>)

  /** `ensureCollection(id)`: afterwards the collection exists, unless making sure of that failed. */
  function EnsureCollection(collections: set<string>, id: string, sv: Services): (r: Option<set<string>>)
    ensures r.None? <==> sv.collectionFails(id)
    ensures r.Some? ==> id in r.value && collections <= r.value && r.value - collections <= {id}
  {
    if sv.collectionFails(id) then None else Some(collections + {id})
  }

  /** The object path handed to IndexFaces: `${PK}/${fileName}`, a missing name printing as `undefined`. */
  function ObjectPath(pk: string, fileName: Option<string>): string
  {
    pk + "/" + Interpolate(fileName)
  }

  /** A face record the handler stores: one with both a face id and an image id. */
  predicate Storable(f: Face)
  {
    Truthy(f.faceId) && Truthy(f.imageId)
  }

  /** The put request for a stored face: its key and the time, nothing else the model keeps. */
  function FacePut(f: Face, now: string): WriteRequest
    requires Storable(f)
  {
    PutRequest(FaceKey(f.imageId.value, f.faceId.value), EmptyRow.(updatedAt := Some(now)))
  }

  /** The `map`/`filter` over the face records: a put per storable record, in order. */
  function FacePuts(faces: seq<Face>, now: string): (r: seq<WriteRequest>)
    ensures |r| <= |faces|
    ensures forall j :: 0 <= j < |r| ==> r[j].PutRequest? && r[j].row == EmptyRow.(updatedAt := Some(now))
    decreases |faces|
  {
    if faces == [] then []
    else
      var rest := FacePuts(faces[1..], now);
      if Storable(faces[0]) then
        var r := [FacePut(faces[0], now)] + rest;
        assert forall j :: 1 <= j < |r| ==> r[j] == rest[j - 1];
        r
      else rest
  }

  /** The puts are exactly those of the storable records. */
  lemma {:induction false} FacePutsMembers(faces: seq<Face>, now: string)
    ensures forall w :: w in FacePuts(faces, now) <==>
              exists i :: 0 <= i < |faces| && Storable(faces[i]) && w == FacePut(faces[i], now)
    decreases |faces|
  {
    if faces != [] {
      var rest := faces[1..];
      FacePutsMembers(rest, now);
      assert forall i :: 0 <= i < |rest| ==> rest[i] == faces[i + 1];
      forall w | w in FacePuts(faces, now)
        ensures exists i :: 0 <= i < |faces| && Storable(faces[i]) && w == FacePut(faces[i], now)
      {
        if w !in FacePuts(rest, now) {
          assert Storable(faces[0]) && w == FacePut(faces[0], now);
        } else {
          var i :| 0 <= i < |rest| && Storable(rest[i]) && w == FacePut(rest[i], now);
          assert faces[i + 1] == rest[i];
        }
      }
      forall i | 0 <= i < |faces| && Storable(faces[i]) ensures FacePut(faces[i], now) in FacePuts(faces, now) {
        if i > 0 {
          assert rest[i - 1] == faces[i];
        }
      }
    }
  }

  /** The puts of a concatenation are the puts of each part, in order. */
  lemma {:induction false} FacePutsAppend(a: seq<Face>, b: seq<Face>, now: string)
    ensures FacePuts(a + b, now) == FacePuts(a, now) + FacePuts(b, now)
    decreases |a|
  {
    if a == [] {
      assert a + b == b;
    } else {
      assert (a + b)[0] == a[0];
      assert (a + b)[1..] == a[1..] + b;
      FacePutsAppend(a[1..], b, now);
    }
  }

  /** No record is dropped exactly when every record has both ids. */
  lemma {:induction false} FacePutsKeepAll(faces: seq<Face>, now: string)
    ensures |FacePuts(faces, now)| == |faces| <==> forall i :: 0 <= i < |faces| ==> Storable(faces[i])
    decreases |faces|
  {
    if faces != [] {
      FacePutsKeepAll(faces[1..], now);
      assert forall i :: 1 <= i < |faces| ==> faces[i] == faces[1..][i - 1];
      if Storable(faces[0]) {
        assert forall i :: 0 <= i < |faces[1..]| ==> faces[1..][i] == faces[i + 1];
      }
    }
  }

  /** Stored faces have pairwise different face ids (the service's ids are unique). */
  predicate DistinctFaceIds(faces: seq<Face>)
  {
    forall i, j :: 0 <= i < j < |faces| && Storable(faces[i]) && Storable(faces[j]) ==>
      faces[i].faceId != faces[j].faceId
  }

  /** Faces with different ids never share a row, so no batch of them is rejected. */
  lemma {:induction false} FacePutsDistinct(faces: seq<Face>, now: string)
    requires DistinctFaceIds(faces)
    ensures DistinctKeys(FacePuts(faces, now))
    decreases |faces|
  {
    if faces != [] {
      var rest := faces[1..];
      assert forall i :: 0 <= i < |rest| ==> rest[i] == faces[i + 1];
      FacePutsDistinct(rest, now);
      FacePutsMembers(rest, now);
      if Storable(faces[0]) {
        var w := FacePut(faces[0], now);
        var rs := FacePuts(rest, now);
        forall j | 0 <= j < |rs| ensures rs[j].key != w.key {
          assert rs[j] in rs;
          var i :| 0 <= i < |rest| && Storable(rest[i]) && rs[j] == FacePut(rest[i], now);
          FaceKeyInjective(faces[0].imageId.value, faces[0].faceId.value, rest[i].imageId.value, rest[i].faceId.value);
        }
        DistinctKeysCons(w, rs);
      }
    }
  }

  /**
   * The `imageId` the mapping callback leaves behind: '' when there are no
   * records, else the last record's, whether or not that record was stored.
   */
  function LastImageId(faces: seq<Face>): Option<string>
  {
    if faces == [] then Some("") else faces[|faces| - 1].imageId
  }

  /** `imageId && imageId.trim() !== ''` */
  predicate Recordable(id: Option<string>)
  {
    Truthy(id) && Trim(id.value) != ""
  }

  /** The UpdateItem that records the image id on the photo row (creating it if gone). */
  function RecordImageId(t: Table, k: Key, imageId: string, now: string): Table
  {
    t[k := Existing(t, k).(imageId := Some(imageId), updatedAt := Some(now))]
  }

  /**
   * What happens once the faces of the photo at `k` are known: the storable
   * ones are written in batches of `BATCH_WRITE_LIMIT` (unprocessed items are
   * not retried), then the last record's image id, when it is not blank, is
   * recorded on the photo row. A rejected batch or a failed update ends the
   * handler's loop with whatever was written so far.
   */
  function StoreFaces(t: Table, k: Key, faces: seq<Face>, sv: Services, now: string): (r: Run<Table>)
    ensures !r.Halted?
  {
    var batches := Chunks(FacePuts(faces, now), BATCH_WRITE_LIMIT);
    match WriteBatches(t, batches, sv.batchWrites, false)
    case Stopped(t1) => Crashed(t1)
    case Completed(t1) =>
      var imageId := LastImageId(faces);
      if !Recordable(imageId) then Finished(t1)
      else if k in sv.writeFails then Crashed(t1)
      else Finished(RecordImageId(t1, k, imageId.value, now))
  }

  /**
   * Storing ends normally exactly when no batch repeats a key, no BatchWriteItem
   * call fails, and the image-id update, if one is due, succeeds.
   */
  lemma StoreFacesSucceedsWhen(t: Table, k: Key, faces: seq<Face>, sv: Services, now: string)
    ensures var batches := Chunks(FacePuts(faces, now), BATCH_WRITE_LIMIT);
            StoreFaces(t, k, faces, sv, now).Finished? <==>
              && (forall i :: 0 <= i < |batches| ==> DistinctKeys(batches[i]))
              && KeysOf(FacePuts(faces, now)) !! sv.batchWrites.refused
              && (Recordable(LastImageId(faces)) ==> k !in sv.writeFails)
  {
    var batches := Chunks(FacePuts(faces, now), BATCH_WRITE_LIMIT);
    var w := WriteBatches(t, batches, sv.batchWrites, false);
    var r := StoreFaces(t, k, faces, sv, now);
    NoneRefusedFlatten(batches, sv.batchWrites);
    if w.Completed? {
      assert forall i :: 0 <= i < |batches| ==> Accepted(batches[i], sv.batchWrites, false);
      assert r.Finished? <==> (Recordable(LastImageId(faces)) ==> k !in sv.writeFails);
    } else {
      var i :| 0 <= i < |batches| && !Accepted(batches[i], sv.batchWrites, false);
      assert !DistinctKeys(batches[i]) || !NoneRefused(batches[i], sv.batchWrites);
      assert r.Crashed?;
    }
  }

  /**
   * After a normal end the table holds every stored face's put, in order,
   * and the photo row the last record's image id when that is not blank.
   */
  lemma StoreFacesWrites(t: Table, k: Key, faces: seq<Face>, sv: Services, now: string)
    requires StoreFaces(t, k, faces, sv, now).Finished?
    ensures var written := ApplyAll(t, Processed(FacePuts(faces, now), sv.batchWrites.unprocessed));
            StoreFaces(t, k, faces, sv, now).state ==
              if Recordable(LastImageId(faces)) then RecordImageId(written, k, LastImageId(faces).value, now) else written
    ensures Recordable(LastImageId(faces)) ==> StoreFaces(t, k, faces, sv, now).state[k].imageId == LastImageId(faces)
  {
    var puts := FacePuts(faces, now);
    var batches := Chunks(puts, BATCH_WRITE_LIMIT);
    assert Flatten(batches) == puts;
    var w := WriteBatches(t, batches, sv.batchWrites, false);
    assert w.Completed?;
    assert w.table == ApplyAll(t, Processed(puts, sv.batchWrites.unprocessed));
  }

  /**
   * With distinct face ids no batch repeats a key, so storing ends normally
   * exactly when no store call fails.
   */
  lemma StoreFacesDistinct(t: Table, k: Key, faces: seq<Face>, sv: Services, now: string)
    requires DistinctFaceIds(faces)
    ensures StoreFaces(t, k, faces, sv, now).Finished? <==>
              KeysOf(FacePuts(faces, now)) !! sv.batchWrites.refused && (Recordable(LastImageId(faces)) ==> k !in sv.writeFails)
  {
    FacePutsDistinct(faces, now);
    ChunksDistinct(FacePuts(faces, now), BATCH_WRITE_LIMIT);
    StoreFacesSucceedsWhen(t, k, faces, sv, now);
  }

  /** Whatever happens, only the rows of stored faces and the photo row itself can change. */
  lemma StoreFacesFrame(t: Table, k: Key, faces: seq<Face>, sv: Services, now: string)
    ensures forall k' :: k' !in KeysOf(FacePuts(faces, now)) && k' != k ==>
              SameAt(t, StoreFaces(t, k, faces, sv, now).state, k')
  {
    var puts := FacePuts(faces, now);
    var batches := Chunks(puts, BATCH_WRITE_LIMIT);
    PutsFrame(t, puts, sv.batchWrites);
    var t1 := WriteBatches(t, batches, sv.batchWrites, false).table;
    var r := StoreFaces(t, k, faces, sv, now).state;
    assert r == t1 || (Recordable(LastImageId(faces)) && r == RecordImageId(t1, k, LastImageId(faces).value, now));
    assert forall k' :: k' != k ==> SameAt(t1, r, k');
  }

  /** Writing puts in batches leaves every row outside their keys as it was. */
  lemma PutsFrame(t: Table, puts: seq<WriteRequest>, store: BatchStore)
    ensures forall k' :: k' !in KeysOf(puts) ==>
              SameAt(t, WriteBatches(t, Chunks(puts, BATCH_WRITE_LIMIT), store, false).table, k')
  {
    var batches := Chunks(puts, BATCH_WRITE_LIMIT);
    assert Flatten(batches) == puts;
    WriteBatchesFrame(t, batches, store, false);
  }

  /** Storing faces never names one: the names in the table can only disappear. */
  lemma StoreFacesNames(t: Table, k: Key, faces: seq<Face>, sv: Services, now: string)
    ensures Names(StoreFaces(t, k, faces, sv, now).state) <= Names(t)
  {
    var puts := FacePuts(faces, now);
    var batches := Chunks(puts, BATCH_WRITE_LIMIT);
    assert Flatten(batches) == puts;
    WriteBatchesNames(t, batches, sv.batchWrites, faces, now);
    var t1 := WriteBatches(t, batches, sv.batchWrites, false).table;
    if Recordable(LastImageId(faces)) && k !in sv.writeFails {
      NamesAfterPut(t1, k, Existing(t1, k).(imageId := LastImageId(faces), updatedAt := Some(now)));
      if k in t1 && t1[k].faceName.Some? {
        assert t1[k].faceName.value in Names(t1);
      }
    }
  }

  /**
   * The loop body for one stream record: a record without a new image is
   * skipped; otherwise the collection named after the partition key is made
   * to exist, the photo is indexed, and its faces are stored.
   */
  function IndexRecord(st: IndexState, rec: StreamRecord, sv: Services, now: string): (r: Run<IndexState>)
    ensures !r.Halted?
    ensures rec.newImage.None? ==> r == Finished(st)
    ensures rec.newImage.Some? && sv.collectionFails(rec.newImage.value.pk) ==> r == Crashed(st)
    ensures rec.newImage.Some? && !sv.collectionFails(rec.newImage.value.pk) ==>
              r.state.collections == st.collections + {rec.newImage.value.pk}
    ensures rec.newImage.Some? && !sv.collectionFails(rec.newImage.value.pk) ==>
              var img := rec.newImage.value;
              match sv.index(img.pk, ObjectPath(img.pk, img.fileName), INDEX_MAX_FACES)
              case None => r.Crashed? && r.state.table == st.table
              case Some(faces) => r.state.table == StoreFaces(st.table, Key(img.pk, img.sk), faces, sv, now).state &&
                                  r.Finished? == StoreFaces(st.table, Key(img.pk, img.sk), faces, sv, now).Finished?
  {
    if rec.newImage.None? then Finished(st)
    else
      var img := rec.newImage.value;
      match EnsureCollection(st.collections, img.pk, sv)
      case None => Crashed(st)
      case Some(collections) =>
        match sv.index(img.pk, ObjectPath(img.pk, img.fileName), INDEX_MAX_FACES)
        case None => Crashed(IndexState(st.table, collections))
        case Some(faces) =>
          match StoreFaces(st.table, Key(img.pk, img.sk), faces, sv, now)
          case Finished(t1) => Finished(IndexState(t1, collections))
          case Crashed(t1) => Crashed(IndexState(t1, collections))
  }

  /** Indexing a record never names a face. */
  lemma IndexRecordNames(st: IndexState, rec: StreamRecord, sv: Services, now: string)
    ensures Names(IndexRecord(st, rec, sv, now).state.table) <= Names(st.table)
  {
    if rec.newImage.Some? && !sv.collectionFails(rec.newImage.value.pk) {
      var img := rec.newImage.value;
      match sv.index(img.pk, ObjectPath(img.pk, img.fileName), INDEX_MAX_FACES)
      case None =>
      case Some(faces) => StoreFacesNames(st.table, Key(img.pk, img.sk), faces, sv, now);
    }
  }

  /** Writing batches of face puts, however far it gets, adds no name. */
  lemma {:induction false} WriteBatchesNames(t: Table, batches: seq<seq<WriteRequest>>, store: BatchStore, faces: seq<Face>, now: string)
    requires Flatten(batches) == FacePuts(faces, now)
    ensures Names(WriteBatches(t, batches, store, false).table) <= Names(t)
    decreases |batches|
  {
    UnnamedBatches(t, batches, store);
  }

  lemma {:induction false} UnnamedBatches(t: Table, batches: seq<seq<WriteRequest>>, store: BatchStore)
    requires forall i :: 0 <= i < |Flatten(batches)| ==> Flatten(batches)[i].PutRequest? && Flatten(batches)[i].row.faceName.None?
    ensures Names(WriteBatches(t, batches, store, false).table) <= Names(t)
    decreases |batches|
  {
    if batches != [] {
      var b := batches[0];
      assert Flatten(batches) == b + Flatten(batches[1..]);
      assert forall i :: 0 <= i < |b| ==> b[i] == Flatten(batches)[i];
      assert forall i :: 0 <= i < |Flatten(batches[1..])| ==> Flatten(batches[1..])[i] == Flatten(batches)[|b| + i];
      match BatchWrite(t, b, store)
      case Rejected =>
      case Written(t1, _) =>
        var done := Processed(b, store.unprocessed);
        forall i | 0 <= i < |done| ensures done[i].PutRequest? ==> done[i].row.faceName.None? {
          assert done[i] in b;
        }
        NamesAfterUnnamedWrites(t, done);
        UnnamedBatches(t1, batches[1..], store);
    }
  }

  /** The handler's loop: records in order, the first failure ending it (and caught). */
  function IndexFaces(st: IndexState, records: seq<StreamRecord>, sv: Services, now: string): (r: Run<IndexState>)
    ensures !r.Halted?
    decreases |records|
  {
    if records == [] then Finished(st)
    else match IndexRecord(st, records[0], sv, now)
      case Finished(s1) => IndexFaces(s1, records[1..], sv, now)
      case Halted(s1) => Halted(s1)
      case Crashed(s1) => Crashed(s1)
  }

  /** Records are processed one after another: a failure in the first part hides the second. */
  lemma {:induction false} IndexFacesAppend(st: IndexState, a: seq<StreamRecord>, b: seq<StreamRecord>, sv: Services, now: string)
    ensures IndexFaces(st, a + b, sv, now) ==
              (var ra := IndexFaces(st, a, sv, now); if ra.Crashed? then ra else IndexFaces(ra.state, b, sv, now))
    decreases |a|
  {
    if a == [] {
      assert a + b == b;
    } else {
      assert (a + b)[0] == a[0];
      assert (a + b)[1..] == a[1..] + b;
      match IndexRecord(st, a[0], sv, now)
      case Finished(s1) => IndexFacesAppend(s1, a[1..], b, sv, now);
      case Crashed(_) =>
    }
  }

  /** A batch of records none of which carries a new image changes nothing. */
  lemma {:induction false} IndexFacesSkipsImageless(st: IndexState, records: seq<StreamRecord>, sv: Services, now: string)
    requires forall i :: 0 <= i < |records| ==> records[i].newImage.None?
    ensures IndexFaces(st, records, sv, now) == Finished(st)
    decreases |records|
  {
    if records != [] {
      assert forall i :: 0 <= i < |records[1..]| ==> records[1..][i] == records[i + 1];
      IndexFacesSkipsImageless(st, records[1..], sv, now);
    }
  }

  /** The whole handler never names a face. */
  lemma {:induction false} IndexFacesNames(st: IndexState, records: seq<StreamRecord>, sv: Services, now: string)
    ensures Names(IndexFaces(st, records, sv, now).state.table) <= Names(st.table)
    decreases |records|
  {
    if records != [] {
      IndexRecordNames(st, records[0], sv, now);
      match IndexRecord(st, records[0], sv, now)
      case Finished(s1) => IndexFacesNames(s1, records[1..], sv, now);
      case Crashed(_) =>
    }
  }

  // ---------------------------------------------------------------------------
  // checkForExistingFaces: names copied from the most similar face
  // ---------------------------------------------------------------------------

  /** `MaxFaces` of the SearchFaces call. */
  const MATCH_MAX_FACES: nat := 5

  /** `t'` differs from `t` at most in face names and update times, on rows kept or created. */
  predicate NamesAndTimesOnly(t: Table, t': Table)
  {
    t.Keys <= t'.Keys &&
    forall k :: k in t' ==> t'[k] == Existing(t, k).(faceName := t'[k].faceName, updatedAt := t'[k].updatedAt)
  }

  lemma NamesAndTimesOnlyTransitive(t1: Table, t2: Table, t3: Table)
    requires NamesAndTimesOnly(t1, t2) && NamesAndTimesOnly(t2, t3)
    ensures NamesAndTimesOnly(t1, t3)
  {
    forall k | k in t3 ensures t3[k] == Existing(t1, k).(faceName := t3[k].faceName, updatedAt := t3[k].updatedAt) {
      if k in t2 {
        assert t2[k] == Existing(t1, k).(faceName := t2[k].faceName, updatedAt := t2[k].updatedAt);
      }
    }
  }

  /**
   * `getFaceRecordsByImageId`: the sort keys of the image's partition in key
   * order, each with its first `FACE#` removed.
   */
  function FaceIdsOf(t: Table, imageId: string): (r: seq<string>)
    ensures |r| == |QueryAscending(t, IMAGE_PREFIX + imageId)|
  {
    var sks := QueryAscending(t, IMAGE_PREFIX + imageId);
    seq(|sks|, i requires 0 <= i < |sks| => RemoveFirst(sks[i], FACE_PREFIX))
  }

  /** Every face row of the image yields its face id. */
  lemma FaceIdsFindEveryFace(t: Table, imageId: string, faceId: string)
    requires FaceKey(imageId, faceId) in t
    ensures faceId in FaceIdsOf(t, imageId)
  {
    var sks := QueryAscending(t, IMAGE_PREFIX + imageId);
    assert FACE_PREFIX + faceId in sks;
    var i :| 0 <= i < |sks| && sks[i] == FACE_PREFIX + faceId;
    RemoveFirstOfPrefixed(FACE_PREFIX, faceId);
    assert FaceIdsOf(t, imageId)[i] == faceId;
  }

  /** The id read from a face row leads back to that very row. */
  lemma FaceIdsLeadBack(t: Table, imageId: string, i: nat)
    requires i < |QueryAscending(t, IMAGE_PREFIX + imageId)|
    requires StartsWith(QueryAscending(t, IMAGE_PREFIX + imageId)[i], FACE_PREFIX)
    ensures FaceKey(imageId, FaceIdsOf(t, imageId)[i]) in t
  {
    var sk := QueryAscending(t, IMAGE_PREFIX + imageId)[i];
    assert sk in QueryAscending(t, IMAGE_PREFIX + imageId);
    assert sk == FACE_PREFIX + sk[|FACE_PREFIX|..];
    RemoveFirstOfPrefixed(FACE_PREFIX, sk[|FACE_PREFIX|..]);
  }

  /** `getFaceNameFromImageIdAndFaceId`: the face's name, or nothing (where the source throws). */
  function NameOf(t: Table, k: Key): (r: Option<string>)
    ensures r.Some? <==> k in t && Truthy(t[k].faceName)
    ensures r.Some? ==> r == t[k].faceName
    ensures r.Some? ==> r.value in Names(t) && r.value != ""
  {
    if k in t && Truthy(t[k].faceName) then t[k].faceName else None
  }

  /** The row a match points at, when the match names both an image and a face. */
  function MatchKey(m: Face): Option<Key>
  {
    if Storable(m) then Some(FaceKey(m.imageId.value, m.faceId.value)) else None
  }

  /**
   * One face of the photo: its most similar face, if there is one naming both
   * ids, lends its name. A failed search, a matched face without a name and a
   * failed update each throw.
   */
  function MatchOne(t: Table, collection: string, imageId: string, faceId: string, sv: Services, now: string): (r: Run<Table>)
    ensures !r.Halted?
    ensures sv.search(collection, faceId, MATCH_MAX_FACES).None? ==> r == Crashed(t)
    ensures sv.search(collection, faceId, MATCH_MAX_FACES).Some? ==>
              var matches := sv.search(collection, faceId, MATCH_MAX_FACES).value;
              && ((matches == [] || MatchKey(matches[0]).None?) ==> r == Finished(t))
              && (matches != [] && MatchKey(matches[0]).Some? ==>
                    (r.Crashed? <==> NameOf(t, MatchKey(matches[0]).value).None? || FaceKey(imageId, faceId) in sv.writeFails))
    ensures r.Finished? && r.state != t ==>
              var matches := sv.search(collection, faceId, MATCH_MAX_FACES).value;
              matches != [] && MatchKey(matches[0]).Some? &&
              NameOf(t, MatchKey(matches[0]).value).Some? &&
              FaceKey(imageId, faceId) in r.state &&
              r.state[FaceKey(imageId, faceId)].faceName == NameOf(t, MatchKey(matches[0]).value)
    ensures r.Finished? ==>
              && sv.search(collection, faceId, MATCH_MAX_FACES).Some?
              && var matches := sv.search(collection, faceId, MATCH_MAX_FACES).value;
                 (matches != [] && MatchKey(matches[0]).Some? ==>
                    && NameOf(t, MatchKey(matches[0]).value).Some?
                    && FaceKey(imageId, faceId) in r.state
                    && r.state[FaceKey(imageId, faceId)].faceName == t[MatchKey(matches[0]).value].faceName)
    ensures r.Crashed? ==> r.state == t
    ensures forall k :: k != FaceKey(imageId, faceId) ==> SameAt(t, r.state, k)
    ensures NamesAndTimesOnly(t, r.state)
    ensures Names(r.state) <= Names(t)
  {
    match sv.search(collection, faceId, MATCH_MAX_FACES)
    case None => Crashed(t)
    case Some(matches) =>
      if matches == [] || MatchKey(matches[0]).None? then Finished(t)
      else match NameOf(t, MatchKey(matches[0]).value)
        case None => Crashed(t)
        case Some(name) =>
          var k := FaceKey(imageId, faceId);
          if k in sv.writeFails then Crashed(t)
          else
            var t' := t[k := Existing(t, k).(faceName := Some(name), updatedAt := Some(now))];
            NamesAfterPut(t, k, t'[k]);
            Finished(t')
  }

  /** The rows of the given faces of one image. */
  function FaceKeys(imageId: string, faceIds: seq<string>): set<Key>
  {
    set i | 0 <= i < |faceIds| :: FaceKey(imageId, faceIds[i])
  }

  /** The faces of the photo, one after another; the first failure throws. */
  function MatchAll(t: Table, collection: string, imageId: string, faceIds: seq<string>, sv: Services, now: string): (r: Run<Table>)
    ensures !r.Halted?
    ensures forall k :: k !in FaceKeys(imageId, faceIds) ==> SameAt(t, r.state, k)
    ensures NamesAndTimesOnly(t, r.state)
    ensures Names(r.state) <= Names(t)
    decreases |faceIds|
  {
    if faceIds == [] then Finished(t)
    else
      assert forall i :: 1 <= i < |faceIds| ==> faceIds[1..][i - 1] == faceIds[i];
      assert FaceKeys(imageId, faceIds) == {FaceKey(imageId, faceIds[0])} + FaceKeys(imageId, faceIds[1..]) by {
        forall k | k in FaceKeys(imageId, faceIds) ensures k in {FaceKey(imageId, faceIds[0])} + FaceKeys(imageId, faceIds[1..]) {
          var i :| 0 <= i < |faceIds| && k == FaceKey(imageId, faceIds[i]);
          if i > 0 {
            assert k == FaceKey(imageId, faceIds[1..][i - 1]);
          }
        }
      }
      match MatchOne(t, collection, imageId, faceIds[0], sv, now)
      case Finished(t1) =>
        var r := MatchAll(t1, collection, imageId, faceIds[1..], sv, now);
        NamesAndTimesOnlyTransitive(t, t1, r.state);
        r
      case Halted(t1) => Halted(t1)
      case Crashed(t1) => Crashed(t1)
  }

  /** The image id `newData.imageId.S` yields: a string attribute's text, else nothing usable. */
  function ImageIdText(a: Attr): string
  {
    if a.S? then a.s else ""
  }

  /** A record the handler reads: a modification that carries a new image. */
  predicate Examined(rec: StreamRecord)
  {
    rec.eventName == "MODIFY" && rec.newImage.Some?
  }

  /** An examined record with an `imageId` attribute but a blank collection or image id: the handler returns. */
  predicate Blank(rec: StreamRecord)
  {
    Examined(rec) && rec.newImage.value.imageId.Some? &&
    (rec.newImage.value.pk == "" || ImageIdText(rec.newImage.value.imageId.value) == "")
  }

  /**
   * The loop body for one stream record: only modifications with a new image
   * are examined; a missing `imageId` attribute throws, a blank collection or
   * image id returns from the whole handler, and otherwise every face of the
   * image is matched, the collection being the photo row's partition key.
   */
  function CheckRecord(t: Table, rec: StreamRecord, sv: Services, now: string): (r: Run<Table>)
    ensures !Examined(rec) ==> r == Finished(t)
    ensures Examined(rec) && rec.newImage.value.imageId.None? ==> r == Crashed(t)
    ensures r.Halted? <==> Blank(rec)
    ensures r.Halted? ==> r.state == t
    ensures Examined(rec) && rec.newImage.value.imageId.Some? ==>
              var imageId := ImageIdText(rec.newImage.value.imageId.value);
              forall k :: k !in FaceKeys(imageId, FaceIdsOf(t, imageId)) ==> SameAt(t, r.state, k)
    ensures NamesAndTimesOnly(t, r.state)
    ensures Names(r.state) <= Names(t)
  {
    if !Examined(rec) then Finished(t)
    else
      var img := rec.newImage.value;
      match img.imageId
      case None => Crashed(t)
      case Some(a) =>
        var imageId := ImageIdText(a);
        if img.pk == "" || imageId == "" then Halted(t)
        else MatchAll(t, img.pk, imageId, FaceIdsOf(t, imageId), sv, now)
  }

  /** The handler: records in order until one throws or returns. */
  function CheckForExistingFaces(t: Table, records: seq<StreamRecord>, sv: Services, now: string): (r: Run<Table>)
    ensures NamesAndTimesOnly(t, r.state)
    ensures Names(r.state) <= Names(t)
    decreases |records|
  {
    if records == [] then Finished(t)
    else match CheckRecord(t, records[0], sv, now)
      case Finished(t1) =>
        var r := CheckForExistingFaces(t1, records[1..], sv, now);
        NamesAndTimesOnlyTransitive(t, t1, r.state);
        r
      case Halted(t1) => Halted(t1)
      case Crashed(t1) => Crashed(t1)
  }

  /** Records are handled one after another: once one throws or returns, the rest are never looked at. */
  lemma {:induction false} CheckAppend(t: Table, a: seq<StreamRecord>, b: seq<StreamRecord>, sv: Services, now: string)
    ensures CheckForExistingFaces(t, a + b, sv, now) ==
              (var ra := CheckForExistingFaces(t, a, sv, now); if ra.Finished? then CheckForExistingFaces(ra.state, b, sv, now) else ra)
    decreases |a|
  {
    if a == [] {
      assert a + b == b;
    } else {
      assert (a + b)[0] == a[0];
      assert (a + b)[1..] == a[1..] + b;
      match CheckRecord(t, a[0], sv, now)
      case Finished(t1) => CheckAppend(t1, a[1..], b, sv, now);
      case Halted(_) =>
      case Crashed(_) =>
    }
  }

  /** A blank record ends the handler there, unchanged, whatever follows it. */
  lemma CheckStopsAtBlank(t: Table, rec: StreamRecord, rest: seq<StreamRecord>, sv: Services, now: string)
    requires Blank(rec)
    ensures CheckForExistingFaces(t, [rec] + rest, sv, now) == Halted(t)
  {
    assert ([rec] + rest)[0] == rec;
  }

  /** Insertions, removals and image-less records are passed over. */
  lemma {:induction false} CheckIgnoresUnexamined(t: Table, records: seq<StreamRecord>, sv: Services, now: string)
    requires forall i :: 0 <= i < |records| ==> !Examined(records[i])
    ensures CheckForExistingFaces(t, records, sv, now) == Finished(t)
    decreases |records|
  {
    if records != [] {
      assert forall i :: 0 <= i < |records[1..]| ==> records[1..][i] == records[i + 1];
      CheckIgnoresUnexamined(t, records[1..], sv, now);
    }
  }

  // ---------------------------------------------------------------------------
  // updateFaceData: name a face and every face like it
  // ---------------------------------------------------------------------------

  /** `MaxFaces` of the bulk SearchFaces call. */
  const BULK_MAX_FACES: nat := 20

  const MISSING_FIELDS: string := "UserId, imageId, faceId, and faceName must be provided"
  const UPDATE_FAILED: string := "Failed to query items from DynamoDB"
  const UPDATED: string := "Face name updated successfully"

  /** The request body fields the handler destructures. */
  datatype FaceNameRequest = FaceNameRequest(imageId: Option<string>, faceId: Option<string>, faceName: Option<string>)

  /** `t'` differs from `t` at most in face names, on rows kept or created. */
  predicate NamesOnly(t: Table, t': Table)
  {
    t.Keys <= t'.Keys &&
    forall k :: k in t' ==> t'[k] == Existing(t, k).(faceName := t'[k].faceName)
  }

  lemma NamesOnlyTransitive(t1: Table, t2: Table, t3: Table)
    requires NamesOnly(t1, t2) && NamesOnly(t2, t3)
    ensures NamesOnly(t1, t3)
  {
    forall k | k in t3 ensures t3[k] == Existing(t1, k).(faceName := t3[k].faceName) {
      if k in t2 {
        assert t2[k] == Existing(t1, k).(faceName := t2[k].faceName);
      }
    }
  }

  /** `SET faceName = :faceName` on the row at `k`, creating it if absent. */
  function SetFaceName(t: Table, k: Key, name: string): (t': Table)
    ensures k in t' && t'[k].faceName == Some(name)
    ensures forall k' :: k' != k ==> SameAt(t, t', k')
    ensures NamesOnly(t, t')
    ensures Names(t') <= Names(t) + {name}
  {
    var t' := t[k := Existing(t, k).(faceName := Some(name))];
    NamesAfterPut(t, k, t'[k]);
    t'
  }

  /** The rows of the matches that name both an image and a face, in order. */
  function MatchKeys(matches: seq<Face>): (keys: seq<Key>)
    ensures forall i :: 0 <= i < |matches| && Storable(matches[i]) ==> MatchKey(matches[i]).value in keys
    ensures forall k :: k in keys ==> exists i :: 0 <= i < |matches| && MatchKey(matches[i]) == Some(k)
    decreases |matches|
  {
    if matches == [] then []
    else
      var rest := MatchKeys(matches[1..]);
      assert forall i :: 1 <= i < |matches| ==> matches[i] == matches[1..][i - 1];
      if Storable(matches[0]) then [MatchKey(matches[0]).value] + rest else rest
  }

  /** One UpdateItem per key, in order; the first failure throws. */
  function NameAll(t: Table, keys: seq<Key>, name: string, fails: set<Key>): (r: Run<Table>)
    ensures !r.Halted?
    ensures r.Finished? <==> forall i :: 0 <= i < |keys| ==> keys[i] !in fails
    ensures r.Finished? ==> forall k :: k in keys ==> k in r.state && r.state[k].faceName == Some(name)
    ensures forall k :: k !in keys ==> SameAt(t, r.state, k)
    decreases |keys|
  {
    if keys == [] then Finished(t)
    else if keys[0] in fails then Crashed(t)
    else
      var t1 := SetFaceName(t, keys[0], name);
      var r := NameAll(t1, keys[1..], name, fails);
      assert forall i :: 1 <= i < |keys| ==> keys[i] == keys[1..][i - 1];
      assert forall k :: k in keys ==> k == keys[0] || k in keys[1..];
      assert forall k :: k !in keys ==> k != keys[0] && k !in keys[1..];
      r
  }

  /** Naming faces changes no attribute but the face name, and brings in no name but the new one. */
  lemma {:induction false} NameAllNamesOnly(t: Table, keys: seq<Key>, name: string, fails: set<Key>)
    ensures NamesOnly(t, NameAll(t, keys, name, fails).state)
    ensures Names(NameAll(t, keys, name, fails).state) <= Names(t) + {name}
    decreases |keys|
  {
    if keys != [] && keys[0] !in fails {
      var t1 := SetFaceName(t, keys[0], name);
      NameAllNamesOnly(t1, keys[1..], name, fails);
      NamesOnlyTransitive(t, t1, NameAll(t1, keys[1..], name, fails).state);
    }
  }

  /**
   * The `try` block: the face named in the request (its key taken verbatim
   * from the body), then every face the search finds like it, the search
   * being for the face id with its first `FACE#` removed. Any failure answers
   * 500, keeping what was already written.
   */
  function NameFaces(t: Table, userId: string, imageId: string, faceId: string, name: string, sv: Services): (e: Effect<Table>)
    ensures e.response.statusCode in {200, 500}
    ensures e.response.statusCode == 500 ==> MessageOf(e.response) == Some("Internal server error") &&
                                             Field(e.response.body, "error") == Some(JStr(UPDATE_FAILED))
    ensures e.response.statusCode == 200 ==> MessageOf(e.response) == Some(UPDATED)
    ensures NamesOnly(t, e.state)
    ensures Names(e.state) <= Names(t) + {name}
  {
    var k := Key(imageId, faceId);
    if k in sv.writeFails then Effect(InternalServerErrorResponse(JStr(UPDATE_FAILED)), t)
    else
      var t1 := SetFaceName(t, k, name);
      match sv.search(userId, RemoveFirst(faceId, FACE_PREFIX), BULK_MAX_FACES)
      case None => Effect(InternalServerErrorResponse(JStr(UPDATE_FAILED)), t1)
      case Some(matches) =>
        var r := NameAll(t1, MatchKeys(matches), name, sv.writeFails);
        NameAllNamesOnly(t1, MatchKeys(matches), name, sv.writeFails);
        NamesOnlyTransitive(t, t1, r.state);
        if r.Finished? then Effect(Respond(JObj([("message", JStr(UPDATED))])), r.state)
        else Effect(InternalServerErrorResponse(JStr(UPDATE_FAILED)), r.state)
  }

  /**
   * The handler succeeds exactly when the direct update, the search and every
   * bulk update succeed; then the requested face and every matched face bear
   * the name, and no other row has changed.
   */
  lemma NameFacesOutcome(t: Table, userId: string, imageId: string, faceId: string, name: string, sv: Services)
    ensures var e := NameFaces(t, userId, imageId, faceId, name, sv);
            var found := sv.search(userId, RemoveFirst(faceId, FACE_PREFIX), BULK_MAX_FACES);
            && (e.response.statusCode == 200 <==>
                  Key(imageId, faceId) !in sv.writeFails && found.Some? &&
                  forall i :: 0 <= i < |MatchKeys(found.value)| ==> MatchKeys(found.value)[i] !in sv.writeFails)
            && (e.response.statusCode == 200 ==>
                  Key(imageId, faceId) in e.state && e.state[Key(imageId, faceId)].faceName == Some(name) &&
                  forall i :: 0 <= i < |found.value| && Storable(found.value[i]) ==>
                    MatchKey(found.value[i]).value in e.state && e.state[MatchKey(found.value[i]).value].faceName == Some(name))
            && (forall k :: k != Key(imageId, faceId) && (found.None? || k !in MatchKeys(found.value)) ==> SameAt(t, e.state, k))
  {
  }

  /**
   * `updateFaceData`: a missing token answers 401, a failed user lookup 500;
   * an unparsable body throws; a missing user id, image id, face id or name
   * answers 500 without writing; otherwise the faces are named.
   */
  function UpdateFaceData(headers: map<string, string>, cognito: nat -> LookupOutcome, body: Body<FaceNameRequest>,
                          t: Table, sv: Services): (o: Handled<Table>)
    ensures ValidateAccessToken(headers).None? ==> o == Answered(UnauthorizedResponse(), t)
    ensures ValidateAccessToken(headers).Some? && GetUserInfo(cognito, DEFAULT_RETRY_COUNT).user.None? ==>
              o.Answered? && o.response.statusCode == 500 && o.state == t
    ensures o.Threw? <==> ValidateAccessToken(headers).Some? && GetUserInfo(cognito, DEFAULT_RETRY_COUNT).user.Some? &&
                          body.Malformed?
    ensures o.Answered? ==> o.response.statusCode in {200, 401, 500}
    ensures o.Answered? && o.response.statusCode == 200 ==>
              var req := body.fields;
              body.Parsed? && Truthy(req.imageId) && Truthy(req.faceId) && Truthy(req.faceName) &&
              Key(req.imageId.value, req.faceId.value) in o.state &&
              o.state[Key(req.imageId.value, req.faceId.value)].faceName == req.faceName
    ensures o.Answered? ==> NamesOnly(t, o.state)
    ensures o.Answered? && o.state != t ==>
              body.Parsed? && Truthy(body.fields.faceName) && Names(o.state) <= Names(t) + {body.fields.faceName.value}
  {
    match ValidateAccessToken(headers)
    case None => Answered(UnauthorizedResponse(), t)
    case Some(_) =>
      var lookup := GetUserInfo(cognito, DEFAULT_RETRY_COUNT);
      if lookup.user.None? then Answered(InternalServerErrorResponse(JStr("Failed to get user info")), t)
      else
        var userId := SubOf(lookup.user.value);
        match body
        case Malformed => Threw
        case Parsed(req) =>
          if !Truthy(userId) || !Truthy(req.imageId) || !Truthy(req.faceId) || !Truthy(req.faceName) then
            Answered(InternalServerErrorResponse(JStr(MISSING_FIELDS)), t)
          else
            var e := NameFaces(t, userId.value, req.imageId.value, req.faceId.value, req.faceName.value, sv);
            NameFacesOutcome(t, userId.value, req.imageId.value, req.faceId.value, req.faceName.value, sv);
            Answered(e.response, e.state)
  }

  /** A request missing any of its fields (or a caller without a `sub`) changes nothing and names the fields. */
  lemma UpdateFaceDataRequiresFields(headers: map<string, string>, cognito: nat -> LookupOutcome, req: FaceNameRequest,
                                     t: Table, sv: Services)
    requires ValidateAccessToken(headers).Some? && GetUserInfo(cognito, DEFAULT_RETRY_COUNT).user.Some?
    requires !Truthy(SubOf(GetUserInfo(cognito, DEFAULT_RETRY_COUNT).user.value)) ||
             !Truthy(req.imageId) || !Truthy(req.faceId) || !Truthy(req.faceName)
    ensures var o := UpdateFaceData(headers, cognito, Parsed(req), t, sv);
            o.Answered? && o.state == t && o.response.statusCode == 500 &&
            Field(o.response.body, "error") == Some(JStr(MISSING_FIELDS))
  {
  }
}

=== FILE: http.dfy ===
/**
 * lambdas/src/utility.ts: the response builders every HTTP handler returns
 * through, the access-token extraction, the bounded retry around the identity
 * provider's user lookup, and the authentication prelude the handlers share.
 */
module Http {
  import opened Base
  import opened Json

  /** An API Gateway proxy result. The constant CORS headers are not modelled. */
  datatype Response = Response(statusCode: int, body: Json)

  /**
   * The request body after `JSON.parse(event.body || '{}')`: text that does not
   * parse, or the fields the handler destructures from it.
   */
  datatype Body<T> = Malformed | Parsed(fields: T)

  /** What an HTTP handler answers, with the state it leaves behind. */
  datatype Effect<S> = Effect(response: Response, state: S)

  /**
   * A handler that can let an exception escape: it answers (leaving some
   * state behind), or it throws before changing anything.
   */
  datatype Handled<S> = Answered(response: Response, state: S) | Threw

  /** The `message` field of a response body, when it is a string. */
  function MessageOf(r: Response): Option<string>
  {
    match Field(r.body, "message")
    case Some(JStr(m)) => Some(m)
    case _ => None
  }

  /** `respond(body)`: status 200 and the body as given. */
  function Respond(body: Json): (r: Response)
    ensures r.statusCode == 200
    ensures r.body == body
  {
    Response(200, body)
  }

  /** `customErrorResponse(statusCode, message)`: the given status and a `{message}` body. */
  function CustomErrorResponse(statusCode: int, message: string): (r: Response)
    ensures r.statusCode == statusCode
    ensures MessageOf(r) == Some(message)
    ensures r.body.JObj? && |r.body.fields| == 1
  {
    Response(statusCode, JObj([("message", JStr(message))]))
  }

  /** `unauthorizedResponse()`: always 401. */
  function UnauthorizedResponse(): (r: Response)
    ensures r.statusCode == 401
    ensures MessageOf(r) == Some("Unauthorized")
  {
    Response(401, JObj([("message", JStr("Unauthorized"))]))
  }

  /** `internalServerErrorResponse(err)`: always 500, carrying the fixed message and the error. */
  function InternalServerErrorResponse(err: Json): (r: Response)
    ensures r.statusCode == 500
    ensures MessageOf(r) == Some("Internal server error")
    ensures Field(r.body, "error") == Some(err)
  {
    var fields := [("message", JStr("Internal server error")), ("error", err)];
    assert Lookup(fields[1..], "error") == Some(err);
    Response(500, JObj(fields))
  }

  /** `validateAccessToken(event)`: the `authorization` header, or nothing when absent or empty. */
  function ValidateAccessToken(headers: map<string, string>): (token: Option<string>)
    ensures token.Some? <==> "authorization" in headers && headers["authorization"] != ""
    ensures token.Some? ==> token.value == headers["authorization"]
  {
    if "authorization" in headers && headers["authorization"] != "" then Some(headers["authorization"])
    else None
  }

  // ---------------------------------------------------------------------------
  // getUserInfo: the identity provider's GetUser with a bounded retry
  // ---------------------------------------------------------------------------

  datatype UserAttribute = UserAttribute(name: string, value: Option<string>)

  /** The part of a GetUser reply the handlers read. */
  datatype UserInfo = UserInfo(attributes: Option<seq<UserAttribute>>)

  /** What one GetUser call does: answers, is throttled, or fails otherwise. */
  datatype LookupOutcome = Found(user: UserInfo) | TooManyRequests | Failed

  /** The user, if any, and how many GetUser calls were made to get there. */
  datatype UserLookup = UserLookup(user: Option<UserInfo>, attempts: nat)

  /** The default `retryCount` of `getUserInfo`. */
  const DEFAULT_RETRY_COUNT: int := 5

  function MaxRetries(retryCount: int): nat
  {
    if retryCount > 0 then retryCount else 0
  }

  /**
   * `getUserInfo(token, retryCount)` from call number `attempt` on, where
   * `outcome(i)` is what the i-th GetUser call does. A throttled call is retried
   * while `retryCount > 0`, one less each time; anything else ends the lookup.
   */
  function GetUserInfoFrom(outcome: nat -> LookupOutcome, retryCount: int, attempt: nat): (r: UserLookup)
    ensures 1 <= r.attempts <= 1 + MaxRetries(retryCount)
    ensures forall i :: attempt <= i < attempt + r.attempts - 1 ==> outcome(i).TooManyRequests?
    ensures r.user.Some? <==> outcome(attempt + r.attempts - 1).Found?
    ensures r.user.Some? ==> r.user.value == outcome(attempt + r.attempts - 1).user
    ensures outcome(attempt + r.attempts - 1).TooManyRequests? ==> r.attempts == 1 + MaxRetries(retryCount)
    decreases MaxRetries(retryCount)
  {
    match outcome(attempt)
    case Found(u) => UserLookup(Some(u), 1)
    case Failed => UserLookup(None, 1)
    case TooManyRequests =>
      if retryCount > 0 then
        var rest := GetUserInfoFrom(outcome, retryCount - 1, attempt + 1);
        UserLookup(rest.user, rest.attempts + 1)
      else UserLookup(None, 1)
  }

  function GetUserInfo(outcome: nat -> LookupOutcome, retryCount: int): UserLookup
  {
    GetUserInfoFrom(outcome, retryCount, 0)
  }

  /** A lookup whose every call is throttled gives up after exactly `retryCount + 1` calls. */
  lemma AlwaysThrottledGivesUp(outcome: nat -> LookupOutcome, retryCount: nat)
    requires forall i :: outcome(i).TooManyRequests?
    ensures GetUserInfo(outcome, retryCount).user.None?
    ensures GetUserInfo(outcome, retryCount).attempts == retryCount + 1
  {
  }

  /** `UserAttributes?.find(a => a.Name === 'sub')?.Value` */
  function FindSub(attrs: seq<UserAttribute>): (r: Option<string>)
    ensures (forall i :: 0 <= i < |attrs| ==> attrs[i].name != "sub") ==> r.None?
    ensures forall i :: (0 <= i < |attrs| && attrs[i].name == "sub" &&
                         (forall j :: 0 <= j < i ==> attrs[j].name != "sub")) ==> r == attrs[i].value
  {
    if attrs == [] then None
    else if attrs[0].name == "sub" then attrs[0].value
    else FindSub(attrs[1..])
  }

  function SubOf(u: UserInfo): Option<string>
  {
    if u.attributes.Some? then FindSub(u.attributes.value) else None
  }

  /**
   * The prelude of every authenticated HTTP handler: no token gives 401, a
   * failed user lookup gives 500, a user without a `sub` gives 401; otherwise
   * the caller's id is the `sub` attribute.
   */
  function Authenticate(headers: map<string, string>, cognito: nat -> LookupOutcome): (r: Result<string, Response>)
    ensures ValidateAccessToken(headers).None? ==> r == Err(UnauthorizedResponse())
    ensures ValidateAccessToken(headers).Some? && GetUserInfo(cognito, DEFAULT_RETRY_COUNT).user.None? ==>
              r.Err? && r.error.statusCode == 500
    ensures r.Ok? <==> ValidateAccessToken(headers).Some? &&
                       GetUserInfo(cognito, DEFAULT_RETRY_COUNT).user.Some? &&
                       Truthy(SubOf(GetUserInfo(cognito, DEFAULT_RETRY_COUNT).user.value))
    ensures r.Ok? ==> r.value == SubOf(GetUserInfo(cognito, DEFAULT_RETRY_COUNT).user.value).value
    ensures r.Err? ==> r.error.statusCode in {401, 500}
  {
    if ValidateAccessToken(headers).None? then Err(UnauthorizedResponse())
    else
      var lookup := GetUserInfo(cognito, DEFAULT_RETRY_COUNT);
      if lookup.user.None? then Err(InternalServerErrorResponse(JStr("Failed to get user info")))
      else
        var sub := SubOf(lookup.user.value);
        if !Truthy(sub) then Err(UnauthorizedResponse()) else Ok(sub.value)
  }
}

=== FILE: json.dfy ===
/**
 * JSON values as the handlers build them for response bodies. Serialisation
 * itself (`JSON.stringify`) is not modelled; a body is the value that would be
 * serialised, fields in insertion order.
 */
module Json {
  import opened Base

  datatype Json =
    | JNull
    | JBool(b: bool)
    | JNum(n: int)
    | JStr(s: string)
    | JArr(items: seq<Json>)
    | JObj(fields: seq<(string, Json)>)

  /** The value of the first field called `name` in `fields`. */
  function Lookup(fields: seq<(string, Json)>, name: string): (r: Option<Json>)
    ensures r.None? <==> forall i :: 0 <= i < |fields| ==> fields[i].0 != name
    ensures r.Some? ==> exists i :: 0 <= i < |fields| && fields[i] == (name, r.value)
  {
    if fields == [] then None
    else if fields[0].0 == name then Some(fields[0].1)
    else
      var r := Lookup(fields[1..], name);
      assert r.Some? ==> exists i :: 0 <= i < |fields[1..]| && fields[1..][i] == (name, r.value);
      r
  }

  /** Looking a name up in a field list starts with its first field. */
  lemma LookupCons(f: (string, Json), rest: seq<(string, Json)>, name: string)
    ensures Lookup([f] + rest, name) == if f.0 == name then Some(f.1) else Lookup(rest, name)
  {
    assert ([f] + rest)[1..] == rest;
  }

  /** `body.name` of an object; nothing for any other value. */
  function Field(j: Json, name: string): Option<Json>
  {
    if j.JObj? then Lookup(j.fields, name) else None
  }

  /** The field `name: s` when `s` is defined, no field otherwise (`JSON.stringify` drops `undefined`). */
  function OptionalField(name: string, s: Option<string>): (r: seq<(string, Json)>)
    ensures s.None? ==> r == []
    ensures s.Some? ==> r == [(name, JStr(s.value))]
  {
    if s.Some? then [(name, JStr(s.value))] else []
  }

  /** Strings as a JSON array. */
  function Strs(xs: seq<string>): (r: Json)
    ensures r.JArr? && |r.items| == |xs|
    ensures forall i :: 0 <= i < |xs| ==> r.items[i] == JStr(xs[i])
  {
    JArr(seq(|xs|, i requires 0 <= i < |xs| => JStr(xs[i])))
  }
}

=== FILE: membership.dfy ===
/**
 * Album membership: lambdas/src/album/assignPhotosToAlbum.ts and
 * lambdas/src/album/unassignPhotosFromAlbum.ts. A media row belongs to an
 * album through its `albumId` attribute; both handlers validate the listed
 * items, check them with one BatchGetItem, then issue one conditional
 * UpdateItem per item, counting successes and collecting error texts.
 */
module Membership {
  import opened Base
  import opened Strings
  import opened Json
  import opened Http
  import opened Table
  import opened Albums

  // ---------------------------------------------------------------------------
  // The request and its validation
  // ---------------------------------------------------------------------------

  /** One `{PK, SK}` entry of the body's `items`. */
  datatype ItemRef = ItemRef(pk: Option<string>, sk: Option<string>)

  /** The body's `items`: `None` when it is not an array. */
  datatype MembershipRequest = MembershipRequest(items: Option<seq<ItemRef>>)

  /** `!item.PK || !item.SK || item.PK !== cognitoUserId` fails. */
  predicate ValidItem(item: ItemRef, userId: string)
  {
    Truthy(item.pk) && Truthy(item.sk) && item.pk.value == userId
  }

  /** `items` is a non-empty array whose every entry is a valid item of the caller. */
  predicate ItemsValid(items: Option<seq<ItemRef>>, userId: string)
  {
    items.Some? && |items.value| > 0 && forall i :: 0 <= i < |items.value| ==> ValidItem(items.value[i], userId)
  }

  function KeysOfItems(items: seq<ItemRef>): (keys: seq<Key>)
    requires forall i :: 0 <= i < |items| ==> items[i].pk.Some? && items[i].sk.Some?
    ensures |keys| == |items|
    ensures forall i :: 0 <= i < |items| ==> keys[i] == Key(items[i].pk.value, items[i].sk.value)
  {
    seq(|items|, i requires 0 <= i < |items| => Key(items[i].pk.value, items[i].sk.value))
  }

  predicate Distinct(keys: seq<Key>)
  {
    forall i, j :: 0 <= i < j < |keys| ==> keys[i] != keys[j]
  }

  // ---------------------------------------------------------------------------
  // getPhotosVideos: one BatchGetItem
  // ---------------------------------------------------------------------------

  /** The store's cap on keys per BatchGetItem call. */
  const MAX_BATCH_GET: nat := 100

  /** `k` is a media row of the user: present, in the user's partition, not an album. */
  predicate IsMediaOf(t: Table, userId: string, k: Key)
  {
    k in t && k.pk == userId && !StartsWith(k.sk, ALBUM_PREFIX)
  }

  function MediaAmong(t: Table, userId: string, keys: seq<Key>): (r: seq<Key>)
    ensures |r| <= |keys|
    ensures forall k :: k in r <==> k in keys && IsMediaOf(t, userId, k)
  {
    if keys == [] then []
    else (if IsMediaOf(t, userId, keys[0]) then [keys[0]] else []) + MediaAmong(t, userId, keys[1..])
  }

  /** Filtering keeps every key exactly when every key passes the filter. */
  lemma {:induction false} MediaAmongAll(t: Table, userId: string, keys: seq<Key>)
    ensures |MediaAmong(t, userId, keys)| == |keys| <==> forall i :: 0 <= i < |keys| ==> IsMediaOf(t, userId, keys[i])
    decreases |keys|
  {
    if keys != [] {
      MediaAmongAll(t, userId, keys[1..]);
      assert forall i :: 1 <= i < |keys| ==> keys[i] == keys[1..][i - 1];
    }
  }

  /**
   * `getPhotosVideos(userId, items)`: the found rows that are the user's media.
   * A request the store refuses (no keys, more than 100 keys, a key twice) makes
   * the helper answer nothing.
   */
  function GetPhotosVideos(t: Table, userId: string, keys: seq<Key>): (found: seq<Key>)
    ensures |keys| == 0 || |keys| > MAX_BATCH_GET || !Distinct(keys) ==> found == []
    ensures forall k :: k in found ==> k in keys && IsMediaOf(t, userId, k)
    ensures |keys| > 0 ==> (|found| == |keys| <==> AllMedia(t, userId, keys))
  {
    MediaAmongAll(t, userId, keys);
    if |keys| == 0 || |keys| > MAX_BATCH_GET || !Distinct(keys) then [] else MediaAmong(t, userId, keys)
  }

  /** What the count check `existingItems.length !== items.length` lets through. */
  predicate AllMedia(t: Table, userId: string, keys: seq<Key>)
  {
    && 0 < |keys| <= MAX_BATCH_GET
    && Distinct(keys)
    && forall i :: 0 <= i < |keys| ==> IsMediaOf(t, userId, keys[i])
  }

  // ---------------------------------------------------------------------------
  // The per-item conditional updates
  // ---------------------------------------------------------------------------

  /** The change one handler applies: set `albumId`, or remove it (optionally only from one album). */
  datatype Change = AssignTo(target: string) | UnassignFrom(source: Option<string>)

  /** The ConditionExpression: `PK = :userId AND attribute_exists(PK)`, plus `albumId = :currentAlbumId` when unassigning from one album. */
  predicate ConditionHolds(cur: Table, userId: string, k: Key, change: Change)
  {
    && k in cur
    && k.pk == userId
    && (change.UnassignFrom? && change.source.Some? ==> cur[k].albumId == change.source)
  }

  /** The UpdateExpression: `SET albumId, updatedAt` or `REMOVE albumId SET updatedAt`. */
  function Updated(row: Row, change: Change, now: string): (r: Row)
    ensures r.updatedAt == Some(now)
    ensures change.AssignTo? ==> r.albumId == Some(change.target)
    ensures change.UnassignFrom? ==> r.albumId.None?
    ensures r.(albumId := row.albumId, updatedAt := row.updatedAt) == row
  {
    match change
    case AssignTo(sk) => row.(albumId := Some(sk), updatedAt := Some(now))
    case UnassignFrom(_) => row.(albumId := None, updatedAt := Some(now))
  }

  /** Only the membership attributes of a row differ. */
  predicate OnlyMembershipChanged(before: Row, after: Row)
  {
    after.(albumId := before.albumId, updatedAt := before.updatedAt) == before
  }

  /** The message a conditional-check failure carries. */
  const CONDITIONAL_CHECK_FAILED: string := "The conditional request failed"

  /**
   * The error text for an item whose update failed: `fault` is the message of a
   * store error, or `None` when the condition did not hold.
   */
  function ErrorText(sk: string, change: Change, fault: Option<string>): string
  {
    match change
    case AssignTo(_) =>
      "Failed to assign " + sk + ": " + (if fault.Some? then fault.value else CONDITIONAL_CHECK_FAILED)
    case UnassignFrom(album) =>
      if fault.Some? then "Failed to unassign " + sk + ": " + (if fault.value != "" then fault.value else "Unknown error")
      else if album.Some? then sk + " is not assigned to the specified album"
      else sk + " does not exist or is not owned by user"
  }

  /**
   * Item `j` is updated: its call does not fail (`faults(j)` is the message of
   * a store error on that call) and its condition holds in the table as it was
   * before the loop.
   */
  predicate Succeeds(t: Table, userId: string, keys: seq<Key>, change: Change, faults: nat -> Option<string>, j: nat)
    requires j < |keys|
  {
    faults(j).None? && ConditionHolds(t, userId, keys[j], change)
  }

  /** How many of the first `n` items are updated. */
  function SuccessCount(t: Table, userId: string, keys: seq<Key>, change: Change, faults: nat -> Option<string>, n: nat): (c: nat)
    requires n <= |keys|
    ensures c <= n
  {
    if n == 0 then 0
    else SuccessCount(t, userId, keys, change, faults, n - 1) + (if Succeeds(t, userId, keys, change, faults, n - 1) then 1 else 0)
  }

  /** The error texts of the first `n` items, in item order. */
  function ErrorsUpTo(t: Table, userId: string, keys: seq<Key>, change: Change, faults: nat -> Option<string>, n: nat): (es: seq<string>)
    requires n <= |keys|
    ensures |es| == n - SuccessCount(t, userId, keys, change, faults, n)
  {
    if n == 0 then []
    else
      ErrorsUpTo(t, userId, keys, change, faults, n - 1) +
      (if Succeeds(t, userId, keys, change, faults, n - 1) then [] else [ErrorText(keys[n - 1].sk, change, faults(n - 1))])
  }

  /** All items are updated exactly when each one is. */
  lemma {:induction false} AllSucceed(t: Table, userId: string, keys: seq<Key>, change: Change, faults: nat -> Option<string>, n: nat)
    requires n <= |keys|
    ensures SuccessCount(t, userId, keys, change, faults, n) == n <==>
            forall j :: 0 <= j < n ==> Succeeds(t, userId, keys, change, faults, j)
  {
    if n > 0 {
      AllSucceed(t, userId, keys, change, faults, n - 1);
    }
  }

  /** Every item among the first `n` that is not updated leaves its error text, and the texts keep item order. */
  lemma {:induction false} ErrorsListFailures(t: Table, userId: string, keys: seq<Key>, change: Change,
                                              faults: nat -> Option<string>, n: nat, j: nat)
    requires j < n <= |keys| && !Succeeds(t, userId, keys, change, faults, j)
    ensures var es := ErrorsUpTo(t, userId, keys, change, faults, n);
            var before := j - SuccessCount(t, userId, keys, change, faults, j);
            before < |es| && es[before] == ErrorText(keys[j].sk, change, faults(j))
  {
    if j < n - 1 {
      ErrorsListFailures(t, userId, keys, change, faults, n - 1, j);
    }
  }

  /**
   * An item the unassignment skips because its condition fails reports one of
   * two texts: not in the named album, or (with no album named) not the
   * caller's existing row.
   */
  lemma UnassignConditionMessages(t: Table, userId: string, keys: seq<Key>, album: Option<string>,
                                  faults: nat -> Option<string>, j: nat)
    requires j < |keys| && faults(j).None? && !ConditionHolds(t, userId, keys[j], UnassignFrom(album))
    ensures var es := ErrorsUpTo(t, userId, keys, UnassignFrom(album), faults, |keys|);
            (album.Some? ==> keys[j].sk + " is not assigned to the specified album" in es)
            && (album.None? ==> keys[j].sk + " does not exist or is not owned by user" in es)
  {
    ErrorsListFailures(t, userId, keys, UnassignFrom(album), faults, |keys|, j);
  }

  /** The loop's running state: the table and the three accumulators. */
  datatype Tally = Tally(table: Table, success: nat, failed: nat, errors: seq<string>)

  /** One iteration of the loop: the UpdateItem of item `i`, against the table as it is now. */
  function Step(s: Tally, userId: string, keys: seq<Key>, change: Change,
                faults: nat -> Option<string>, clock: nat -> string, i: nat): Tally
    requires i < |keys|
  {
    var k := keys[i];
    if faults(i).Some? then
      s.(failed := s.failed + 1, errors := s.errors + [ErrorText(k.sk, change, faults(i))])
    else if ConditionHolds(s.table, userId, k, change) then
      s.(table := s.table[k := Updated(s.table[k], change, clock(i))], success := s.success + 1)
    else
      s.(failed := s.failed + 1, errors := s.errors + [ErrorText(k.sk, change, None)])
  }

  /** What the loop keeps true after `i` items, whatever the keys. */
  ghost predicate LoopFrame(t: Table, s: Tally, keys: seq<Key>, i: nat)
    requires i <= |keys|
  {
    && s.success + s.failed == i && |s.errors| == s.failed
    && (forall k :: k in s.table <==> k in t)
    && (forall k :: k in t && k !in keys[..i] ==> s.table[k] == t[k])
    && (forall k :: k in t ==> OnlyMembershipChanged(t[k], s.table[k]))
  }

  /** What the loop keeps true after `i` items when no key is listed twice. */
  ghost predicate LoopOutcome(t: Table, s: Tally, userId: string, keys: seq<Key>, change: Change,
                              faults: nat -> Option<string>, clock: nat -> string, i: nat)
    requires i <= |keys|
    requires forall k :: k in s.table <==> k in t
  {
    && s.success == SuccessCount(t, userId, keys, change, faults, i)
    && s.errors == ErrorsUpTo(t, userId, keys, change, faults, i)
    && forall j :: 0 <= j < i && keys[j] in t ==>
         s.table[keys[j]] == if Succeeds(t, userId, keys, change, faults, j) then Updated(t[keys[j]], change, clock(j)) else t[keys[j]]
  }

  lemma StepKeepsFrame(t: Table, s: Tally, userId: string, keys: seq<Key>, change: Change,
                       faults: nat -> Option<string>, clock: nat -> string, i: nat)
    requires i < |keys| && LoopFrame(t, s, keys, i)
    ensures LoopFrame(t, Step(s, userId, keys, change, faults, clock, i), keys, i + 1)
  {
    assert keys[..i + 1] == keys[..i] + [keys[i]];
  }

  lemma StepKeepsOutcome(t: Table, s: Tally, userId: string, keys: seq<Key>, change: Change,
                         faults: nat -> Option<string>, clock: nat -> string, i: nat)
    requires i < |keys| && Distinct(keys)
    requires LoopFrame(t, s, keys, i) && LoopOutcome(t, s, userId, keys, change, faults, clock, i)
    ensures LoopFrame(t, Step(s, userId, keys, change, faults, clock, i), keys, i + 1)
    ensures LoopOutcome(t, Step(s, userId, keys, change, faults, clock, i), userId, keys, change, faults, clock, i + 1)
  {
    StepKeepsFrame(t, s, userId, keys, change, faults, clock, i);
    StepDecidedBefore(t, s, userId, keys, change, faults, clock, i);
    StepKeepsTally(t, s, userId, keys, change, faults, clock, i);
    StepKeepsRows(t, s, userId, keys, change, faults, clock, i);
  }

  /** With distinct keys, item `i` has not been touched yet, so its condition reads the original row. */
  lemma StepDecidedBefore(t: Table, s: Tally, userId: string, keys: seq<Key>, change: Change,
                          faults: nat -> Option<string>, clock: nat -> string, i: nat)
    requires i < |keys| && Distinct(keys)
    requires LoopFrame(t, s, keys, i)
    ensures keys[i] in t ==> s.table[keys[i]] == t[keys[i]]
    ensures ConditionHolds(s.table, userId, keys[i], change) == ConditionHolds(t, userId, keys[i], change)
  {
    assert keys[i] !in keys[..i];
  }

  lemma StepKeepsTally(t: Table, s: Tally, userId: string, keys: seq<Key>, change: Change,
                       faults: nat -> Option<string>, clock: nat -> string, i: nat)
    requires i < |keys|
    requires LoopFrame(t, s, keys, i) && LoopOutcome(t, s, userId, keys, change, faults, clock, i)
    requires ConditionHolds(s.table, userId, keys[i], change) == ConditionHolds(t, userId, keys[i], change)
    ensures var s' := Step(s, userId, keys, change, faults, clock, i);
            && s'.success == SuccessCount(t, userId, keys, change, faults, i + 1)
            && s'.errors == ErrorsUpTo(t, userId, keys, change, faults, i + 1)
  {
  }

  lemma StepKeepsRows(t: Table, s: Tally, userId: string, keys: seq<Key>, change: Change,
                      faults: nat -> Option<string>, clock: nat -> string, i: nat)
    requires i < |keys| && Distinct(keys)
    requires LoopFrame(t, s, keys, i) && LoopOutcome(t, s, userId, keys, change, faults, clock, i)
    requires keys[i] in t ==> s.table[keys[i]] == t[keys[i]]
    requires ConditionHolds(s.table, userId, keys[i], change) == ConditionHolds(t, userId, keys[i], change)
    ensures var s' := Step(s, userId, keys, change, faults, clock, i);
            forall j :: 0 <= j < i + 1 && keys[j] in t ==>
              s'.table[keys[j]] == if Succeeds(t, userId, keys, change, faults, j) then Updated(t[keys[j]], change, clock(j)) else t[keys[j]]
  {
    var s' := Step(s, userId, keys, change, faults, clock, i);
    var k := keys[i];
    var ok := Succeeds(t, userId, keys, change, faults, i);
    assert s'.table == if ok then s.table[k := Updated(t[k], change, clock(i))] else s.table;
    forall j | 0 <= j < i + 1 && keys[j] in t
      ensures s'.table[keys[j]] ==
                if Succeeds(t, userId, keys, change, faults, j) then Updated(t[keys[j]], change, clock(j)) else t[keys[j]]
    {
      if j < i {
        assert keys[j] != k;
      }
    }
  }

  /**
   * The loop of `assignPhotosToAlbum` / `unassignPhotosFromAlbum`: one
   * conditional UpdateItem per item, in order; `clock(j)` is the timestamp of
   * item `j`. Rows are never created or deleted, only their membership
   * attributes change, and with distinct keys each item's fate is decided by
   * the table as it was before the loop.
   */
  method RunUpdates(t: Table, userId: string, keys: seq<Key>, change: Change,
                    faults: nat -> Option<string>, clock: nat -> string)
    returns (t': Table, success: nat, failed: nat, errors: seq<string>)
    ensures success + failed == |keys| && |errors| == failed
    ensures forall k :: k in t' <==> k in t
    ensures forall k :: k in t && k !in keys ==> t'[k] == t[k]
    ensures forall k :: k in t ==> OnlyMembershipChanged(t[k], t'[k])
    ensures Distinct(keys) ==> success == SuccessCount(t, userId, keys, change, faults, |keys|)
    ensures Distinct(keys) ==> errors == ErrorsUpTo(t, userId, keys, change, faults, |keys|)
    ensures Distinct(keys) ==> forall j :: 0 <= j < |keys| && keys[j] in t ==>
              t'[keys[j]] == if Succeeds(t, userId, keys, change, faults, j) then Updated(t[keys[j]], change, clock(j)) else t[keys[j]]
  {
    var s := Tally(t, 0, 0, []);
    var i := 0;
    while i < |keys|
      invariant i <= |keys| && LoopInvariant(t, s, userId, keys, change, faults, clock, i)
    {
      StepKeepsInvariant(t, s, userId, keys, change, faults, clock, i);
      s := Step(s, userId, keys, change, faults, clock, i);
      i := i + 1;
    }
    LoopDone(t, s, userId, keys, change, faults, clock);
    t', success, failed, errors := s.table, s.success, s.failed, s.errors;
  }

  /** The loop invariant: the frame always, the outcome when no key is listed twice. */
  ghost predicate LoopInvariant(t: Table, s: Tally, userId: string, keys: seq<Key>, change: Change,
                                faults: nat -> Option<string>, clock: nat -> string, i: nat)
    requires i <= |keys|
  {
    LoopFrame(t, s, keys, i) && (Distinct(keys) ==> LoopOutcome(t, s, userId, keys, change, faults, clock, i))
  }

  lemma StepKeepsInvariant(t: Table, s: Tally, userId: string, keys: seq<Key>, change: Change,
                           faults: nat -> Option<string>, clock: nat -> string, i: nat)
    requires i < |keys| && LoopInvariant(t, s, userId, keys, change, faults, clock, i)
    ensures LoopInvariant(t, Step(s, userId, keys, change, faults, clock, i), userId, keys, change, faults, clock, i + 1)
  {
    if Distinct(keys) {
      StepKeepsOutcome(t, s, userId, keys, change, faults, clock, i);
    } else {
      StepKeepsFrame(t, s, userId, keys, change, faults, clock, i);
    }
  }

  /** The loop invariants after the last item are the method's postconditions. */
  lemma LoopDone(t: Table, s: Tally, userId: string, keys: seq<Key>, change: Change,
                 faults: nat -> Option<string>, clock: nat -> string)
    requires LoopInvariant(t, s, userId, keys, change, faults, clock, |keys|)
    ensures s.success + s.failed == |keys| && |s.errors| == s.failed
    ensures forall k :: k in s.table <==> k in t
    ensures forall k :: k in t && k !in keys ==> s.table[k] == t[k]
    ensures forall k :: k in t ==> OnlyMembershipChanged(t[k], s.table[k])
    ensures Distinct(keys) ==> s.success == SuccessCount(t, userId, keys, change, faults, |keys|)
    ensures Distinct(keys) ==> s.errors == ErrorsUpTo(t, userId, keys, change, faults, |keys|)
    ensures Distinct(keys) ==> forall j :: 0 <= j < |keys| && keys[j] in t ==>
              s.table[keys[j]] == if Succeeds(t, userId, keys, change, faults, j) then Updated(t[keys[j]], change, clock(j)) else t[keys[j]]
  {
    assert keys[..|keys|] == keys;
  }

  // ---------------------------------------------------------------------------
  // The handlers
  // ---------------------------------------------------------------------------

  /** The answer of both handlers once the loop has run. */
  function TallyBody(message: string, success: nat, failed: nat, errors: seq<string>): (j: Json)
    ensures Field(j, "message") == Some(JStr(message))
    ensures Field(j, "success") == Some(JNum(success))
    ensures Field(j, "failed") == Some(JNum(failed))
    ensures Field(j, "errors") == if errors == [] then None else Some(Strs(errors))
  {
    var first := ("message", JStr(message));
    var second := ("success", JNum(success));
    var third := ("failed", JNum(failed));
    var tail := if errors == [] then [] else [("errors", Strs(errors))];
    LookupCons(first, [second] + ([third] + tail), "success");
    LookupCons(first, [second] + ([third] + tail), "failed");
    LookupCons(first, [second] + ([third] + tail), "errors");
    LookupCons(second, [third] + tail, "failed");
    LookupCons(second, [third] + tail, "errors");
    LookupCons(third, tail, "errors");
    JObj([first] + ([second] + ([third] + tail)))
  }

  /** The first validation failure of a membership request, if any (shared by both handlers). */
  function ItemsProblem(t: Table, userId: string, items: Option<seq<ItemRef>>): (r: Option<Response>)
    ensures r.None? <==> ItemsValid(items, userId) && AllMedia(t, userId, KeysOfItems(items.value))
    ensures r.Some? ==> r.value.statusCode == 400
  {
    if items.None? || |items.value| == 0 then
      Some(CustomErrorResponse(400, "items array is required and cannot be empty"))
    else if exists i :: 0 <= i < |items.value| && !ValidItem(items.value[i], userId) then
      Some(CustomErrorResponse(400, "Invalid item format or unauthorized access"))
    else if |GetPhotosVideos(t, userId, KeysOfItems(items.value))| != |items.value| then
      Some(CustomErrorResponse(400, "Some items do not exist or are not photos/videos"))
    else None
  }

  /**
   * assignPhotosToAlbum's checks in order: the album id, the items, the
   * album's existence (404, also when its GetItem throws: `lookupFails`),
   * then the items' existence.
   */
  function AssignProblem(t: Table, userId: string, albumId: Option<string>, items: Option<seq<ItemRef>>,
                         lookupFails: bool): (r: Option<Response>)
    ensures r.Some? ==> r.value.statusCode in {400, 404}
    ensures r.Some? && r.value.statusCode == 404 <==>
              !Blank(albumId) && ItemsValid(items, userId) && (lookupFails || Key(userId, AlbumSortKey(albumId.value)) !in t)
    ensures r.None? <==>
              && !Blank(albumId) && ItemsValid(items, userId)
              && !lookupFails && Key(userId, AlbumSortKey(albumId.value)) in t
              && AllMedia(t, userId, KeysOfItems(items.value))
  {
    if Blank(albumId) then Some(CustomErrorResponse(400, "albumId is required"))
    else if items.None? || |items.value| == 0 then
      Some(CustomErrorResponse(400, "items array is required and cannot be empty"))
    else if exists i :: 0 <= i < |items.value| && !ValidItem(items.value[i], userId) then
      Some(CustomErrorResponse(400, "Invalid item format or unauthorized access"))
    else if lookupFails || Key(userId, AlbumSortKey(albumId.value)) !in t then Some(CustomErrorResponse(404, "Album not found"))
    else if |GetPhotosVideos(t, userId, KeysOfItems(items.value))| != |items.value| then
      Some(CustomErrorResponse(400, "Some items do not exist or are not photos/videos"))
    else None
  }

  /**
   * The answer's body after the loop: the number of updated items (also in
   * the message, between `lead` and `tail`), the number of failed ones, and
   * the error texts, present only when there are some.
   */
  predicate Reported(r: Response, success: nat, failed: int, errors: seq<string>, lead: string, tail: string)
  {
    && Field(r.body, "success") == Some(JNum(success))
    && Field(r.body, "failed") == Some(JNum(failed))
    && Field(r.body, "errors") == (if errors == [] then None else Some(Strs(errors)))
    && MessageOf(r) == Some(lead + NatToString(success) + tail)
  }

  /** Reported, with the counts and texts the loop over `keys` produces. */
  ghost predicate TallyReported(r: Response, t: Table, userId: string, keys: seq<Key>, change: Change,
                                faults: nat -> Option<string>, lead: string, tail: string)
  {
    var success := SuccessCount(t, userId, keys, change, faults, |keys|);
    Reported(r, success, |keys| - success, ErrorsUpTo(t, userId, keys, change, faults, |keys|), lead, tail)
  }

  /**
   * The tail both handlers share: the loop over the validated items, then a
   * 200 answer whose message puts the number of updated items between `lead`
   * and `tail`, and whose `errors` field appears only when some item failed.
   */
  method Tallied(t: Table, userId: string, keys: seq<Key>, change: Change, faults: nat -> Option<string>,
                 clock: nat -> string, lead: string, tail: string) returns (o: Effect<Table>)
    requires AllMedia(t, userId, keys)
    ensures o.response.statusCode == 200
    ensures forall k :: k in o.state <==> k in t
    ensures forall k :: k in t && k !in keys ==> o.state[k] == t[k]
    ensures forall j :: 0 <= j < |keys| ==>
              o.state[keys[j]] == if Succeeds(t, userId, keys, change, faults, j) then Updated(t[keys[j]], change, clock(j)) else t[keys[j]]
    ensures TallyReported(o.response, t, userId, keys, change, faults, lead, tail)
  {
    var t', success, failed, errors := RunUpdates(t, userId, keys, change, faults, clock);
    assert forall j :: 0 <= j < |keys| ==> IsMediaOf(t, userId, keys[j]);
    var message := lead + NatToString(success) + tail;
    o := Effect(Respond(TallyBody(message, success, failed, errors)), t');
    assert Reported(o.response, success, failed, errors, lead, tail);
  }

  /**
   * assignPhotosToAlbum after authentication, for the caller `userId` and the
   * path parameter `albumId`.
   */
  method AssignAs(userId: string, albumId: Option<string>, body: Body<MembershipRequest>, t: Table,
                  lookupFails: bool, faults: nat -> Option<string>, clock: nat -> string) returns (o: Effect<Table>)
    ensures body.Malformed? ==> o == Effect(CustomErrorResponse(400, "Invalid JSON in request body"), t)
    ensures o.response.statusCode in {200, 400, 404}
    ensures o.response.statusCode != 200 ==> o.state == t
    ensures o.response.statusCode == 404 <==>
              && body.Parsed? && !Blank(albumId) && ItemsValid(body.fields.items, userId)
              && (lookupFails || Key(userId, AlbumSortKey(albumId.value)) !in t)
    ensures o.response.statusCode == 200 <==>
              && body.Parsed? && !Blank(albumId) && ItemsValid(body.fields.items, userId)
              && !lookupFails && Key(userId, AlbumSortKey(albumId.value)) in t
              && AllMedia(t, userId, KeysOfItems(body.fields.items.value))
    ensures o.response.statusCode == 200 ==>
              var keys := KeysOfItems(body.fields.items.value);
              var change := AssignTo(AlbumSortKey(albumId.value));
              && (forall k :: k in o.state <==> k in t)
              && (forall k :: k in t && k !in keys ==> o.state[k] == t[k])
              && (forall j :: 0 <= j < |keys| ==>
                    o.state[keys[j]] == if faults(j).None? then Updated(t[keys[j]], change, clock(j)) else t[keys[j]])
              && TallyReported(o.response, t, userId, keys, change, faults,
                               "Assignment completed. ", " items assigned successfully.")
  {
    if body.Malformed? {
      return Effect(CustomErrorResponse(400, "Invalid JSON in request body"), t);
    }
    var items := body.fields.items;
    match AssignProblem(t, userId, albumId, items, lookupFails) {
      case Some(response) =>
        return Effect(response, t);
      case None =>
    }
    var full := AlbumSortKey(albumId.value);
    var keys := KeysOfItems(items.value);
    o := Tallied(t, userId, keys, AssignTo(full), faults, clock, "Assignment completed. ", " items assigned successfully.");
    AssignNeedsNoCondition(t, userId, keys, full, faults);
  }

  /** Every listed item is the caller's media, so assigning it fails only on a store error. */
  lemma AssignNeedsNoCondition(t: Table, userId: string, keys: seq<Key>, full: string, faults: nat -> Option<string>)
    requires AllMedia(t, userId, keys)
    ensures forall j :: 0 <= j < |keys| ==> (Succeeds(t, userId, keys, AssignTo(full), faults, j) <==> faults(j).None?)
  {
  }

  /**
   * unassignPhotosFromAlbum after authentication: with an `albumId` only items
   * currently in that album lose their membership; without one every listed
   * item does.
   */
  method UnassignAs(userId: string, albumId: Option<string>, body: Body<MembershipRequest>, t: Table,
                    faults: nat -> Option<string>, clock: nat -> string) returns (o: Effect<Table>)
    ensures body.Malformed? ==> o == Effect(CustomErrorResponse(400, "Invalid JSON in request body"), t)
    ensures o.response.statusCode in {200, 400}
    ensures o.response.statusCode != 200 ==> o.state == t
    ensures o.response.statusCode == 200 <==>
              body.Parsed? && ItemsValid(body.fields.items, userId) && AllMedia(t, userId, KeysOfItems(body.fields.items.value))
    ensures o.response.statusCode == 200 ==>
              var keys := KeysOfItems(body.fields.items.value);
              var album := if Truthy(albumId) then Some(AlbumSortKey(albumId.value)) else None;
              && (forall k :: k in o.state <==> k in t)
              && (forall k :: k in t && k !in keys ==> o.state[k] == t[k])
              && (forall j :: 0 <= j < |keys| ==>
                    o.state[keys[j]] ==
                      if faults(j).None? && (album.Some? ==> t[keys[j]].albumId == album)
                      then Updated(t[keys[j]], UnassignFrom(album), clock(j)) else t[keys[j]])
              && TallyReported(o.response, t, userId, keys, UnassignFrom(album), faults,
                               if Truthy(albumId) then "Unassignment from album completed. " else "Unassignment from all albums completed. ",
                          " items unassigned successfully.")
  {
    if body.Malformed? {
      return Effect(CustomErrorResponse(400, "Invalid JSON in request body"), t);
    }
    var items := body.fields.items;
    match ItemsProblem(t, userId, items) {
      case Some(response) =>
        return Effect(response, t);
      case None =>
    }
    var keys := KeysOfItems(items.value);
    var album := if Truthy(albumId) then Some(AlbumSortKey(albumId.value)) else None;
    var lead := if Truthy(albumId) then "Unassignment from album completed. " else "Unassignment from all albums completed. ";
    o := Tallied(t, userId, keys, UnassignFrom(album), faults, clock, lead, " items unassigned successfully.");
  }

  /** The assignPhotosToAlbum handler: the authentication prelude, then the assignment. */
  method AssignPhotosToAlbum(headers: map<string, string>, cognito: nat -> LookupOutcome, albumId: Option<string>,
                             body: Body<MembershipRequest>, t: Table, lookupFails: bool, faults: nat -> Option<string>,
                             clock: nat -> string)
    returns (o: Effect<Table>)
    ensures Authenticate(headers, cognito).Err? ==> o == Effect(Authenticate(headers, cognito).error, t)
    ensures o.state != t ==> Authenticate(headers, cognito).Ok? && o.response.statusCode == 200
  {
    match Authenticate(headers, cognito) {
      case Err(response) =>
        o := Effect(response, t);
      case Ok(userId) =>
        o := AssignAs(userId, albumId, body, t, lookupFails, faults, clock);
    }
  }

  /** The unassignPhotosFromAlbum handler: the authentication prelude, then the removal. */
  method UnassignPhotosFromAlbum(headers: map<string, string>, cognito: nat -> LookupOutcome, albumId: Option<string>,
                                 body: Body<MembershipRequest>, t: Table, faults: nat -> Option<string>, clock: nat -> string)
    returns (o: Effect<Table>)
    ensures Authenticate(headers, cognito).Err? ==> o == Effect(Authenticate(headers, cognito).error, t)
    ensures o.state != t ==> Authenticate(headers, cognito).Ok? && o.response.statusCode == 200
  {
    match Authenticate(headers, cognito) {
      case Err(response) =>
        o := Effect(response, t);
      case Ok(userId) =>
        o := UnassignAs(userId, albumId, body, t, faults, clock);
    }
  }

  /**
   * Assigning items to an album and then unassigning them from that same album
   * leaves each item outside every album, with every other attribute as before.
   */
  lemma UnassignUndoesAssign(row: Row, albumSk: string, t1: string, t2: string)
    ensures var inAlbum := Updated(row, AssignTo(albumSk), t1);
            && inAlbum.albumId == Some(albumSk)
            && Updated(inAlbum, UnassignFrom(Some(albumSk)), t2) == row.(albumId := None, updatedAt := Some(t2))
  {
  }
}

=== FILE: strings.dfy ===
/**
 * The string operations the handlers use: prefix tests, `replace` of the first
 * occurrence, `trim`, ASCII `toLowerCase`, `split('/')` and template joining,
 * the byte-wise order in which the key-value store sorts sort keys, and the
 * decimal rendering of counts in response messages.
 */
module Strings {
  import opened Base

  // ---------------------------------------------------------------------------
  // Prefixes and occurrences
  // ---------------------------------------------------------------------------

  /** `s.startsWith(p)` */
  predicate StartsWith(s: string, p: string)
  {
    |p| <= |s| && s[..|p|] == p
  }

  /** `p` occurs in `s` starting at index `i`. */
  predicate OccursAt(s: string, p: string, i: nat)
  {
    i + |p| <= |s| && s[i..i + |p|] == p
  }

  /** The first index at or after `from` where `p` occurs in `s`. */
  function IndexFrom(s: string, p: string, from: nat): (r: Option<nat>)
    ensures r.Some? ==> from <= r.value && OccursAt(s, p, r.value)
    ensures r.Some? ==> forall j: nat :: from <= j < r.value ==> !OccursAt(s, p, j)
    ensures r.None? ==> forall j: nat :: from <= j ==> !OccursAt(s, p, j)
    decreases |s| - from
  {
    if from + |p| > |s| then None
    else if OccursAt(s, p, from) then Some(from)
    else IndexFrom(s, p, from + 1)
  }

  /** `s.indexOf(p)`, with absence as `None` instead of -1. */
  function IndexOf(s: string, p: string): (r: Option<nat>)
    ensures r.Some? ==> OccursAt(s, p, r.value)
    ensures r.Some? ==> forall j: nat :: j < r.value ==> !OccursAt(s, p, j)
    ensures r.None? ==> forall j: nat :: !OccursAt(s, p, j)
  {
    IndexFrom(s, p, 0)
  }

  /** `s.replace(p, '')` with a string pattern: only the FIRST occurrence is removed. */
  function RemoveFirst(s: string, p: string): (r: string)
    ensures IndexOf(s, p).None? ==> r == s
    ensures IndexOf(s, p).Some? ==> |r| == |s| - |p|
  {
    match IndexOf(s, p)
    case None => s
    case Some(i) => s[..i] + s[i + |p|..]
  }

  /** Removing a prefix that is there gives back exactly what followed it. */
  lemma RemoveFirstOfPrefixed(p: string, s: string)
    ensures RemoveFirst(p + s, p) == s
  {
    assert OccursAt(p + s, p, 0);
    assert IndexOf(p + s, p) == Some(0);
  }

  /** `prefix + s` unless `s` already starts with `prefix`: the `ALBUM#` id normalisation. */
  function EnsurePrefix(s: string, prefix: string): (r: string)
    ensures StartsWith(r, prefix)
    ensures StartsWith(s, prefix) ==> r == s
    ensures !StartsWith(s, prefix) ==> r == prefix + s
  {
    if StartsWith(s, prefix) then s else prefix + s
  }

  /** Normalising twice is normalising once. */
  lemma EnsurePrefixIdempotent(s: string, prefix: string)
    ensures EnsurePrefix(EnsurePrefix(s, prefix), prefix) == EnsurePrefix(s, prefix)
  {
  }

  // ---------------------------------------------------------------------------
  // trim and toLowerCase
  // ---------------------------------------------------------------------------

  /** The characters JavaScript's `trim` removes: WhiteSpace and LineTerminator of ECMA-262. */
  predicate IsSpace(c: char)
  {
    var n := c as int;
    || (9 <= n <= 13) || n == 32 || n == 0xA0 || n == 0x1680
    || (0x2000 <= n <= 0x200A) || n == 0x2028 || n == 0x2029
    || n == 0x202F || n == 0x205F || n == 0x3000 || n == 0xFEFF
  }

  /** The index of the first character at or after `from` that is not white space. */
  function SkipSpaces(s: string, from: nat): (lo: nat)
    requires from <= |s|
    ensures from <= lo <= |s|
    ensures forall k :: from <= k < lo ==> IsSpace(s[k])
    ensures lo == |s| || !IsSpace(s[lo])
    decreases |s| - from
  {
    if from < |s| && IsSpace(s[from]) then SkipSpaces(s, from + 1) else from
  }

  /** The end of `s[lo..upto]` once trailing white space is cut off. */
  function CutSpaces(s: string, lo: nat, upto: nat): (hi: nat)
    requires lo <= upto <= |s|
    ensures lo <= hi <= upto
    ensures forall k :: hi <= k < upto ==> IsSpace(s[k])
    ensures hi == lo || !IsSpace(s[hi - 1])
    decreases upto
  {
    if upto > lo && IsSpace(s[upto - 1]) then CutSpaces(s, lo, upto - 1) else upto
  }

  /** `r` sits at index `i` of `s`, with nothing but white space around it. */
  predicate TrimmedAt(s: string, r: string, i: int)
  {
    && 0 <= i <= |s| - |r|
    && s[i..i + |r|] == r
    && (forall k :: 0 <= k < i ==> IsSpace(s[k]))
    && (forall k :: i + |r| <= k < |s| ==> IsSpace(s[k]))
  }

  /** `s.trim()`: the middle part of `s` left once white space is cut from both ends. */
  function Trim(s: string): (r: string)
    ensures r == "" || (!IsSpace(r[0]) && !IsSpace(r[|r| - 1]))
    ensures exists i :: TrimmedAt(s, r, i)
  {
    var lo := SkipSpaces(s, 0);
    var hi := CutSpaces(s, lo, |s|);
    assert TrimmedAt(s, s[lo..hi], lo);
    s[lo..hi]
  }

  /** A string trims to "" exactly when every character of it is white space. */
  lemma TrimEmptyIffBlank(s: string)
    ensures Trim(s) == "" <==> forall i :: 0 <= i < |s| ==> IsSpace(s[i])
  {
    var lo := SkipSpaces(s, 0);
    var hi := CutSpaces(s, lo, |s|);
    assert Trim(s) == s[lo..hi];
    if forall i :: 0 <= i < |s| ==> IsSpace(s[i]) {
      assert lo == |s|;
    }
  }

  /** Trimming a trimmed string changes nothing. */
  lemma TrimIdempotent(s: string)
    ensures Trim(Trim(s)) == Trim(s)
  {
    var r := Trim(s);
    if r != "" {
      assert SkipSpaces(r, 0) == 0;
      assert CutSpaces(r, 0, |r|) == |r|;
      assert r[0..|r|] == r;
    }
  }

  /** ASCII `toLowerCase` of one character. */
  function LowerChar(c: char): (r: char)
  {
    if 'A' <= c <= 'Z' then (c as int - 'A' as int + 'a' as int) as char else c
  }

  /** `s.toLowerCase()`, restricted to ASCII case folding. */
  function Lower(s: string): (r: string)
    ensures |r| == |s|
    ensures forall i :: 0 <= i < |s| ==> r[i] == LowerChar(s[i])
  {
    if s == "" then "" else [LowerChar(s[0])] + Lower(s[1..])
  }

  /** Case-insensitive equality as the album-name check computes it. */
  predicate SameIgnoringCase(a: string, b: string)
  {
    Lower(a) == Lower(b)
  }

  // ---------------------------------------------------------------------------
  // split('/') and joining
  // ---------------------------------------------------------------------------

  /** `s.split(sep)` for a one-character separator: every part, empty ones included. */
  function Split(s: string, sep: char): (parts: seq<string>)
    ensures |parts| >= 1
    ensures forall i :: 0 <= i < |parts| ==> sep !in parts[i]
    decreases |s|
  {
    if s == "" then [""]
    else
      var rest := Split(s[1..], sep);
      if s[0] == sep then [""] + rest
      else [[s[0]] + rest[0]] + rest[1..]
  }

  /** `parts.join(sep)`. */
  function Join(parts: seq<string>, sep: char): string
    requires |parts| >= 1
    decreases |parts|
  {
    if |parts| == 1 then parts[0] else parts[0] + [sep] + Join(parts[1..], sep)
  }

  /** Splitting loses nothing: joining the parts with the separator gives the string back. */
  lemma {:induction false} JoinSplit(s: string, sep: char)
    ensures Join(Split(s, sep), sep) == s
    decreases |s|
  {
    if s != "" {
      var rest := Split(s[1..], sep);
      JoinSplit(s[1..], sep);
      if s[0] == sep {
        assert s == [sep] + s[1..];
      } else if |rest| == 1 {
        assert s == [s[0]] + s[1..];
      } else {
        calc {
          Join(Split(s, sep), sep);
          ([s[0]] + rest[0]) + [sep] + Join(rest[1..], sep);
          [s[0]] + (rest[0] + [sep] + Join(rest[1..], sep));
          [s[0]] + Join(rest, sep);
          s;
        }
      }
    }
  }

  /** A string without the separator splits into itself alone. */
  lemma {:induction false} SplitWithoutSeparator(s: string, sep: char)
    requires sep !in s
    ensures Split(s, sep) == [s]
    decreases |s|
  {
    if s != "" {
      SplitWithoutSeparator(s[1..], sep);
      assert s == [s[0]] + s[1..];
    }
  }

  /** Splitting `a + sep + b` splits off `a` and goes on with `b`. */
  lemma {:induction false} SplitAppend(a: string, b: string, sep: char)
    requires sep !in a
    ensures Split(a + [sep] + b, sep) == [a] + Split(b, sep)
    decreases |a|
  {
    if a == "" {
      assert a + [sep] + b == [sep] + b;
      assert ([sep] + b)[1..] == b;
    } else {
      SplitAppend(a[1..], b, sep);
      assert (a + [sep] + b)[1..] == a[1..] + [sep] + b;
      assert [a[0]] + a[1..] == a;
    }
  }

  /** Joining separator-free parts and splitting again gives the same parts. */
  lemma {:induction false} SplitJoin(parts: seq<string>, sep: char)
    requires |parts| >= 1
    requires forall i :: 0 <= i < |parts| ==> sep !in parts[i]
    ensures Split(Join(parts, sep), sep) == parts
    decreases |parts|
  {
    if |parts| == 1 {
      SplitWithoutSeparator(parts[0], sep);
    } else {
      SplitJoin(parts[1..], sep);
      SplitAppend(parts[0], Join(parts[1..], sep), sep);
      assert [parts[0]] + parts[1..] == parts;
    }
  }

  // ---------------------------------------------------------------------------
  // The sort-key order
  // ---------------------------------------------------------------------------

  /**
   * Strict lexicographic order on code points, the order in which the store
   * sorts string sort keys (UTF-8 byte order agrees with code-point order).
   */
  predicate Less(a: string, b: string)
    decreases |a|
  {
    if |a| == 0 then |b| > 0
    else |b| > 0 && (a[0] < b[0] || (a[0] == b[0] && Less(a[1..], b[1..])))
  }

  lemma {:induction false} LessIrreflexive(a: string)
    ensures !Less(a, a)
    decreases |a|
  {
    if |a| > 0 { LessIrreflexive(a[1..]); }
  }

  lemma {:induction false} LessAsymmetric(a: string, b: string)
    ensures Less(a, b) ==> !Less(b, a)
    decreases |a|
  {
    if |a| > 0 && |b| > 0 { LessAsymmetric(a[1..], b[1..]); }
  }

  lemma LessAsymmetricAll()
    ensures forall a, b :: Less(a, b) ==> !Less(b, a)
  {
    forall a, b ensures Less(a, b) ==> !Less(b, a) { LessAsymmetric(a, b); }
  }

  lemma {:induction false} LessTransitive(a: string, b: string, c: string)
    requires Less(a, b) && Less(b, c)
    ensures Less(a, c)
    decreases |a|
  {
    if |a| > 0 && a[0] == b[0] && b[0] == c[0] { LessTransitive(a[1..], b[1..], c[1..]); }
  }

  lemma {:induction false} LessTotal(a: string, b: string)
    ensures a == b || Less(a, b) || Less(b, a)
    decreases |a|
  {
    if |a| > 0 && |b| > 0 && a[0] == b[0] {
      LessTotal(a[1..], b[1..]);
      assert a == [a[0]] + a[1..];
      assert b == [b[0]] + b[1..];
    }
  }

  /** A prefix-normalised key never sorts before its prefix. */
  lemma {:induction false} PrefixNotLess(s: string, p: string)
    requires StartsWith(s, p)
    ensures !Less(s, p)
    decreases |p|
  {
    if |p| > 0 {
      assert s[1..][..|p| - 1] == p[1..];
      PrefixNotLess(s[1..], p[1..]);
    }
  }

  ghost predicate IsLeast(m: string, s: set<string>)
  {
    m in s && forall x :: x in s && x != m ==> Less(m, x)
  }

  lemma {:induction false} LeastExists(s: set<string>)
    requires s != {}
    ensures exists m :: IsLeast(m, s)
    decreases |s|
  {
    var y :| y in s;
    if s == {y} {
      assert IsLeast(y, s);
    } else {
      LeastExists(s - {y});
      var m :| IsLeast(m, s - {y});
      LessTotal(m, y);
      if Less(m, y) {
        assert IsLeast(m, s);
      } else {
        forall x | x in s && x != y ensures Less(y, x) {
          if x != m { LessTransitive(y, m, x); }
        }
        assert IsLeast(y, s);
      }
    }
  }

  /** The least string of a non-empty set. */
  function Least(s: set<string>): (m: string)
    requires s != {}
    ensures m in s
    ensures forall x :: x in s && x != m ==> Less(m, x)
  {
    LeastExists(s);
    LessAsymmetricAll();
    var m :| m in s && forall x :: x in s && x != m ==> Less(m, x);
    m
  }

  /** Strictly increasing. */
  predicate Ascending(r: seq<string>)
  {
    forall i, j :: 0 <= i < j < |r| ==> Less(r[i], r[j])
  }

  /** Strictly decreasing. */
  predicate Descending(r: seq<string>)
  {
    forall i, j :: 0 <= i < j < |r| ==> Less(r[j], r[i])
  }

  /** The elements of a set in ascending order. */
  function SortAscending(s: set<string>): (r: seq<string>)
    ensures |r| == |s|
    ensures forall x :: x in r <==> x in s
    ensures Ascending(r)
    decreases |s|
  {
    if s == {} then []
    else
      var m := Least(s);
      [m] + SortAscending(s - {m})
  }

  function Reverse<T>(s: seq<T>): (r: seq<T>)
    ensures |r| == |s|
    ensures forall i :: 0 <= i < |s| ==> r[i] == s[|s| - 1 - i]
  {
    if s == [] then [] else Reverse(s[1..]) + [s[0]]
  }

  /** The elements of a set in descending order. */
  function SortDescending(s: set<string>): (r: seq<string>)
    ensures |r| == |s|
    ensures forall x :: x in r <==> x in s
    ensures Descending(r)
  {
    var a := SortAscending(s);
    ReverseAscending(a);
    Reverse(a)
  }

  /** Reversing an ascending sequence keeps its elements and makes it descending. */
  lemma ReverseAscending(a: seq<string>)
    requires Ascending(a)
    ensures forall x :: x in Reverse(a) <==> x in a
    ensures Descending(Reverse(a))
  {
    var r := Reverse(a);
    forall x | x in a ensures x in r {
      var i :| 0 <= i < |a| && a[i] == x;
      assert r[|a| - 1 - i] == x;
    }
  }

  /** A strictly ordered sequence has no repeated element. */
  lemma DescendingDistinct(r: seq<string>, i: int, j: int)
    requires Descending(r)
    requires 0 <= i < |r| && 0 <= j < |r| && i != j
    ensures r[i] != r[j]
  {
    if i < j { LessIrreflexive(r[i]); } else { LessIrreflexive(r[j]); }
  }

  // ---------------------------------------------------------------------------
  // Decimal rendering of counts
  // ---------------------------------------------------------------------------

  function DigitChar(d: nat): (c: char)
    requires d < 10
    ensures '0' <= c <= '9'
  {
    ('0' as int + d) as char
  }

  /** `${n}` for a non-negative integer. */
  function NatToString(n: nat): (r: string)
    ensures r != ""
    ensures forall i :: 0 <= i < |r| ==> '0' <= r[i] <= '9'
  {
    if n < 10 then [DigitChar(n)] else NatToString(n / 10) + [DigitChar(n % 10)]
  }

  /** The number a string of decimal digits denotes. */
  function DecimalValue(s: string): nat
    requires forall i :: 0 <= i < |s| ==> '0' <= s[i] <= '9'
  {
    if s == [] then 0 else DecimalValue(s[..|s| - 1]) * 10 + (s[|s| - 1] as int - '0' as int)
  }

  /** Printing a count and reading the digits back gives the count, with no leading zero. */
  lemma {:induction false} NatToStringValue(n: nat)
    ensures DecimalValue(NatToString(n)) == n
    ensures NatToString(n)[0] == '0' ==> n == 0
  {
    var s := NatToString(n);
    if n >= 10 {
      NatToStringValue(n / 10);
      assert s[..|s| - 1] == NatToString(n / 10);
    }
  }

  /** A possibly absent string inside a template literal: `undefined` prints as that word. */
  function Interpolate(s: Option<string>): (r: string)
    ensures s.Some? ==> r == s.value
    ensures s.None? ==> r == "undefined"
  {
    if s.Some? then s.value else "undefined"
  }
}

=== FILE: table.dfy ===
/**
 * The single key-value table every handler shares, as an immutable map from
 * (partition key, sort key) to a row, with the store operations the handlers
 * issue: get, put (whole-row replace), update (upsert of some attributes),
 * query of one partition in sort-key order, and batch writes of at most 25
 * requests. Media rows live under `PK = userId`, album rows under
 * `SK = "ALBUM#" + id`, face rows under `PK = "IMAGE#" + imageId`,
 * `SK = "FACE#" + faceId`.
 */
module Table {
  import opened Base
  import opened Strings
  import opened Json

  datatype Key = Key(pk: string, sk: string)

  /**
   * A row: the attributes the handlers read or write, and `extra` for every
   * other attribute (kept as stored, never inspected).
   */
  datatype Row = Row(
    albumName: Option<string>,
    albumId: Option<string>,
    imageId: Option<string>,
    faceName: Option<string>,
    fileName: Option<string>,
    fileSize: Option<int>,
    createdAt: Option<string>,
    updatedAt: Option<string>,
    extra: map<string, Json>)

  /** The row an update creates when it meets no item: key attributes only. */
  const EmptyRow: Row := Row(None, None, None, None, None, None, None, None, map[])

  type Table = map<Key, Row>

  const ALBUM_PREFIX: string := "ALBUM#"
  const IMAGE_PREFIX: string := "IMAGE#"
  const FACE_PREFIX: string := "FACE#"

  /** GetItem. */
  function Get(t: Table, k: Key): (r: Option<Row>)
    ensures r.Some? <==> k in t
    ensures r.Some? ==> r.value == t[k]
  {
    if k in t then Some(t[k]) else None
  }

  /** The row an UpdateItem starts from: the stored one, or a fresh one (updates upsert). */
  function Existing(t: Table, k: Key): Row
  {
    if k in t then t[k] else EmptyRow
  }

  /** `t` and `t'` agree at `k`. */
  predicate SameAt(t: Table, t': Table, k: Key)
  {
    Get(t, k) == Get(t', k)
  }

  // ---------------------------------------------------------------------------
  // Query: the sort keys of one partition, in order
  // ---------------------------------------------------------------------------

  function PartitionSortKeys(t: Table, pk: string): (r: set<string>)
    ensures forall sk :: sk in r <==> Key(pk, sk) in t
  {
    set k | k in t && k.pk == pk :: k.sk
  }

  /** A query of partition `pk`, sort keys ascending (the default scan direction). */
  function QueryAscending(t: Table, pk: string): (r: seq<string>)
    ensures forall sk :: sk in r <==> Key(pk, sk) in t
    ensures Ascending(r)
  {
    SortAscending(PartitionSortKeys(t, pk))
  }

  /** A query of partition `pk` with `ScanIndexForward: false`: sort keys descending. */
  function QueryDescending(t: Table, pk: string): (r: seq<string>)
    ensures forall sk :: sk in r <==> Key(pk, sk) in t
    ensures Descending(r)
  {
    SortDescending(PartitionSortKeys(t, pk))
  }

  /** The sort keys of `sks` that satisfy `p`, in the same order: a filter on query results. */
  function Keep(sks: seq<string>, p: string -> bool): (r: seq<string>)
    ensures forall sk :: sk in r <==> sk in sks && p(sk)
    ensures |r| <= |sks|
  {
    if sks == [] then []
    else if p(sks[0]) then [sks[0]] + Keep(sks[1..], p)
    else Keep(sks[1..], p)
  }

  /** Keeping some elements of a descending sequence keeps it descending. */
  lemma {:induction false} KeepDescending(sks: seq<string>, p: string -> bool)
    requires Descending(sks)
    ensures Descending(Keep(sks, p))
  {
    if sks != [] {
      KeepDescending(sks[1..], p);
      var rest := Keep(sks[1..], p);
      if p(sks[0]) {
        var r := [sks[0]] + rest;
        forall i, j | 0 <= i < j < |r| ensures Less(r[j], r[i]) {
          if i == 0 {
            assert r[j] in sks[1..];
          }
        }
      }
    }
  }

  /** The sort keys of `sks` that begin with `prefix` (`begins_with(SK, prefix)`). */
  function WithPrefix(sks: seq<string>, prefix: string): (r: seq<string>)
    ensures forall sk :: sk in r <==> sk in sks && StartsWith(sk, prefix)
  {
    Keep(sks, sk => StartsWith(sk, prefix))
  }

  // ---------------------------------------------------------------------------
  // Batch writes
  // ---------------------------------------------------------------------------

  /** The store's cap on requests per BatchWriteItem call. */
  const BATCH_WRITE_LIMIT: nat := 25

  datatype WriteRequest = PutRequest(key: Key, row: Row) | DeleteRequest(key: Key)

  /** One request applied to the table. */
  function Apply(t: Table, w: WriteRequest): (t': Table)
    ensures w.PutRequest? ==> w.key in t' && t'[w.key] == w.row
    ensures w.DeleteRequest? ==> w.key !in t'
    ensures forall k :: k != w.key ==> SameAt(t, t', k)
  {
    match w
    case PutRequest(k, r) => t[k := r]
    case DeleteRequest(k) => t - {k}
  }

  /** The keys a list of requests names. */
  function KeysOf(ws: seq<WriteRequest>): (r: set<Key>)
    ensures forall i :: 0 <= i < |ws| ==> ws[i].key in r
    ensures forall k :: k in r ==> exists i :: 0 <= i < |ws| && ws[i].key == k
  {
    if ws == [] then {}
    else
      var r := {ws[0].key} + KeysOf(ws[1..]);
      assert forall i :: 1 <= i < |ws| ==> ws[i] == ws[1..][i - 1];
      r
  }

  /** The requests applied one after another: the reference meaning of a list of writes. */
  function ApplyAll(t: Table, ws: seq<WriteRequest>): (t': Table)
    ensures forall k :: k !in KeysOf(ws) ==> SameAt(t, t', k)
    decreases |ws|
  {
    if ws == [] then t else ApplyAll(Apply(t, ws[0]), ws[1..])
  }

  lemma {:induction false} ApplyAllAppend(t: Table, a: seq<WriteRequest>, b: seq<WriteRequest>)
    ensures ApplyAll(t, a + b) == ApplyAll(ApplyAll(t, a), b)
    decreases |a|
  {
    if a == [] {
      assert a + b == b;
    } else {
      assert (a + b)[0] == a[0];
      assert (a + b)[1..] == a[1..] + b;
      ApplyAllAppend(Apply(t, a[0]), a[1..], b);
    }
  }

  /** Deleting a list of keys removes exactly those keys. */
  lemma {:induction false} ApplyAllDeletes(t: Table, ws: seq<WriteRequest>)
    requires forall i :: 0 <= i < |ws| ==> ws[i].DeleteRequest?
    ensures ApplyAll(t, ws) == t - set i | 0 <= i < |ws| :: ws[i].key
    decreases |ws|
  {
    if ws != [] {
      ApplyAllDeletes(t - {ws[0].key}, ws[1..]);
      var s := set i | 0 <= i < |ws| :: ws[i].key;
      var s' := set i | 0 <= i < |ws[1..]| :: ws[1..][i].key;
      assert s == {ws[0].key} + s' by {
        forall k | k in s ensures k in {ws[0].key} + s' {
          var i :| 0 <= i < |ws| && ws[i].key == k;
          if i > 0 { assert ws[1..][i - 1].key == k; }
        }
      }
    }
  }

  /** No two requests of the batch name the same key. */
  predicate DistinctKeys(ws: seq<WriteRequest>)
  {
    forall i, j :: 0 <= i < j < |ws| ==> ws[i].key != ws[j].key
  }

  /** A request whose key no later request names, in front of requests with distinct keys. */
  lemma DistinctKeysCons(w: WriteRequest, ws: seq<WriteRequest>)
    requires w.key !in KeysOf(ws)
    requires DistinctKeys(ws)
    ensures DistinctKeys([w] + ws)
  {
    forall i, j | 0 <= i < j < |[w] + ws| ensures ([w] + ws)[i].key != ([w] + ws)[j].key {
      assert ([w] + ws)[j] == ws[j - 1];
      if i > 0 {
        assert ([w] + ws)[i] == ws[i - 1];
      }
    }
  }

  /** The requests of `ws` whose keys the store did not process. */
  function Unprocessed(ws: seq<WriteRequest>, unprocessed: set<Key>): (r: seq<WriteRequest>)
    ensures forall w :: w in r <==> w in ws && w.key in unprocessed
  {
    if ws == [] then []
    else if ws[0].key in unprocessed then [ws[0]] + Unprocessed(ws[1..], unprocessed)
    else Unprocessed(ws[1..], unprocessed)
  }

  /** The requests of `ws` the store did process. */
  function Processed(ws: seq<WriteRequest>, unprocessed: set<Key>): (r: seq<WriteRequest>)
    ensures forall w :: w in r <==> w in ws && w.key !in unprocessed
  {
    if ws == [] then []
    else if ws[0].key !in unprocessed then [ws[0]] + Processed(ws[1..], unprocessed)
    else Processed(ws[1..], unprocessed)
  }

  /**
   * What the store decides about BatchWriteItem calls: the keys whose requests
   * it hands back unprocessed, and the keys whose calls throw (a throttled or
   * failing call; a call is picked out by a key it carries).
   */
  datatype BatchStore = BatchStore(unprocessed: set<Key>, refused: set<Key>)

  /** What one BatchWriteItem call did. */
  datatype BatchOutcome =
    | Written(table: Table, unprocessedItems: seq<WriteRequest>)
    | Rejected

  /** No request of the batch carries a key on which the store throws. */
  predicate NoneRefused(batch: seq<WriteRequest>, store: BatchStore)
  {
    forall i :: 0 <= i < |batch| ==> batch[i].key !in store.refused
  }

  /**
   * One BatchWriteItem call. A batch that names one key twice is rejected as a
   * whole (a validation error), and so is a call the store fails; otherwise the
   * requests whose keys the store leaves unprocessed are handed back and the
   * others are applied.
   */
  function BatchWrite(t: Table, batch: seq<WriteRequest>, store: BatchStore): (r: BatchOutcome)
    ensures r.Rejected? <==> !DistinctKeys(batch) || !NoneRefused(batch, store)
    ensures r.Written? ==> r.table == ApplyAll(t, Processed(batch, store.unprocessed))
    ensures r.Written? ==> (r.unprocessedItems == [] <==> forall i :: 0 <= i < |batch| ==> batch[i].key !in store.unprocessed)
  {
    if !DistinctKeys(batch) || !NoneRefused(batch, store) then Rejected
    else
      var left := Unprocessed(batch, store.unprocessed);
      assert left == [] <==> forall i :: 0 <= i < |batch| ==> batch[i].key !in store.unprocessed by {
        if left == [] {
          forall i | 0 <= i < |batch| ensures batch[i].key !in store.unprocessed {
            assert batch[i] in batch;
          }
        } else {
          assert left[0] in batch;
        }
      }
      Written(ApplyAll(t, Processed(batch, store.unprocessed)), left)
  }

  lemma {:induction false} ProcessedAppend(a: seq<WriteRequest>, b: seq<WriteRequest>, unprocessed: set<Key>)
    ensures Processed(a + b, unprocessed) == Processed(a, unprocessed) + Processed(b, unprocessed)
    decreases |a|
  {
    if a == [] {
      assert a + b == b;
    } else {
      assert (a + b)[0] == a[0];
      assert (a + b)[1..] == a[1..] + b;
      ProcessedAppend(a[1..], b, unprocessed);
    }
  }

  lemma {:induction false} KeysOfAppend(a: seq<WriteRequest>, b: seq<WriteRequest>)
    ensures KeysOf(a + b) == KeysOf(a) + KeysOf(b)
  {
    forall k | k in KeysOf(a + b) ensures k in KeysOf(a) + KeysOf(b) {
      var i :| 0 <= i < |a + b| && (a + b)[i].key == k;
      if i >= |a| {
        assert b[i - |a|].key == k;
      }
    }
    forall k | k in KeysOf(a) + KeysOf(b) ensures k in KeysOf(a + b) {
      if k in KeysOf(a) {
        var i :| 0 <= i < |a| && a[i].key == k;
        assert (a + b)[i].key == k;
      } else {
        var i :| 0 <= i < |b| && b[i].key == k;
        assert (a + b)[|a| + i].key == k;
      }
    }
  }

  lemma KeysOfProcessed(ws: seq<WriteRequest>, unprocessed: set<Key>)
    ensures KeysOf(Processed(ws, unprocessed)) <= KeysOf(ws)
  {
    var done := Processed(ws, unprocessed);
    forall k | k in KeysOf(done) ensures k in KeysOf(ws) {
      var i :| 0 <= i < |done| && done[i].key == k;
      assert done[i] in done;
    }
  }

  /** A batch meets no store failure exactly when none of its keys is one the store throws on. */
  lemma NoneRefusedKeys(batch: seq<WriteRequest>, store: BatchStore)
    ensures NoneRefused(batch, store) <==> KeysOf(batch) !! store.refused
  {
    if !NoneRefused(batch, store) {
      var i :| 0 <= i < |batch| && batch[i].key in store.refused;
      assert batch[i].key in KeysOf(batch);
    }
  }

  /** A run of batches meets no store failure exactly when none of its keys is one the store throws on. */
  lemma {:induction false} NoneRefusedFlatten(batches: seq<seq<WriteRequest>>, store: BatchStore)
    ensures (forall i :: 0 <= i < |batches| ==> NoneRefused(batches[i], store)) <==> KeysOf(Flatten(batches)) !! store.refused
    decreases |batches|
  {
    if batches != [] {
      NoneRefusedFlatten(batches[1..], store);
      KeysOfAppend(batches[0], Flatten(batches[1..]));
      NoneRefusedKeys(batches[0], store);
      assert forall i :: 1 <= i < |batches| ==> batches[i] == batches[1..][i - 1];
    }
  }

  /** The end of a run of BatchWriteItem calls, with the table as it was left. */
  datatype BatchesOutcome = Completed(table: Table) | Stopped(table: Table)

  /**
   * A batch the store writes whole: no key twice, no call failure, and (when
   * leftovers count as failure) none left over.
   */
  predicate Accepted(batch: seq<WriteRequest>, store: BatchStore, stopOnLeftover: bool)
  {
    && DistinctKeys(batch) && NoneRefused(batch, store)
    && (stopOnLeftover ==> forall i :: 0 <= i < |batch| ==> batch[i].key !in store.unprocessed)
  }

  /** Every batch of a run is accepted. */
  predicate AllAccepted(batches: seq<seq<WriteRequest>>, store: BatchStore, stopOnLeftover: bool)
  {
    forall i :: 0 <= i < |batches| ==> Accepted(batches[i], store, stopOnLeftover)
  }

  /** A run is accepted when its first batch and the rest are. */
  lemma AllAcceptedCons(batches: seq<seq<WriteRequest>>, store: BatchStore, stopOnLeftover: bool)
    requires batches != []
    ensures AllAccepted(batches, store, stopOnLeftover) <==>
              Accepted(batches[0], store, stopOnLeftover) && AllAccepted(batches[1..], store, stopOnLeftover)
  {
    assert forall i :: 1 <= i < |batches| ==> batches[i] == batches[1..][i - 1];
  }

  /**
   * BatchWriteItem calls, one per batch, in order. A rejected batch throws
   * before anything of it is written; with `stopOnLeftover`, a batch that
   * hands back unprocessed items throws after its processed part is written.
   * Otherwise unprocessed items are dropped and the run goes on.
   */
  function WriteBatches(t: Table, batches: seq<seq<WriteRequest>>, store: BatchStore, stopOnLeftover: bool): (r: BatchesOutcome)
    ensures r.Completed? <==> AllAccepted(batches, store, stopOnLeftover)
    ensures r.Completed? ==> r.table == ApplyAll(t, Processed(Flatten(batches), store.unprocessed))
    decreases |batches|
  {
    if batches == [] then Completed(t)
    else
      AllAcceptedCons(batches, store, stopOnLeftover);
      match BatchWrite(t, batches[0], store)
      case Rejected => Stopped(t)
      case Written(t1, left) =>
        if stopOnLeftover && left != [] then Stopped(t1)
        else
          var rest := WriteBatches(t1, batches[1..], store, stopOnLeftover);
          ProcessedAppend(batches[0], Flatten(batches[1..]), store.unprocessed);
          ApplyAllAppend(t, Processed(batches[0], store.unprocessed), Processed(Flatten(batches[1..]), store.unprocessed));
          rest
  }

  /** However the run ends, no row outside the requests' keys has changed. */
  lemma {:induction false} WriteBatchesFrame(t: Table, batches: seq<seq<WriteRequest>>, store: BatchStore, stopOnLeftover: bool)
    ensures forall k :: k !in KeysOf(Flatten(batches)) ==>
              SameAt(t, WriteBatches(t, batches, store, stopOnLeftover).table, k)
    decreases |batches|
  {
    if batches != [] {
      KeysOfAppend(batches[0], Flatten(batches[1..]));
      KeysOfProcessed(batches[0], store.unprocessed);
      match BatchWrite(t, batches[0], store)
      case Rejected =>
      case Written(t1, left) =>
        if !(stopOnLeftover && left != []) {
          WriteBatchesFrame(t1, batches[1..], store, stopOnLeftover);
        }
    }
  }

  // ---------------------------------------------------------------------------
  // Chunking
  // ---------------------------------------------------------------------------

  function Flatten<T>(ss: seq<seq<T>>): seq<T>
  {
    if ss == [] then [] else ss[0] + Flatten(ss[1..])
  }

  /**
   * `chunkArray(s, n)`: consecutive chunks of `n` elements, the last one
   * possibly shorter, none empty.
   */
  function Chunks<T>(s: seq<T>, n: nat): (r: seq<seq<T>>)
    requires n > 0
    ensures Flatten(r) == s
    ensures forall i :: 0 <= i < |r| ==> 0 < |r[i]| <= n
    ensures forall i :: 0 <= i < |r| - 1 ==> |r[i]| == n
    decreases |s|
  {
    if s == [] then []
    else if |s| <= n then
      assert Flatten([s]) == s + Flatten([s][1..]);
      [s]
    else
      var rest := Chunks(s[n..], n);
      var r := [s[..n]] + rest;
      assert r[1..] == rest;
      assert s[..n] + s[n..] == s;
      r
  }

  /** Chunking a list of `n` or more elements takes the first `n` as its first chunk. */
  lemma ChunksStep<T>(s: seq<T>, i: nat, n: nat)
    requires n > 0 && i < |s|
    ensures Chunks(s[i..], n) ==
              (if |s| - i <= n then [s[i..]] else [s[i..i + n]] + Chunks(s[i + n..], n))
  {
    if |s| - i > n {
      assert s[i..][..n] == s[i..i + n];
      assert s[i..][n..] == s[i + n..];
    }
  }

  /** Cutting requests with distinct keys into batches never yields a batch the store rejects. */
  lemma {:induction false} ChunksDistinct(s: seq<WriteRequest>, n: nat)
    requires n > 0
    requires DistinctKeys(s)
    ensures forall i :: 0 <= i < |Chunks(s, n)| ==> DistinctKeys(Chunks(s, n)[i])
    decreases |s|
  {
    if s != [] && |s| > n {
      assert DistinctKeys(s[..n]) by {
        forall i, j | 0 <= i < j < n ensures s[..n][i].key != s[..n][j].key {
          assert s[..n][i] == s[i] && s[..n][j] == s[j];
        }
      }
      assert DistinctKeys(s[n..]) by {
        forall i, j | 0 <= i < j < |s| - n ensures s[n..][i].key != s[n..][j].key {
          assert s[n..][i] == s[n + i] && s[n..][j] == s[n + j];
        }
      }
      ChunksDistinct(s[n..], n);
      assert Chunks(s, n) == [s[..n]] + Chunks(s[n..], n);
    }
  }

  /**
   * The batching loop of lambdas/src/rekognition/indexFaces.ts: slices of
   * `BATCH_WRITE_LIMIT` requests taken from index 0 in steps of that size.
   */
  method SliceIntoBatches(requests: seq<WriteRequest>) returns (batches: seq<seq<WriteRequest>>)
    ensures batches == Chunks(requests, BATCH_WRITE_LIMIT)
    ensures Flatten(batches) == requests
    ensures forall b :: b in batches ==> 0 < |b| <= BATCH_WRITE_LIMIT
  {
    batches := [];
    var i: nat := 0;
    while i < |requests|
      invariant i < |requests| ==> batches + Chunks(requests[i..], BATCH_WRITE_LIMIT) == Chunks(requests, BATCH_WRITE_LIMIT)
      invariant i >= |requests| ==> batches == Chunks(requests, BATCH_WRITE_LIMIT)
      decreases |requests| - i
    {
      // `slice(i, i + 25)` stops at the end of the list
      var end := if i + BATCH_WRITE_LIMIT < |requests| then i + BATCH_WRITE_LIMIT else |requests|;
      SliceStep(requests, batches, i, end);
      batches := batches + [requests[i..end]];
      i := i + BATCH_WRITE_LIMIT;
    }
  }

  /** One more slice keeps the batches so far, followed by the chunks of the rest, equal to all chunks. */
  lemma SliceStep(requests: seq<WriteRequest>, batches: seq<seq<WriteRequest>>, i: nat, end: nat)
    requires i < |requests|
    requires end == if i + BATCH_WRITE_LIMIT < |requests| then i + BATCH_WRITE_LIMIT else |requests|
    requires batches + Chunks(requests[i..], BATCH_WRITE_LIMIT) == Chunks(requests, BATCH_WRITE_LIMIT)
    ensures end < |requests| ==>
              batches + [requests[i..end]] + Chunks(requests[end..], BATCH_WRITE_LIMIT) == Chunks(requests, BATCH_WRITE_LIMIT)
    ensures end == |requests| ==> batches + [requests[i..end]] == Chunks(requests, BATCH_WRITE_LIMIT)
  {
    ChunksStep(requests, i, BATCH_WRITE_LIMIT);
    var x := requests[i..end];
    if end == |requests| {
      assert x == requests[i..];
    } else {
      AppendAssoc(batches, [x], Chunks(requests[end..], BATCH_WRITE_LIMIT));
    }
  }

  lemma AppendAssoc<T>(a: seq<T>, b: seq<T>, c: seq<T>)
    ensures a + b + c == a + (b + c)
  {
  }
}

=== FILE: uploads.dfy ===
/**
 * The two handlers the object store's "object created" event drives:
 * lambdas/src/generateThumbnail.ts, which stores a thumbnail of the new object
 * and records the upload, and lambdas/src/s3UploadProcessor.ts, which records
 * the upload alone. Both take the owner and the file name from the object key
 * `userId/fileName`. The image resize is not modelled: a thumbnail is just a
 * key in the thumbnail bucket.
 */
module Uploads {
  import opened Base
  import opened Strings

  /** The `detail.object` of the event. */
  datatype ObjectCreated = ObjectCreated(key: string, size: int)

  /** The item the handlers put: owner, time, file name, size and (for thumbnails) the thumbnail's key. */
  datatype UploadItem = UploadItem(userId: string, date: string, fileName: string, fileSize: int, thumbnailKey: Option<string>)

  /** The thumbnail bucket's keys and the items put so far. */
  datatype Uploaded = Uploaded(thumbnails: set<string>, items: seq<UploadItem>)

  /**
   * What fails outside the model: fetching, resizing or storing the thumbnail,
   * and the PutItem call.
   */
  datatype UploadFaults = UploadFaults(thumbnailFails: bool, putFails: bool)

  /** `const [userId, fileName] = key.split('/')`: the first segment, and the second if there is one. */
  function OwnerOf(key: string): string
  {
    Split(key, '/')[0]
  }

  function FileNameOf(key: string): Option<string>
  {
    var parts := Split(key, '/');
    if |parts| >= 2 then Some(parts[1]) else None
  }

  /** A key `u/f` whose parts hold no `/` gives back `u` and `f` exactly. */
  lemma KeyPartsRecover(u: string, f: string)
    requires '/' !in u && '/' !in f
    ensures OwnerOf(u + "/" + f) == u
    ensures FileNameOf(u + "/" + f) == Some(f)
  {
    SplitAppend(u, f, '/');
    SplitWithoutSeparator(f, '/');
  }

  /** A key without `/` has no file name. */
  lemma NoSlashNoFileName(key: string)
    requires '/' !in key
    ensures OwnerOf(key) == key
    ensures FileNameOf(key).None?
  {
    SplitWithoutSeparator(key, '/');
  }

  /** `uploadThumbnail`'s key: `${userId}/${fileName}`. */
  function ThumbnailKey(key: string): string
  {
    OwnerOf(key) + "/" + Interpolate(FileNameOf(key))
  }

  /**
   * The thumbnail is stored under the original key exactly when the key has one
   * `/`: further segments are dropped, and a key without `/` gains `/undefined`.
   */
  lemma {:induction false} ThumbnailKeySameIffOneSlash(key: string)
    ensures ThumbnailKey(key) == key <==> |Split(key, '/')| == 2
  {
    var parts := Split(key, '/');
    JoinSplit(key, '/');
    if |parts| == 1 {
      assert key == parts[0];
      assert |ThumbnailKey(key)| > |key|;
    } else {
      assert Join(parts, '/') == parts[0] + ['/'] + Join(parts[1..], '/');
      if |parts| == 2 {
        assert Join(parts[1..], '/') == parts[1];
      } else {
        assert Join(parts[1..], '/') == parts[1] + ['/'] + Join(parts[2..], '/');
        assert |ThumbnailKey(key)| < |key|;
      }
    }
  }

  /**
   * `saveDataToDynamoDb`: building the item throws when the file name is
   * undefined (the marshaller refuses undefined attribute values) before its
   * `try`; a failed put is logged and swallowed.
   */
  function SaveItem(items: seq<UploadItem>, userId: string, fileName: Option<string>, size: int,
                    thumbnailKey: Option<string>, now: string, putFails: bool): (r: Option<seq<UploadItem>>)
    ensures r.None? <==> fileName.None?
    ensures r.Some? && !putFails ==> r.value == items + [UploadItem(userId, now, fileName.value, size, thumbnailKey)]
    ensures r.Some? && putFails ==> r.value == items
  {
    if fileName.None? then None
    else if putFails then Some(items)
    else Some(items + [UploadItem(userId, now, fileName.value, size, thumbnailKey)])
  }

  /**
   * `generateThumbnail`'s handler: the thumbnail is made and stored, then the
   * upload recorded with the thumbnail's key. Every failure, the undefined
   * file name included, ends up in the handler's `catch`.
   */
  function GenerateThumbnail(st: Uploaded, ev: ObjectCreated, now: string, f: UploadFaults): (r: Uploaded)
    ensures f.thumbnailFails ==> r == st
    ensures !f.thumbnailFails ==> r.thumbnails == st.thumbnails + {ThumbnailKey(ev.key)}
    ensures |r.items| <= |st.items| + 1
    ensures |r.items| == |st.items| + 1 <==> !f.thumbnailFails && !f.putFails && FileNameOf(ev.key).Some?
    ensures |r.items| == |st.items| + 1 ==>
              var item := r.items[|st.items|];
              r.items[..|st.items|] == st.items &&
              item.userId == OwnerOf(ev.key) && item.fileName == FileNameOf(ev.key).value &&
              item.fileSize == ev.size && item.thumbnailKey == Some(ThumbnailKey(ev.key)) && item.date == now
  {
    if f.thumbnailFails then st
    else
      var thumbnails := st.thumbnails + {ThumbnailKey(ev.key)};
      match SaveItem(st.items, OwnerOf(ev.key), FileNameOf(ev.key), ev.size, Some(ThumbnailKey(ev.key)), now, f.putFails)
      case None => Uploaded(thumbnails, st.items)
      case Some(items) => Uploaded(thumbnails, items)
  }

  /**
   * `s3UploadProcessor`'s handler: the upload recorded without a thumbnail.
   * Here the item is built outside the `try`, so an undefined file name makes
   * the handler throw (`None`); a failed put is swallowed.
   */
  function ProcessUpload(items: seq<UploadItem>, ev: ObjectCreated, now: string, putFails: bool): (r: Option<seq<UploadItem>>)
    ensures r.None? <==> FileNameOf(ev.key).None?
    ensures r.Some? ==> |r.value| == |items| + (if putFails then 0 else 1) && r.value[..|items|] == items
    ensures r.Some? && !putFails ==>
              r.value[|items|] == UploadItem(OwnerOf(ev.key), now, FileNameOf(ev.key).value, ev.size, None)
  {
    SaveItem(items, OwnerOf(ev.key), FileNameOf(ev.key), ev.size, None, now, putFails)
  }

  /** For a well-formed key `u/f` the recorded item names `u` and `f`, and the thumbnail sits under `u/f` itself. */
  lemma WellFormedUpload(st: Uploaded, u: string, fileName: string, size: int, now: string)
    requires '/' !in u && '/' !in fileName
    ensures var r := GenerateThumbnail(st, ObjectCreated(u + "/" + fileName, size), now, UploadFaults(false, false));
            r.thumbnails == st.thumbnails + {u + "/" + fileName} &&
            r.items == st.items + [UploadItem(u, now, fileName, size, Some(u + "/" + fileName))]
    ensures ProcessUpload(st.items, ObjectCreated(u + "/" + fileName, size), now, false) ==
              Some(st.items + [UploadItem(u, now, fileName, size, None)])
  {
    KeyPartsRecover(u, fileName);
  }
}
